=== FILE: README.md ===
# iRacing setup assistant: generator, comparisons and translations in Dafny

This project models the computing core of the iRacing Setup Assistant in
Dafny and proves properties of that model. It covers three parts.

- **The setup generator.** There are two versions.
  - The backend version (`backend/routes/generator.js`) runs a pipeline:
    - picks a template by car category and track type;
    - adapts it to the track's characteristics row and to the weather;
    - applies the driving style (`safe`, `aggressive`, `balanced`);
    - applies the session type (`qualifying`, `race`, `practice`);
    - rounds every value to instrument precision;
    - reports which adaptations fired and a confidence figure.
  - The serverless API version (`api/routes/generator.js`) does less. It builds
    an unrounded base setup from a fixed literal. It then applies the weather
    and track-condition adjustments, but only when the request's conditions
    pass two gates.
- **The setup comparison.**
  - The backend version (`backend/routes/comparisons.js`) checks the id list.
    It then diffs every setup's `data` tree recursively against the first
    setup's tree, and sums up ratings, downloads and lap times.
  - The API version (`api/routes/comparisons.js`) has its own id checks and a
    range analysis. Its `/diff` route is a shallow key-by-key diff.
- **The translation lookup** (`src/i18n/translations.js`). It looks a key up
  with a fallback to Spanish and then to the key itself. It fills positional
  `{i}` placeholders through `String.prototype.replace`.

## How JavaScript is modelled

- **Numbers** are `real`. `Math.round(x)` is `floor(x + 1/2)`.
- **Database and request values that may be absent or NULL** are an
  `Operand`: `Undefined`, `Null` or `Num`. JavaScript's comparisons are kept:
  - `undefined > c` and `undefined < c` are both false;
  - `null` compares as 0, so a NULL `length_km` counts as a short track.
- **Truthiness tests** (`if (x)`) are written out. A temperature of 0 is
  skipped.
- **JSON values** are a `Json` datatype.
  - An object keeps its fields in enumeration order.
  - Arrays and strings enumerate their decimal indices.
  - `===` on two objects is false, because every value comes from a separate
    parse.
- **Setup records.** Each setup subsystem is an `Option`, which mirrors the
  `if (setup.suspension)` guards. Each aerodynamic element is also an
  `Option`, which mirrors the per-key `typeof … === 'number'` tests.
- **Flat keys in the API adjustments.** The API version's adjustments write
  flat keys such as `tire_pressure_lf` onto a shallow copy of the nested
  setup. These keys do not exist, so `undefined + d` stores `NaN` there. The
  model keeps them in a separate map whose values can be `NaN`. The map is
  keyed by a type of the seven flat names, and a lemma shows that those names
  are distinct and that none of them is a key of the nested setup.

## Behaviour worth knowing (the model follows the code)

- **Brake balance.** The backend's GT3 road template has `balance: 53`
  (`backend/routes/generator.js:527`), and `roundSetupValues` rounds every
  `brakes` key, balance included, to a whole number (lines 366-373). 53.2 is
  the API version's template value (`api/routes/generator.js:167`), which is
  never rounded.
- **Default session.** The handler's default session type is `'race'`
  (`backend/routes/generator.js:15`).
- **No characteristics row.** In that case `applyTrackAdaptations` returns
  the deep copy as it is. It does not round it, and it ignores weather and
  temperature. `getAppliedAdaptations` still reports rain.
- **Low-grip pressure floor.** The 18.0 floor is broken by a hot day. The
  temperature rule runs later and takes 1.0 off unconditionally.
- **Rain.** The rain rule has no floor on the differential: power and coast
  can go negative.
- **Shadowed API declarations.** The first declarations of
  `applyWeatherAdjustments` and `applyTrackConditionsAdjustments` in
  `api/routes/generator.js` are shadowed by the second ones. So a weather
  string (`'rain'`) and the `low_grip` / `high_grip` track conditions change
  nothing.

## Model

| member | source | states |
|---|---|---|
| JsNumber.JsRound | backend/routes/generator.js:335 | `Math.round` returns the integer within half a unit, rounding halves up, and returns integers unchanged |
| Rounding.RoundSetupValues | backend/routes/generator.js:329-399 | suspension, aerodynamic, differential and brake values become whole numbers, pressures one decimal, final drive and ratios two decimals; the same subsystems and keys stay present; every value moves by at most half a unit of its precision |
| Rounding.RoundGearing | backend/routes/generator.js:385-396 | the final drive and every ratio are kept to two decimals, under the same gear names in the same order |
| Rounding.RoundingFixesRounded | backend/routes/generator.js:329-399 | a setup already at instrument precision comes back unchanged |
| Rounding.RoundSetupValuesIdempotent | backend/routes/generator.js:329-399 | rounding twice gives the same setup as rounding once |
| Rounding.RoundingKeepsPressureFloor | backend/routes/generator.js:376-382 | a one-decimal lower bound on every tire pressure survives the rounding |
| Rounding.RoundingKeepsAeroFloor | backend/routes/generator.js:349-355 | wings and splitter kept at 1 or more by the `Math.max(1, …)` cuts are still at 1 or more after rounding |
| Templates.GenerateDefaultSetup | backend/routes/generator.js:514-577 | the result is one of the four built-in templates: at instrument precision, without gearing, with suspension, aero, differential, brakes and pressures present |
| Templates.DefaultSetupTable | backend/routes/generator.js:576 | GT3/road, GT3/oval, Formula/road and NASCAR/oval pick their own template; every other pair falls back to GT3 road |
| Templates.TemplateAeroShape | backend/routes/generator.js:515-573 | GT3 and Formula templates have both wings and no splitter or spoiler; the NASCAR template has a splitter and a spoiler and no wings |
| Style.AggressiveStyle | backend/routes/generator.js:449-506 | the aggressive preset keeps every tire pressure at 19.0 or more, and on road tracks no wing or splitter cut goes below 1 |
| Style.AggressiveSuspension | backend/routes/generator.js:454-463 | the aggressive suspension changes keep the setup's shape and never touch aerodynamics or pressures |
| Style.ApplySetupStyle | backend/routes/generator.js:402-511 | the styled setup is rounded and has the input's shape; an unknown or `balanced` style only rounds; the aggressive floors survive the rounding |
| Session.ApplySessionModifications | backend/routes/generator.js:723-753 | the result is rounded and has the input's shape; qualifying leaves pressures, suspension, differential, brakes, gearing and the splitter and spoiler as rounding alone would; a race leaves aero, suspension, differential, brakes and gearing as rounding alone would; any other session only rounds |
| Session.RacePressures | backend/routes/generator.js:737-745 | in a race, pressures already at one decimal each rise by exactly 0.2 |
| Session.QualifyingWings | backend/routes/generator.js:727-735 | in qualifying a whole, non-zero front wing gains exactly 1 and rear wing exactly 2 |
| Adaptation.LengthRule | backend/routes/generator.js:586-616 | on a long track the wing and splitter cuts never go below 1; the shape of the setup is kept |
| Adaptation.ElevationRule | backend/routes/generator.js:619-628 | elevation changes never touch the aerodynamics and keep the shape |
| Adaptation.BankingRule | backend/routes/generator.js:631-644 | banking never touches the aerodynamics and keeps the shape |
| Adaptation.GripRule | backend/routes/generator.js:647-675 | low grip leaves every pressure at 18.0 or more; grip never touches the aerodynamics |
| Adaptation.DownforceRule | backend/routes/generator.js:678-681 | a high-downforce track never lowers an aero element and never touches the pressures |
| Adaptation.RainRule | backend/routes/generator.js:684-699 | rain never lowers a pressure and never touches the aerodynamics |
| Adaptation.TemperatureRule | backend/routes/generator.js:702-716 | only a hot day (truthy temperature above 30) can lower a pressure |
| Adaptation.ApplyTrackAdaptations | backend/routes/generator.js:580-720 | without characteristics the setup comes back as it is; with them the result is rounded; the shape is always kept |
| Adaptation.LongTrackAeroFloor | backend/routes/generator.js:586-603 | after the whole adaptation, a long track's wing and splitter cuts are still floored at 1 |
| Adaptation.LowGripPressureFloor | backend/routes/generator.js:647-662 | after the whole adaptation, on a day that is not hot, low grip leaves every pressure at 18.0 or more |
| Adaptation.HotDayBreaksLowGripFloor | backend/routes/generator.js:702-708 | low grip on a hot day takes 19.0 pressures down to 17.0, below the 18.0 low-grip floor |
| Adaptation.RainPowerLockHasNoFloor | backend/routes/generator.js:695-698 | rain takes a differential power of 10 down to -10 and a coast of 5 down to -5, with no floor |
| Adaptation.NullLengthIsShortTrack | backend/routes/generator.js:604-616 | a NULL track length counts as a short track (springs 950/1050 become 903/998), while a missing one triggers neither length rule |
| Adaptation.FiredRules | backend/routes/generator.js:756-782 | the indices of the rules that fired, each once, in increasing order, and no others |
| Adaptation.NoneFired | backend/routes/generator.js:756-782 | when no rule fired there are no indices |
| Adaptation.FiredList | backend/routes/generator.js:759-779 | the six firing tests, one per rule, in the order the log checks them |
| Adaptation.LogInOrder | backend/routes/generator.js:756-782 | the adaptation log holds each message exactly when its rule fired, in rule order, with no repeats |
| Adaptation.LogNothingFired | backend/routes/generator.js:756-782 | when no rule fired the log is empty |
| Adaptation.GetAppliedAdaptations | backend/routes/generator.js:756-782 | at most six known messages, in rule order, each present if and only if its condition holds |
| Adaptation.NoRowNoRainNoAdaptations | backend/routes/generator.js:756-782 | without characteristics and without rain the log is empty |
| Adaptation.RainReportedWithoutCharacteristics | backend/routes/generator.js:777-779 | without characteristics, rain is reported as applied while the setup is returned unchanged |
| Generator.CalculateConfidence | backend/routes/generator.js:785-798 | confidence is 0.7, plus 0.2 with a characteristics row, plus 0.1 for GT3, Formula or NASCAR, and always between 0.7 and 1.0 |
| Generator.GenerateSetup | backend/routes/generator.js:88-114 | the template, adapted, styled, set up for the session and rounded, is at instrument precision and has the template's shape |
| Generator.Generate | backend/routes/generator.js:12-150 | the generated setup is rounded and has the same fields as the template it came from; the confidence is the one `calculateConfidence` gives, within 0.7..1.0; the adaptations are the log `getAppliedAdaptations` gives, at most six |
| Generator.FinalRoundingIsIdentity | backend/routes/generator.js:114 | the handler's final rounding pass changes nothing, since the session stage already rounds |
| Generator.SafeStyleOnGt3Road | backend/routes/generator.js:402-448 | the safe style on the GT3 road template, once rounded, gives springs 836/945, dampers 60/55, anti-roll bars 7/5, wings 5/8, differential 68/51/34, brakes 55/76 and pressures 23.5/23.5/23.0/23.0 |
| Generator.SafePracticeScenario | backend/routes/generator.js:88-114 | GT3 on a road track with style `safe` in practice and no characteristics yields exactly the safe-styled GT3 road template: the adaptation, the practice session and the final rounding change nothing |
| Generator.DefaultSessionIsRace | backend/routes/generator.js:15 | a request without a session type is treated as a race: 0.2 more on every pressure of the template |
| Generator.LowGripScenario | backend/routes/generator.js:647-662 | low grip on the GT3 road template gives springs 836/945, differential 80/50/37 and pressures 21.5/21.5/21.0/21.0 |
| Generator.FormulaOvalSetup | backend/routes/generator.js:576 | a Formula car on an oval in practice, with no characteristics and the default style, gets the GT3 road template unchanged |
| Generator.FormulaOvalUsesGt3Road | backend/routes/generator.js:576 | a Formula car on an oval falls back to the GT3 road template, with confidence 0.8 and no adaptations |
| ApiGenerator.StyleAdjust | api/routes/generator.js:193-212 | the style switch never touches dampers, caster, differential, ducts, compound, gearing, tires or fuel |
| ApiGenerator.OvalAdjust | api/routes/generator.js:215-224 | the oval block never touches brakes or fuel |
| ApiGenerator.SessionAdjust | api/routes/generator.js:227-231 | qualifying sets fuel to the larger of 20 and the amount minus 30, and never touches suspension, brakes or tires |
| ApiGenerator.GenerateBaseSetup | api/routes/generator.js:134-234 | the fixed fields are the template's; dampers stay 65/70 and 60/65; fuel is 35 in qualifying and 65 otherwise, never below 20 |
| ApiGenerator.PlainRequestIsTemplate | api/routes/generator.js:136-189 | a non-oval track outside qualifying with any style but `aggressive` or `safe` returns the literal template (springs 950/1050, wings 4/6, balance 53.2, fuel 65) |
| ApiGenerator.StyleDeltas | api/routes/generator.js:193-212 | against `balanced`, `aggressive` adds 50 to the springs, 2 and 3 to the wings and 1.5 to the balance; `safe` takes 50 off the springs, 1 off the front wing and 1 off the balance and adds 1 to the rear wing |
| ApiGenerator.OvalDeltas | api/routes/generator.js:215-224 | exactly `'oval'` adds 100 to both springs, 2 to both wings and 1.0 to every pressure, and nothing else |
| ApiGenerator.QualifyingDeltas | api/routes/generator.js:227-231 | qualifying adds 1 and 2 to the wings and brings the fuel from 65 to 35 |
| ApiGenerator.AggressiveBalanceUnrounded | api/routes/generator.js:194-200 | nothing is rounded: the aggressive balance on a road track in a race is 54.7, not a whole number |
| ApiGenerator.FlatKeysAreNotNested | api/routes/generator.js:309-346 | the seven flat property names are distinct and none is a key of the nested setup, so the adjustments never reach it |
| ApiGenerator.AddFlat | api/routes/generator.js:309 | `+=` on a property leaves it present; a missing or `NaN` value becomes `NaN`; every other property is kept |
| ApiGenerator.AddTires | api/routes/generator.js:309-312 | the four tire keys are present afterwards, every other property is kept, and `NaN` values stay `NaN` |
| ApiGenerator.ApplyWeatherAdjustments | api/routes/generator.js:305-327 | the nested setup is never changed; flat keys are only added, never removed, and all hold `NaN`; a string or number weather changes nothing |
| ApiGenerator.ApplyTrackConditionsAdjustments | api/routes/generator.js:330-352 | the nested setup is never changed; flat keys are only added, never removed, and all hold `NaN`; any condition but `green`, `dusty` or `wet` changes nothing |
| ApiGenerator.GenerateApiSetup | api/routes/generator.js:96-102 | the nested setup is the base setup with defaults `balanced` and `race`; every flat key holds `NaN`; with neither gate open there are none |
| ApiGenerator.StringWeatherIsIdentity | api/routes/generator.js:305-327 | a weather given as a string, the form the UI sends, never changes the setup |
| ApiGenerator.GripConditionsIgnored | api/routes/generator.js:333-351 | `low_grip` and `high_grip` track conditions change nothing |
| ApiGenerator.HotWeatherCreatesNaNTires | api/routes/generator.js:308-312 | a weather object above 25 degrees adds exactly the four tire keys, each `NaN`, and leaves the nested setup alone |
| ApiGenerator.ColdRainKeys | api/routes/generator.js:313-324 | a weather object at 10 degrees with rain writes all seven flat keys onto a fresh setup |
| ApiGenerator.RainNeverReachesNestedSetup | api/routes/generator.js:96-102 | cold rain on a wet track leaves the nested wings, springs, balance and pressures as generated, adding every flat key instead |
| Json.KeysOf | backend/routes/comparisons.js:419 | `Object.keys` enumerates every key once |
| Json.KeysAreReadable | backend/routes/comparisons.js:419-424 | every enumerated key reads a defined value |
| Json.StrictEqIsEquality | backend/routes/comparisons.js:426 | `===` holds exactly for equal values that are not objects or arrays |
| DataDiff.UnionKeys | backend/routes/comparisons.js:419 | the visited keys are those of either side, each once |
| DataDiff.UnionKeysOrder | backend/routes/comparisons.js:419 | the first side's keys come first in their own order, then exactly the keys only the second side has |
| DataDiff.GenerateDataDifferences | backend/routes/comparisons.js:415-443 | every entry has different values that are not both objects, and its type is `added` exactly when the old value is undefined, `removed` exactly when only the new one is, `changed` otherwise |
| DataDiff.NoDiffOnEqualData | backend/routes/comparisons.js:415-443 | a tree diffed against an identical tree has no differences |
| DataDiff.CompareComplete | backend/routes/comparisons.js:418-440 | every key path whose values differ and stay objects down to a non-object leaf is reported, with its dotted path |
| DataDiff.CompareSound | backend/routes/comparisons.js:418-440 | every reported entry comes from such a key path |
| DataDiff.NullAgainstObjectIsChanged | backend/routes/comparisons.js:427-436 | a `null` against an object is reported as one `changed` leaf, not descended into |
| DataDiff.OnlyInSecondIsAdded | backend/routes/comparisons.js:430-435 | a key only the second side has is reported as `added` with its whole value |
| Comparisons.ValidateSetupIds | backend/routes/comparisons.js:16 | the id list is accepted if and only if it is an array of 2 to 4 entries; otherwise the 400 message |
| Comparisons.SetupKeyInjective | backend/routes/comparisons.js:408 | distinct setup ids give distinct `setup_<id>` keys |
| Comparisons.Assign | backend/routes/comparisons.js:408 | assigning a property appends a new key at the end and overwrites an existing key in place, keeping the key order; the pair is present afterwards |
| Comparisons.AssignAllAppends | backend/routes/comparisons.js:406-409 | assigning pairs with distinct keys, one after another, to an empty object lists exactly those pairs in assignment order |
| Comparisons.DistinctIdsDistinctKeys | backend/routes/comparisons.js:408 | rows with distinct ids produce distinct `setup_<id>` keys |
| Comparisons.OneEntryPerSetup | backend/routes/comparisons.js:399-412 | with distinct ids the differences object has one entry per later setup, in order, keyed `setup_<id>`, holding its data diff against the first setup |
| Comparisons.GenerateSetupDifferences | backend/routes/comparisons.js:399-412 | `null` if and only if fewer than two setups; with distinct ids, one entry per later setup, in order, each its data diff against the first |
| Comparisons.TotalDownloadsAppend | backend/routes/comparisons.js:450 | the download total splits over a concatenation, each row counted once, a missing count as 0 |
| Comparisons.LapTimes | backend/routes/comparisons.js:455 | the lap times are exactly the truthy `lap_time` values of the rows |
| Comparisons.LapTimesAppend | backend/routes/comparisons.js:455 | the lap-time filter keeps the row order across a concatenation |
| Comparisons.GenerateComparisonSummary | backend/routes/comparisons.js:446-457 | the count is the number of setups; the average times the count is the rating total, and it is `NaN` (`0 / 0`, `None` in the model) only for no setups; downloads and lap times as above |
| Comparisons.CompareSetups | backend/routes/comparisons.js:16-93 | accepted if and only if the ids pass and every setup was found; `sameCarTrack` holds exactly when every row has the first row's car and track; the summary is the comparison summary of the rows; differences are present exactly when `sameCarTrack` holds, and are then the setup differences of the rows, one per later setup for distinct ids |
| ApiComparisons.ValidateSetupIds | api/routes/comparisons.js:42-48 | accepted if and only if it is an array of 2 to 5 ids; more than 5 gets the maximum message, anything else the minimum message |
| ApiComparisons.RangeOf | api/routes/comparisons.js:88-95 | the range's minimum and maximum are values of the list and bound every value |
| ApiComparisons.Analyze | api/routes/comparisons.js:83-97 | `commonCar` and `commonTrack` hold exactly when all rows agree; the rating and download ranges bound every row's value (0 when missing) and are attained |
| ApiComparisons.CompareSetups | api/routes/comparisons.js:42-97 | accepted if and only if the ids pass and every setup was found; the result is then the analysis of the rows; a failed id check carries its own message, and a missing setup the not-found message |
| ApiComparisons.DiffKey | api/routes/comparisons.js:140-148 | a key yields a row exactly when its two values are not `===` |
| ApiComparisons.ShallowDiff | api/routes/comparisons.js:134-150 | the diff fails exactly when the second data is `null` and the first has keys; otherwise at most one row per key of the first |
| ApiComparisons.ShallowDiffRows | api/routes/comparisons.js:139-150 | each row is a key of the first data with both values and a numeric difference, the second value minus the first, exactly when both are numbers, and every differing key of the first data has a row |
| ApiComparisons.SecondOnlyKeysIgnored | api/routes/comparisons.js:139 | a key only the second setup has is never reported |
| ApiComparisons.NestedObjectsAlwaysReported | api/routes/comparisons.js:140 | a nested object is always reported, even against an equal one, with no numeric difference |
| ApiComparisons.MissingInSecondReported | api/routes/comparisons.js:140-148 | a key of the first setup missing from the second is reported |
| Translations.TableFor | src/i18n/translations.js:350 | `translations[language]` exists exactly for `es` and `en`, and is that language's table |
| Translations.LastBinding | src/i18n/translations.js:3-347 | the block found is the last one binding the key; no block binds it exactly when none is found |
| Translations.Find | src/i18n/translations.js:350 | a key reads `undefined` exactly when no block binds it; otherwise it reads the text of the last block that binds it |
| Translations.GetTranslation | src/i18n/translations.js:349-351 | a non-empty text of the language's table wins; otherwise the non-empty Spanish text; otherwise the key itself |
| Translations.UnknownLanguageIsSpanish | src/i18n/translations.js:350 | every language code but `en` reads the Spanish texts |
| TranslationTable.HeaderAndNavigationMatches | src/i18n/translations.js:6-12 | this Spanish block and its English block (lines 178-184) bind the same keys, and no text in either is empty |
| TranslationTable.SearchMatches | src/i18n/translations.js:15-20 | this Spanish block and its English block (lines 187-192) bind the same keys, and no text in either is empty |
| TranslationTable.SessionTypesMatches | src/i18n/translations.js:23-26 | this Spanish block and its English block (lines 195-198) bind the same keys, and no text in either is empty |
| TranslationTable.SetupCard1Matches | src/i18n/translations.js:29-36 | this Spanish block and its English block (lines 201-208) bind the same keys, and no text in either is empty |
| TranslationTable.SetupCard2Matches | src/i18n/translations.js:37-44 | this Spanish block and its English block (lines 209-216) bind the same keys, and no text in either is empty |
| TranslationTable.SetupStylesMatches | src/i18n/translations.js:47-49 | this Spanish block and its English block (lines 219-221) bind the same keys, and no text in either is empty |
| TranslationTable.Generator1Matches | src/i18n/translations.js:52-57 | this Spanish block and its English block (lines 224-229) bind the same keys, and no text in either is empty |
| TranslationTable.Generator2Matches | src/i18n/translations.js:58-63 | this Spanish block and its English block (lines 230-235) bind the same keys, and no text in either is empty |
| TranslationTable.GeneratorInfoMatches | src/i18n/translations.js:66-75 | this Spanish block and its English block (lines 238-247) bind the same keys, and no text in either is empty |
| TranslationTable.ConfigurationStylesMatches | src/i18n/translations.js:78-82 | this Spanish block and its English block (lines 250-254) bind the same keys, and no text in either is empty |
| TranslationTable.TechnicalDetailsMatches | src/i18n/translations.js:85-93 | this Spanish block and its English block (lines 257-265) bind the same keys, and no text in either is empty |
| TranslationTable.TechnicalComponents1Matches | src/i18n/translations.js:96-102 | this Spanish block and its English block (lines 268-274) bind the same keys, and no text in either is empty |
| TranslationTable.TechnicalComponents2Matches | src/i18n/translations.js:103-109 | this Spanish block and its English block (lines 275-281) bind the same keys, and no text in either is empty |
| TranslationTable.TechnicalComponents3Matches | src/i18n/translations.js:110-116 | this Spanish block and its English block (lines 282-288) bind the same keys, and no text in either is empty |
| TranslationTable.FavoritesMatches | src/i18n/translations.js:119 | this Spanish block and its English block (lines 291) bind the same keys, and no text in either is empty |
| TranslationTable.ComparatorMatches | src/i18n/translations.js:122-124 | this Spanish block and its English block (lines 294-296) bind the same keys, and no text in either is empty |
| TranslationTable.AuthenticationMatches | src/i18n/translations.js:127-136 | this Spanish block and its English block (lines 299-308) bind the same keys, and no text in either is empty |
| TranslationTable.SetupFile1Matches | src/i18n/translations.js:139-148 | this Spanish block and its English block (lines 311-320) bind the same keys, and no text in either is empty |
| TranslationTable.SetupFile2Matches | src/i18n/translations.js:149-158 | this Spanish block and its English block (lines 321-330) bind the same keys, and no text in either is empty |
| TranslationTable.SetupFile3Matches | src/i18n/translations.js:159-168 | this Spanish block and its English block (lines 331-340) bind the same keys, and no text in either is empty |
| TranslationTable.LanguagesMatches | src/i18n/translations.js:171-173 | this Spanish block and its English block (lines 343-345) bind the same keys, and no text in either is empty |
| TranslationTable.AppTranslationsComplete | src/i18n/translations.js:3-347 | the application's `translations` object, assembled from its 21 blocks per language in source order, is complete: same number of blocks, each binding the same keys in both languages with no empty text |
| Translations.FindInComplete | src/i18n/translations.js:349-351 | in a table whose blocks all match, a key is bound in Spanish exactly when it is bound in English, and both texts are non-empty |
| Translations.KnownKeysTranslated | src/i18n/translations.js:349-351 | in a table whose blocks all match, a key of the table is always translated: English for `en`, Spanish for every other code |
| Translations.UnknownKeyIsEchoed | src/i18n/translations.js:350 | in a table whose blocks all match, an unknown key comes back as the key itself, in every language |
| Translations.AppKnownKeysTranslated | src/i18n/translations.js:349-351 | in the application's own table, a key it defines is translated: into English for `en`, into Spanish for every other code |
| Translations.AppUnknownKeyIsEchoed | src/i18n/translations.js:349-351 | in the application's own table, a key it does not define comes back as the key itself, in every language |
| Translations.FindFrom | src/i18n/translations.js:356 | the search finds the first occurrence at or after the start, or reports that there is none |
| Translations.ReplaceFirstOnly | src/i18n/translations.js:356 | a string pattern replaces its first occurrence only, keeping the text around it, with the replacement's `$` patterns expanded; a replacement without `$` is inserted as it is |
| Translations.FormatTranslation | src/i18n/translations.js:353-358 | without arguments the result is the plain translation |
| Translations.NoBraceUnchanged | src/i18n/translations.js:355-357 | a text with no `{` is unchanged by any arguments |
| Translations.PlainTranslationIgnoresArgs | src/i18n/translations.js:353-358 | a translation with no `{` is returned as it is, whatever the arguments |
| Translations.FirstPlaceholderOnly | src/i18n/translations.js:356 | `"{0} / {0}"` with argument `x` becomes `"x / {0}"`: a repeated placeholder is filled once |
| Translations.DollarAmpersandReinsertsPlaceholder | src/i18n/translations.js:356 | an argument `$&` puts the placeholder back instead of inserting itself |

## Left out

- The database reads are left out. This covers car, track, characteristics and templates, `backend/routes/generator.js:19-90`. The category, the track type and the characteristics row are inputs, and the built-in template table is always used.
- The `basedOnTemplate` / `templateId` metadata is left out, because it depends on the database template lookup.
- Authentication, the Express routing and the other routes of the two route files (`/save`, `/templates`, `/saved`, history and versions) are left out. They are I/O around the core.
- The response fields that are copies of input rows are left out. This covers `car`, `track` and the echoed styles.
- `generatedAt` timestamps and the summary's `dateRange` are left out, because they read the clock and parse dates.
- `generateRecommendations` and `optimizeSetupFromSimilar` are not part of this model. They are outside the modelled pipelines, and the latter is never called.
- The unused `track` and `car` parameters are left out. This covers `applyTrackAdaptations`, `getAppliedAdaptations`, `calculateConfidence` and the API's `generateBaseSetup`.
- Floating-point artefacts are left out. Arithmetic is exact over reals, so `Math.min(confidence, 1.0)` never caps, and sums such as `53.2 + 1.5` are exact.
- Inherited prototype properties are left out. `Object.keys` and property reads see own fields only, so a key such as `constructor` reads `undefined`.
- Values that `pg` returns as strings are left out. These are numeric columns and `data` columns stored as JSON text. Rows arrive already parsed, with numbers as numbers.
- A `null` `conditions` body in the API generator is left out. It throws before any adjustment and becomes a 500 response.
- A `null` `conditions` in the backend generator request is left out. The default `conditions = {}` (`backend/routes/generator.js:15`) applies only to a missing field. `null` makes `getAppliedAdaptations` throw at line 777, and with a characteristics row `applyTrackAdaptations` throws at line 684, so the request becomes a 500 response. The model's conditions are present or absent only.
- String-valued temperatures are left out. A request may carry `temperature: "0"`, which is truthy and compares numerically (`"0" < 15`), so the cold rule at `backend/routes/generator.js:709-714` would fire where a numeric 0 skips it. The same coercion applies to `weather.temperature` at `api/routes/generator.js:308` and `313`. The model's temperatures are numbers, `null` or missing.
- Non-string arguments to `formatTranslation` are left out. They are converted with `String()`, and the model takes strings.
- The React components and `LanguageContext` are left out. They are UI around the translation lookup.
- Translations.PlainTranslationIgnoresArgs: takes "the translation contains no `{`" as a precondition rather than proving it for every text of the table. No text of the table contains `{`, but checking `'{' !in text` over the texts of even one ten-entry block runs the solver out of resources.
- ApiComparisons.Analyze: requires at least one row. `Math.min()` of no values is `Infinity`, but the handler only reaches the analysis with 2 to 5 rows.
- Comparisons.GenerateSetupDifferences: states the one-entry-per-setup layout only for distinct ids. With a repeated id, a later setup overwrites the earlier entry in place, and the model computes that but states no more about it.
- ApiComparisons.ShallowDiff: when the `/diff` route throws, the model returns `Err` with the route's 500 message. It does not model the exception object.

=== FILE: adaptation.dfy ===
/**
 * `applyTrackAdaptations` and `getAppliedAdaptations`
 * (backend/routes/generator.js).
 *
 * The characteristics are a database row, so each numeric column may be
 * missing (`undefined`), SQL NULL (`null`) or a number, and JavaScript's
 * comparisons apply: `undefined > 5` and `undefined < 2` are false, while
 * `null < 2` is true because `null` compares as 0.
 */
module Adaptation {

  import opened Options
  import opened JsNumber
  import opened Setup
  import opened SetupEdits
  import opened Rounding

  datatype TrackCharacteristics = TrackCharacteristics(
    lengthKm: Operand,
    elevationChange: Operand,
    bankingMax: Operand,
    gripLevel: Option<string>,
    downforceImportance: Option<string>)

  /** The request's `conditions` object (`{}` when the request has none). */
  datatype Conditions = Conditions(weather: Option<string>, temperature: Operand)

  const NoConditions := Conditions(None, Undefined)

  predicate IsLong(ch: TrackCharacteristics) { GreaterThan(ch.lengthKm, 5.0) }
  predicate IsShort(ch: TrackCharacteristics) { LessThan(ch.lengthKm, 2.0) }
  predicate IsHilly(ch: TrackCharacteristics) { GreaterThan(ch.elevationChange, 50.0) }
  predicate IsBanked(ch: TrackCharacteristics) { GreaterThan(ch.bankingMax, 15.0) }
  predicate IsLowGrip(ch: TrackCharacteristics) { ch.gripLevel == Some("low") }
  predicate IsHighGrip(ch: TrackCharacteristics) { ch.gripLevel == Some("high") }
  predicate NeedsDownforce(ch: TrackCharacteristics) { ch.downforceImportance == Some("high") }
  predicate IsRain(c: Conditions) { c.weather == Some("rain") }
  /** `if (conditions.temperature) { if (t > 30) ... }`: a temperature of 0 is skipped. */
  predicate IsHot(c: Conditions) { Truthy(c.temperature) && c.temperature.value > 30.0 }
  predicate IsCold(c: Conditions) { Truthy(c.temperature) && c.temperature.value < 15.0 }

  /** Long tracks lose downforce and tire pressure; short ones gain downforce. */
  function LengthRule(s: Setup, ch: TrackCharacteristics): (r: Setup)
    ensures SameShape(s, r)
    ensures IsLong(ch) && s.aerodynamics.Some? ==> AeroCutFloored(s.aerodynamics.value, r.aerodynamics.value)
  {
    if IsLong(ch) then
      AddPressures(ScaleSprings(CutAero(s, 2.0, 3.0, 1.0), 1.05, 1.05), -0.5)
    else if IsShort(ch) then
      ScaleSprings(BumpAero(s, 1.0, 2.0, 1.0, 0.0), 0.95, 0.95)
    else s
  }

  function ElevationRule(s: Setup, ch: TrackCharacteristics): (r: Setup)
    ensures SameShape(s, r)
    ensures r.aerodynamics == s.aerodynamics
  {
    if IsHilly(ch) then AddRideHeights(ScaleSprings(s, 1.08, 1.06), 2.0, 2.0) else s
  }

  function BankingRule(s: Setup, ch: TrackCharacteristics): (r: Setup)
    ensures SameShape(s, r)
    ensures r.aerodynamics == s.aerodynamics
  {
    if IsBanked(ch) then AddRightPressures(AddAntiRollBars(ScaleSprings(s, 1.15, 1.12), 3.0, 2.0), 2.0)
    else s
  }

  function GripRule(s: Setup, ch: TrackCharacteristics): (r: Setup)
    ensures SameShape(s, r)
    ensures r.aerodynamics == s.aerodynamics
    ensures IsLowGrip(ch) && r.tirePressures.Some? ==> AllPressuresAtLeast(r.tirePressures.value, 18.0)
  {
    if IsLowGrip(ch) then LowerPressures(AddDifferential(ScaleSprings(s, 0.88, 0.90), -15.0, -8.0), 18.0, 1.5)
    else if IsHighGrip(ch) then AddPressures(ScaleSprings(s, 1.06, 1.04), 0.5)
    else s
  }

  function DownforceRule(s: Setup, ch: TrackCharacteristics): (r: Setup)
    ensures SameShape(s, r)
    ensures r.tirePressures == s.tirePressures
    ensures s.aerodynamics.Some? ==> AeroFloorKept(s.aerodynamics.value, r.aerodynamics.value)
  {
    if NeedsDownforce(ch) then BumpAero(s, 2.0, 3.0, 0.0, 0.0) else s
  }

  /** Rain: higher pressures, softer springs, a more open differential (no floor). */
  function RainRule(s: Setup, c: Conditions): (r: Setup)
    ensures SameShape(s, r)
    ensures r.aerodynamics == s.aerodynamics
    ensures PressuresNotLowered(s, r)
  {
    if IsRain(c) then AddDifferential(ScaleSprings(AddPressures(s, 1.5), 0.85, 0.88), -20.0, -10.0) else s
  }

  function TemperatureRule(s: Setup, c: Conditions): (r: Setup)
    ensures SameShape(s, r)
    ensures r.aerodynamics == s.aerodynamics
    ensures !IsHot(c) ==> PressuresNotLowered(s, r)
  {
    if IsHot(c) then AddPressures(s, -1.0)
    else if IsCold(c) then AddPressures(s, 1.0)
    else s
  }

  /** The rules in source order, before the final rounding. */
  function AdaptUnrounded(s: Setup, ch: TrackCharacteristics, c: Conditions): (r: Setup)
    ensures SameShape(s, r)
  {
    var s1 := LengthRule(s, ch);
    var s2 := ElevationRule(s1, ch);
    var s3 := BankingRule(s2, ch);
    var s4 := GripRule(s3, ch);
    var s5 := DownforceRule(s4, ch);
    var s6 := RainRule(s5, c);
    SameShapeTransitive(s, s1, s2);
    SameShapeTransitive(s, s2, s3);
    SameShapeTransitive(s, s3, s4);
    SameShapeTransitive(s, s4, s5);
    SameShapeTransitive(s, s5, s6);
    SameShapeTransitive(s, s6, TemperatureRule(s6, c));
    TemperatureRule(s6, c)
  }

  /**
   * `applyTrackAdaptations(baseSetup, track, characteristics, conditions)`.
   * The track argument is unused by the source and left out. Without
   * characteristics the copy is returned as is: not rounded, and with
   * weather and temperature ignored.
   */
  function ApplyTrackAdaptations(s: Setup, ch: Option<TrackCharacteristics>, c: Conditions): (r: Setup)
    ensures ch.None? ==> r == s
    ensures ch.Some? ==> Rounded(r)
    ensures SameShape(s, r)
  {
    match ch
    case None => s
    case Some(x) =>
      SameShapeTransitive(s, AdaptUnrounded(s, x, c), RoundSetupValues(AdaptUnrounded(s, x, c)));
      RoundSetupValues(AdaptUnrounded(s, x, c))
  }

  /**
   * On a long track the wing and splitter cuts are floored at 1, and no later
   * rule lowers them again, so the adapted elements stay at least 1.
   */
  lemma LongTrackAeroFloor(s: Setup, ch: TrackCharacteristics, c: Conditions)
    requires IsLong(ch) && s.aerodynamics.Some?
    ensures AeroCutFloored(s.aerodynamics.value, ApplyTrackAdaptations(s, Some(ch), c).aerodynamics.value)
  {
    var a := s.aerodynamics.value;
    var s1 := LengthRule(s, ch);
    var s4 := GripRule(BankingRule(ElevationRule(s1, ch), ch), ch);
    var s5 := DownforceRule(s4, ch);
    assert s4.aerodynamics == s1.aerodynamics;
    var u := AdaptUnrounded(s, ch, c).aerodynamics.value;
    assert u == s5.aerodynamics.value;
    RoundingKeepsAeroFloor(a, AdaptUnrounded(s, ch, c));
  }

  /**
   * After the low-grip rule every pressure is at least 18.0, and it stays so
   * through the adaptation unless the hot-temperature rule fires.
   */
  lemma LowGripPressureFloor(s: Setup, ch: TrackCharacteristics, c: Conditions)
    requires IsLowGrip(ch) && !IsHot(c) && s.tirePressures.Some?
    ensures AllPressuresAtLeast(ApplyTrackAdaptations(s, Some(ch), c).tirePressures.value, 18.0)
  {
    var s4 := GripRule(BankingRule(ElevationRule(LengthRule(s, ch), ch), ch), ch);
    var s5 := DownforceRule(s4, ch);
    var s6 := RainRule(s5, c);
    var u := TemperatureRule(s6, c);
    assert u == AdaptUnrounded(s, ch, c);
    RoundingKeepsPressureFloor(u, 180);
  }

  /** A row that only says the grip is low. */
  const LowGripOnly := TrackCharacteristics(Undefined, Undefined, Undefined, Some("low"), None)

  /**
   * The 18.0 floor does not survive a hot day: pressures at 19.0 drop to the
   * floor and the temperature rule then takes 1.0 more.
   */
  lemma HotDayBreaksLowGripFloor()
    ensures var s := Setup(None, None, None, None, Some(TirePressures(19.0, 19.0, 19.0, 19.0)), None);
      ApplyTrackAdaptations(s, Some(LowGripOnly), Conditions(None, Num(35.0))).tirePressures
        == Some(TirePressures(17.0, 17.0, 17.0, 17.0))
  {
    var s := Setup(None, None, None, None, Some(TirePressures(19.0, 19.0, 19.0, 19.0)), None);
    var c := Conditions(None, Num(35.0));
    assert LengthRule(s, LowGripOnly) == s;
    assert BankingRule(ElevationRule(s, LowGripOnly), LowGripOnly) == s;
    var floored := s.(tirePressures := Some(TirePressures(18.0, 18.0, 18.0, 18.0)));
    assert GripRule(s, LowGripOnly) == floored;
    assert RainRule(DownforceRule(floored, LowGripOnly), c) == floored;
    var hot := s.(tirePressures := Some(TirePressures(17.0, 17.0, 17.0, 17.0)));
    assert TemperatureRule(floored, c) == hot;
    assert AdaptUnrounded(s, LowGripOnly, c) == hot;
    RoundingFixesRounded(hot);
  }

  /** Rain opens the differential with no floor: the power lock can go negative. */
  lemma RainPowerLockHasNoFloor()
    ensures var s := Setup(None, None, Some(Differential(40.0, 10.0, 5.0)), None, None, None);
      var r := ApplyTrackAdaptations(s, Some(TrackCharacteristics(Undefined, Undefined, Undefined, None, None)),
                                     Conditions(Some("rain"), Undefined));
      r.differential == Some(Differential(40.0, -10.0, -5.0))
  {
  }

  /**
   * A row whose track length is SQL NULL counts as a short track (`null < 2`
   * holds) while a missing column does not; the short-track spring cut also
   * shows `Math.round` taking 902.5 up to 903.
   */
  lemma NullLengthIsShortTrack(s: Setup)
    requires s.suspension == Some(Suspension(Axle(950.0, 65.0, 8.0, 55.0), Axle(1050.0, 60.0, 6.0, 60.0)))
    ensures var r := ApplyTrackAdaptations(s, Some(TrackCharacteristics(Null, Undefined, Undefined, None, None)), NoConditions);
      r.suspension.value.front.spring == 903.0 && r.suspension.value.rear.spring == 998.0
    ensures var r := ApplyTrackAdaptations(s, Some(TrackCharacteristics(Undefined, Undefined, Undefined, None, None)), NoConditions);
      r.suspension.value.front.spring == 950.0 && r.suspension.value.rear.spring == 1050.0
  {
    assert JsRound(902.5) == 903;
    assert JsRound(997.5) == 998;
  }

  /** The messages of `getAppliedAdaptations`, in the order its rules are checked. */
  const AdaptationMessages: seq<string> := [
    "Reduced tire pressure for long track",
    "Stiffened suspension for elevation changes",
    "Adjusted anti-roll bars for banking",
    "Softened setup for low grip surface",
    "Increased downforce for high-speed track",
    "Rain setup modifications applied"]

  /**
   * Whether the rule behind message `k` fired. The first five need a
   * characteristics row; the rain message depends on the weather alone.
   */
  predicate Fired(k: nat, ch: Option<TrackCharacteristics>, c: Conditions)
    requires k < |AdaptationMessages|
  {
    match k
    case 0 => ch.Some? && IsLong(ch.value)
    case 1 => ch.Some? && IsHilly(ch.value)
    case 2 => ch.Some? && IsBanked(ch.value)
    case 3 => ch.Some? && IsLowGrip(ch.value)
    case 4 => ch.Some? && NeedsDownforce(ch.value)
    case _ => IsRain(c)
  }

  /** The message `m`'s position in `AdaptationMessages` (6 for any other string). */
  function Rank(m: string): nat {
    if m == AdaptationMessages[0] then 0
    else if m == AdaptationMessages[1] then 1
    else if m == AdaptationMessages[2] then 2
    else if m == AdaptationMessages[3] then 3
    else if m == AdaptationMessages[4] then 4
    else if m == AdaptationMessages[5] then 5
    else 6
  }

  lemma RankOfMessages()
    ensures forall k :: 0 <= k < |AdaptationMessages| ==> Rank(AdaptationMessages[k]) == k
  {
  }

  /** The positions of the rules that fired, in rule order. */
  function FiredRules(fired: seq<bool>): (r: seq<nat>)
    ensures |r| <= |fired|
    ensures forall i :: 0 <= i < |r| ==> r[i] < |fired| && fired[r[i]]
    ensures forall i, j :: 0 <= i < j < |r| ==> r[i] < r[j]
    ensures forall k :: 0 <= k < |fired| && fired[k] ==> k in r
    decreases |fired|
  {
    if fired == [] then []
    else
      var k := |fired| - 1;
      var prev := FiredRules(fired[..k]);
      assert forall m :: 0 <= m < k ==> fired[..k][m] == fired[m];
      prev + (if fired[k] then [k] else [])
  }

  /** Pushes message `k` for every `fired[k]`, in order, like the source's `if` chain. */
  function Log(fired: seq<bool>): seq<string>
    requires |fired| <= |AdaptationMessages|
  {
    var rules := FiredRules(fired);
    seq(|rules|, i requires 0 <= i < |rules| => AdaptationMessages[rules[i]])
  }

  /** What `Log` pushes: messages of fired rules only, each once, in rule order. */
  lemma LogInOrder(fired: seq<bool>)
    requires |fired| <= |AdaptationMessages|
    ensures |Log(fired)| <= |fired|
    ensures forall i :: 0 <= i < |Log(fired)| ==> Rank(Log(fired)[i]) < |fired|
    ensures forall i, j :: 0 <= i < j < |Log(fired)| ==> Rank(Log(fired)[i]) < Rank(Log(fired)[j])
    ensures forall k :: 0 <= k < |fired| ==> (AdaptationMessages[k] in Log(fired) <==> fired[k])
    ensures forall i :: 0 <= i < |Log(fired)| ==> Log(fired)[i] in AdaptationMessages
  {
    RankOfMessages();
    var rules := FiredRules(fired);
    var log := Log(fired);
    assert forall i :: 0 <= i < |log| ==> Rank(log[i]) == rules[i];
    forall k | 0 <= k < |fired|
      ensures AdaptationMessages[k] in log <==> fired[k]
    {
      if fired[k] {
        var i :| 0 <= i < |rules| && rules[i] == k;
        assert log[i] == AdaptationMessages[k];
      }
      if AdaptationMessages[k] in log {
        var i :| 0 <= i < |log| && log[i] == AdaptationMessages[k];
        assert rules[i] == k;
      }
    }
  }

  /** No rule fired, no position. */
  lemma {:induction false} NoneFired(fired: seq<bool>)
    requires forall k :: 0 <= k < |fired| ==> !fired[k]
    ensures FiredRules(fired) == []
    decreases |fired|
  {
    if fired != [] {
      var k := |fired| - 1;
      assert forall m :: 0 <= m < k ==> fired[..k][m] == fired[m];
      NoneFired(fired[..k]);
    }
  }

  /** No rule fired, no message. */
  lemma LogNothingFired(fired: seq<bool>)
    requires |fired| <= |AdaptationMessages|
    requires forall k :: 0 <= k < |fired| ==> !fired[k]
    ensures Log(fired) == []
  {
    NoneFired(fired);
  }

  /** The source's six conditions, in the order of its `if` chain. */
  function FiredList(ch: Option<TrackCharacteristics>, c: Conditions): (r: seq<bool>)
    ensures |r| == |AdaptationMessages|
    ensures forall k :: 0 <= k < |r| ==> r[k] == Fired(k, ch, c)
  {
    var present := ch.Some?;
    [present && IsLong(ch.value),
     present && IsHilly(ch.value),
     present && IsBanked(ch.value),
     present && IsLowGrip(ch.value),
     present && NeedsDownforce(ch.value),
     IsRain(c)]
  }

  /** `getAppliedAdaptations(track, characteristics, conditions)`. */
  function GetAppliedAdaptations(ch: Option<TrackCharacteristics>, c: Conditions): (r: seq<string>)
    ensures |r| <= 6
    ensures forall i :: 0 <= i < |r| ==> r[i] in AdaptationMessages
    ensures forall i, j :: 0 <= i < j < |r| ==> Rank(r[i]) < Rank(r[j])
    ensures forall k :: 0 <= k < |AdaptationMessages| ==> (AdaptationMessages[k] in r <==> Fired(k, ch, c))
  {
    var fired := FiredList(ch, c);
    LogInOrder(fired);
    Log(fired)
  }

  /** Without a characteristics row and without rain nothing is reported. */
  lemma NoRowNoRainNoAdaptations(c: Conditions)
    requires !IsRain(c)
    ensures GetAppliedAdaptations(None, c) == []
  {
    LogNothingFired([false, false, false, false, false, false]);
  }

  /**
   * The metadata and the setup disagree without characteristics: rain is
   * reported although the adaptation returned the setup untouched.
   */
  lemma RainReportedWithoutCharacteristics(s: Setup)
    ensures GetAppliedAdaptations(None, Conditions(Some("rain"), Undefined)) == ["Rain setup modifications applied"]
    ensures ApplyTrackAdaptations(s, None, Conditions(Some("rain"), Undefined)) == s
  {
    var fired := [false, false, false, false, false, true];
    NoneFired(fired[..5]);
    assert FiredRules(fired) == FiredRules(fired[..5]) + [5];
    assert Log(fired)[0] == AdaptationMessages[5];
  }
}

=== FILE: api_comparisons.dfy ===
/**
 * The comparison routes of api/routes/comparisons.js: the id-count checks and
 * `analysis` object of `/compare`, and the shallow top-level loop of
 * `/diff/:setupId1/:setupId2`. The SQL queries are parameters.
 */
module ApiComparisons {

  import opened Options
  import opened Json
  import JsNumber

  const TooFewError := "Se requieren al menos 2 setups para comparar"
  const TooManyError := "M\U{E1}ximo 5 setups para comparar"
  const NotFoundError := "Algunos setups no fueron encontrados"

  /** The checks at lines 42-48, in their order. */
  function ValidateSetupIds(setupIds: Option<Json>): (r: Result<seq<Json>>)
    ensures r.Ok? <==> setupIds.Some? && setupIds.value.JArr? && 2 <= |setupIds.value.items| <= 5
    ensures r.Ok? ==> r.value == setupIds.value.items
    ensures r.Err? && setupIds.Some? && setupIds.value.JArr? && |setupIds.value.items| > 5
            ==> r.message == TooManyError
    ensures r.Err? && !(setupIds.Some? && setupIds.value.JArr? && |setupIds.value.items| > 5)
            ==> r.message == TooFewError
  {
    if setupIds.None? || !Truthy(setupIds.value) || !setupIds.value.JArr? || |setupIds.value.items| < 2
    then Err(TooFewError)
    else if |setupIds.value.items| > 5 then Err(TooManyError)
    else Ok(setupIds.value.items)
  }

  /** The columns of a fetched row `/compare` analyses. */
  datatype ApiRow = ApiRow(
    carName: string,
    trackName: string,
    ratingAvg: JsNumber.Operand,
    downloadsCount: JsNumber.Operand)

  datatype Range = Range(min: real, max: real)

  datatype Analysis = Analysis(commonCar: bool, commonTrack: bool, ratingRange: Range, downloadRange: Range)

  /** `Math.min(...xs)` over a non-empty list. */
  function MinOf(xs: seq<real>): (r: real)
    requires |xs| > 0
    ensures r in xs
    ensures forall i :: 0 <= i < |xs| ==> r <= xs[i]
  {
    if |xs| == 1 then xs[0]
    else
      var m := MinOf(xs[1..]);
      assert forall i :: 1 <= i < |xs| ==> xs[1..][i - 1] == xs[i];
      if xs[0] <= m then xs[0] else m
  }

  /** `Math.max(...xs)` over a non-empty list. */
  function MaxOf(xs: seq<real>): (r: real)
    requires |xs| > 0
    ensures r in xs
    ensures forall i :: 0 <= i < |xs| ==> xs[i] <= r
  {
    if |xs| == 1 then xs[0]
    else
      var m := MaxOf(xs[1..]);
      assert forall i :: 1 <= i < |xs| ==> xs[1..][i - 1] == xs[i];
      if xs[0] >= m then xs[0] else m
  }

  function RangeOf(xs: seq<real>): (r: Range)
    requires |xs| > 0
    ensures r.min <= r.max
    ensures r.min in xs && r.max in xs
    ensures forall i :: 0 <= i < |xs| ==> r.min <= xs[i] <= r.max
  {
    Range(MinOf(xs), MaxOf(xs))
  }

  /** `s.rating_avg || 0` for every row. */
  function Ratings(rows: seq<ApiRow>): (r: seq<real>)
    ensures |r| == |rows|
    ensures forall i :: 0 <= i < |rows| ==> r[i] == JsNumber.OrZero(rows[i].ratingAvg)
  {
    seq(|rows|, i requires 0 <= i < |rows| => JsNumber.OrZero(rows[i].ratingAvg))
  }

  /** `s.downloads_count || 0` for every row. */
  function Downloads(rows: seq<ApiRow>): (r: seq<real>)
    ensures |r| == |rows|
    ensures forall i :: 0 <= i < |rows| ==> r[i] == JsNumber.OrZero(rows[i].downloadsCount)
  {
    seq(|rows|, i requires 0 <= i < |rows| => JsNumber.OrZero(rows[i].downloadsCount))
  }

  /**
   * `setups.every(s => s.x === setups[0].x)` for the car name (`car`) or the
   * track name.
   */
  function AllLikeFirst(rows: seq<ApiRow>, car: bool): (r: bool)
    requires |rows| > 0
    ensures r <==> forall i, j :: 0 <= i < |rows| && 0 <= j < |rows| ==>
      (if car then rows[i].carName == rows[j].carName else rows[i].trackName == rows[j].trackName)
  {
    if car then forall i :: 0 <= i < |rows| ==> rows[i].carName == rows[0].carName
    else forall i :: 0 <= i < |rows| ==> rows[i].trackName == rows[0].trackName
  }

  /**
   * The `analysis` object. The handler builds it only from at least two
   * rows, so the ranges are never taken over an empty list.
   */
  function Analyze(rows: seq<ApiRow>): (r: Analysis)
    requires |rows| > 0
    ensures r.commonCar <==> forall i, j :: 0 <= i < |rows| && 0 <= j < |rows| ==> rows[i].carName == rows[j].carName
    ensures r.commonTrack <==> forall i, j :: 0 <= i < |rows| && 0 <= j < |rows| ==> rows[i].trackName == rows[j].trackName
    ensures r.ratingRange.min <= r.ratingRange.max && r.downloadRange.min <= r.downloadRange.max
    ensures forall i :: 0 <= i < |rows| ==>
      r.ratingRange.min <= JsNumber.OrZero(rows[i].ratingAvg) <= r.ratingRange.max
    ensures forall i :: 0 <= i < |rows| ==>
      r.downloadRange.min <= JsNumber.OrZero(rows[i].downloadsCount) <= r.downloadRange.max
    ensures exists i :: 0 <= i < |rows| && r.ratingRange.min == JsNumber.OrZero(rows[i].ratingAvg)
    ensures exists i :: 0 <= i < |rows| && r.ratingRange.max == JsNumber.OrZero(rows[i].ratingAvg)
    ensures exists i :: 0 <= i < |rows| && r.downloadRange.min == JsNumber.OrZero(rows[i].downloadsCount)
    ensures exists i :: 0 <= i < |rows| && r.downloadRange.max == JsNumber.OrZero(rows[i].downloadsCount)
  {
    var ratings := RangeOf(Ratings(rows));
    var downloads := RangeOf(Downloads(rows));
    Analysis(AllLikeFirst(rows, true), AllLikeFirst(rows, false), ratings, downloads)
  }

  /** The `/compare` handler from the id checks to the `comparison` object. */
  function CompareSetups(setupIds: Option<Json>, rows: seq<ApiRow>): (r: Result<Analysis>)
    ensures r.Ok? <==> ValidateSetupIds(setupIds).Ok? && |rows| == |setupIds.value.items|
    ensures ValidateSetupIds(setupIds).Err? ==> r.Err? && r.message == ValidateSetupIds(setupIds).message
    ensures r.Ok? ==> 2 <= |rows| <= 5
    ensures r.Ok? ==> r.value == Analyze(rows)
    ensures ValidateSetupIds(setupIds).Ok? && r.Err? ==> r.message == NotFoundError
  {
    match ValidateSetupIds(setupIds)
    case Err(m) => Err(m)
    case Ok(ids) => if |rows| != |ids| then Err(NotFoundError) else Ok(Analyze(rows))
  }

  /** One `{ parameter, setup1_value, setup2_value, difference }` record. */
  datatype DiffRow = DiffRow(parameter: string, setup1Value: Option<Json>, setup2Value: Option<Json>,
                             difference: Option<real>)

  /** The loop body for one key of `data1`. */
  function DiffKey(data1: Json, data2: Json, key: string): (r: seq<DiffRow>)
    ensures |r| <= 1
    ensures |r| == 1 <==> !StrictEq(Get(data1, key), Get(data2, key))
  {
    var v1 := Get(data1, key);
    var v2 := Get(data2, key);
    if StrictEq(v1, v2) then []
    else
      var d := if v1.Some? && v1.value.JNum? && v2.Some? && v2.value.JNum?
               then Some(v2.value.n - v1.value.n) else None;
      [DiffRow(key, v1, v2, d)]
  }

  function DiffKeys(data1: Json, data2: Json, keys: seq<string>): (r: seq<DiffRow>)
    ensures |r| <= |keys|
    decreases |keys|
  {
    if keys == [] then [] else DiffKey(data1, data2, keys[0]) + DiffKeys(data1, data2, keys[1..])
  }

  /**
   * `for (const key in data1) if (data1[key] !== data2[key]) ...`. A `null`
   * `data1` enumerates nothing; reading a key of a `null` `data2` throws,
   * which the handler turns into a 500 response.
   */
  function ShallowDiff(data1: Json, data2: Json): (r: Result<seq<DiffRow>>)
    ensures r.Err? <==> data2 == JNull && KeysOf(data1) != []
    ensures r.Ok? ==> |r.value| <= |KeysOf(data1)|
  {
    if data2 == JNull && KeysOf(data1) != [] then Err("Error al calcular diferencias")
    else Ok(DiffKeys(data1, data2, KeysOf(data1)))
  }

  lemma {:induction false} DiffKeysMember(data1: Json, data2: Json, keys: seq<string>, row: DiffRow)
    requires row in DiffKeys(data1, data2, keys)
    ensures row.parameter in keys
    ensures row.setup1Value == Get(data1, row.parameter) && row.setup2Value == Get(data2, row.parameter)
    ensures !StrictEq(row.setup1Value, row.setup2Value)
    ensures row.difference.Some? <==> IsNumber(row.setup1Value) && IsNumber(row.setup2Value)
    ensures row.difference.Some? ==> row.difference.value == row.setup2Value.value.n - row.setup1Value.value.n
    decreases |keys|
  {
    if row !in DiffKey(data1, data2, keys[0]) {
      DiffKeysMember(data1, data2, keys[1..], row);
    }
  }

  lemma {:induction false} DiffKeysComplete(data1: Json, data2: Json, keys: seq<string>, k: string)
    requires k in keys && !StrictEq(Get(data1, k), Get(data2, k))
    ensures exists row :: row in DiffKeys(data1, data2, keys) && row.parameter == k
    decreases |keys|
  {
    if keys[0] == k {
      assert DiffKey(data1, data2, k)[0] in DiffKeys(data1, data2, keys);
    } else {
      DiffKeysComplete(data1, data2, keys[1..], k);
      var row :| row in DiffKeys(data1, data2, keys[1..]) && row.parameter == k;
      assert row in DiffKeys(data1, data2, keys);
    }
  }

  predicate IsNumber(v: Option<Json>) {
    v.Some? && v.value.JNum?
  }

  /**
   * What a successful diff reports: only keys of `data1`, each one exactly
   * when the two top-level values are not `===`, with the numeric difference
   * when both are numbers.
   */
  lemma ShallowDiffRows(data1: Json, data2: Json)
    requires ShallowDiff(data1, data2).Ok?
    ensures forall row :: row in ShallowDiff(data1, data2).value ==>
      && row.parameter in KeysOf(data1)
      && row.setup1Value == Get(data1, row.parameter) && row.setup2Value == Get(data2, row.parameter)
      && !StrictEq(row.setup1Value, row.setup2Value)
      && (row.difference.Some? <==> IsNumber(row.setup1Value) && IsNumber(row.setup2Value))
      && (row.difference.Some? ==> row.difference.value == row.setup2Value.value.n - row.setup1Value.value.n)
    ensures forall k :: k in KeysOf(data1) && !StrictEq(Get(data1, k), Get(data2, k)) ==>
      exists row :: row in ShallowDiff(data1, data2).value && row.parameter == k
  {
    forall row | row in ShallowDiff(data1, data2).value
      ensures row.parameter in KeysOf(data1)
      ensures row.setup1Value == Get(data1, row.parameter) && row.setup2Value == Get(data2, row.parameter)
      ensures !StrictEq(row.setup1Value, row.setup2Value)
      ensures row.difference.Some? <==> IsNumber(row.setup1Value) && IsNumber(row.setup2Value)
      ensures row.difference.Some? ==> row.difference.value == row.setup2Value.value.n - row.setup1Value.value.n
    {
      DiffKeysMember(data1, data2, KeysOf(data1), row);
    }
    forall k | k in KeysOf(data1) && !StrictEq(Get(data1, k), Get(data2, k))
      ensures exists row :: row in ShallowDiff(data1, data2).value && row.parameter == k
    {
      DiffKeysComplete(data1, data2, KeysOf(data1), k);
    }
  }

  /** A key only setup 2 has is never reported. */
  lemma SecondOnlyKeysIgnored(data1: Json, data2: Json, k: string)
    requires ShallowDiff(data1, data2).Ok? && k !in KeysOf(data1)
    ensures forall row :: row in ShallowDiff(data1, data2).value ==> row.parameter != k
  {
    ShallowDiffRows(data1, data2);
  }

  /** A nested object under a key of `data1` is always reported, even against an equal one. */
  lemma NestedObjectsAlwaysReported(data1: Json, data2: Json, k: string)
    requires ShallowDiff(data1, data2).Ok? && k in KeysOf(data1) && IsObject(Get(data1, k))
    ensures exists row :: row in ShallowDiff(data1, data2).value && row.parameter == k && row.difference.None?
  {
    ShallowDiffRows(data1, data2);
    var row :| row in ShallowDiff(data1, data2).value && row.parameter == k;
  }

  /** A key of `data1` missing from `data2` is reported with `setup2_value` undefined. */
  lemma MissingInSecondReported(data1: Json, data2: Json, k: string)
    requires ShallowDiff(data1, data2).Ok? && k in KeysOf(data1) && Get(data2, k).None?
    ensures exists row :: row in ShallowDiff(data1, data2).value && row.parameter == k
                          && row.setup2Value.None? && row.setup1Value.Some?
  {
    KeysAreReadable(data1, k);
    ShallowDiffRows(data1, data2);
  }
}

=== FILE: api_generator.dfy ===
/**
 * The second, serverless generator of api/routes/generator.js.
 *
 * `generateBaseSetup` starts from one richer GT3-road template (a bump/rebound
 * damper pair, camber, caster and toe, gearing and fuel) and applies additive
 * style, oval and qualifying deltas; nothing is rounded. The file declares
 * `applyWeatherAdjustments` and `applyTrackConditionsAdjustments` twice; JS
 * function-declaration hoisting makes the later declarations the ones the
 * handler calls. Those work on a shallow copy (`{ ...setup }`) and write flat
 * keys such as `tire_pressure_lf` that the nested template never has, so the
 * nested setup is never affected and the new keys end up holding `NaN`
 * (`undefined + 1.0`).
 */
module ApiGenerator {

  import opened Options
  import opened JsNumber

  datatype Damper = Damper(bump: real, rebound: real)

  /** One axle; only the front axle of the template has a caster. */
  datatype ApiAxle = ApiAxle(
    spring: real,
    damper: Damper,
    antiRollBar: real,
    rideHeight: real,
    camber: real,
    caster: Option<real>,
    toe: real)

  datatype ApiAero = ApiAero(frontWing: real, rearWing: real, frontSplitter: real)

  datatype ApiDifferential = ApiDifferential(preload: real, power: real, coast: real)

  datatype ApiBrakes = ApiBrakes(balance: real, pressure: real, ductFront: real, ductRear: real)

  datatype ApiTires = ApiTires(fl: real, fr: real, rl: real, rr: real, compound: string)

  datatype ApiGearing = ApiGearing(final: real, ratios: seq<(string, real)>)

  datatype Fuel = Fuel(amount: real, strategy: string)

  /** The nested object `generateBaseSetup` returns. */
  datatype BaseSetup = BaseSetup(
    front: ApiAxle,
    rear: ApiAxle,
    aerodynamics: ApiAero,
    differential: ApiDifferential,
    brakes: ApiBrakes,
    tires: ApiTires,
    gearing: ApiGearing,
    fuel: Fuel)

  /** A number held under a flat key: the adjustments only ever add to it. */
  datatype FlatNum = NaN | Val(x: real)

  /**
   * The object the handler returns as `setup`: the nested base setup plus
   * whatever flat keys the adjustments created on it.
   */
  datatype ApiSetup = ApiSetup(base: BaseSetup, flat: map<FlatKey, FlatNum>)

  /** The top-level keys of the nested setup. */
  const NestedKeys: set<string> :=
    {"suspension", "aerodynamics", "differential", "brakes", "tires", "gearing", "fuel"}

  /** Every flat key either adjustment writes. */
  datatype FlatKey =
    | TirePressureLf | TirePressureRf | TirePressureLr | TirePressureRr
    | FrontWing | RearWing | BrakeBalance

  /** The property name of a flat key. */
  function KeyName(k: FlatKey): string {
    match k
    case TirePressureLf => "tire_pressure_lf"
    case TirePressureRf => "tire_pressure_rf"
    case TirePressureLr => "tire_pressure_lr"
    case TirePressureRr => "tire_pressure_rr"
    case FrontWing => "front_wing"
    case RearWing => "rear_wing"
    case BrakeBalance => "brake_balance"
  }

  /** Flat keys hold no object: they are distinct names, none of them a key of the nested setup. */
  lemma FlatKeysAreNotNested()
    ensures forall k: FlatKey :: KeyName(k) !in NestedKeys
    ensures forall a: FlatKey, b: FlatKey :: KeyName(a) == KeyName(b) ==> a == b
  {
  }

  /** The four pressures, in the order the adjustments write them. */
  const TireOrder: seq<FlatKey> := [TirePressureLf, TirePressureRf, TirePressureLr, TirePressureRr]

  const TireKeys: set<FlatKey> := set k | k in TireOrder

  const WingAndBalanceKeys: set<FlatKey> := {FrontWing, RearWing, BrakeBalance}

  const FlatKeys: set<FlatKey> := TireKeys + WingAndBalanceKeys

  const Template: BaseSetup := BaseSetup(
    ApiAxle(950.0, Damper(65.0, 70.0), 8.0, 55.0, -2.8, Some(6.2), 0.1),
    ApiAxle(1050.0, Damper(60.0, 65.0), 6.0, 60.0, -2.2, None, 0.2),
    ApiAero(4.0, 6.0, 3.0),
    ApiDifferential(80.0, 65.0, 45.0),
    ApiBrakes(53.2, 80.0, 3.0, 2.0),
    ApiTires(23.0, 23.0, 22.5, 22.5, "medium"),
    ApiGearing(3.73, [("1st", 2.85), ("2nd", 2.05), ("3rd", 1.58),
                      ("4th", 1.28), ("5th", 1.05), ("6th", 0.89)]),
    Fuel(65.0, "balanced"))

  /** The fields no delta of `generateBaseSetup` touches. */
  predicate SameFixedFields(a: BaseSetup, b: BaseSetup) {
    && a.front.damper == b.front.damper && a.rear.damper == b.rear.damper
    && a.front.antiRollBar == b.front.antiRollBar && a.rear.antiRollBar == b.rear.antiRollBar
    && a.front.rideHeight == b.front.rideHeight && a.rear.rideHeight == b.rear.rideHeight
    && a.front.camber == b.front.camber && a.rear.camber == b.rear.camber
    && a.front.caster == b.front.caster && a.rear.caster == b.rear.caster
    && a.front.toe == b.front.toe && a.rear.toe == b.rear.toe
    && a.aerodynamics.frontSplitter == b.aerodynamics.frontSplitter
    && a.differential == b.differential
    && a.brakes.pressure == b.brakes.pressure
    && a.brakes.ductFront == b.brakes.ductFront && a.brakes.ductRear == b.brakes.ductRear
    && a.tires.compound == b.tires.compound
    && a.gearing == b.gearing
    && a.fuel.strategy == b.fuel.strategy
  }

  function AddSprings(b: BaseSetup, d: real): (r: BaseSetup)
    ensures SameFixedFields(r, b)
    ensures r.front.spring == b.front.spring + d && r.rear.spring == b.rear.spring + d
    ensures r.aerodynamics == b.aerodynamics && r.brakes == b.brakes
    ensures r.tires == b.tires && r.fuel == b.fuel
  {
    b.(front := b.front.(spring := b.front.spring + d),
       rear := b.rear.(spring := b.rear.spring + d))
  }

  function AddWings(b: BaseSetup, fw: real, rw: real): (r: BaseSetup)
    ensures SameFixedFields(r, b)
    ensures r.aerodynamics.frontWing == b.aerodynamics.frontWing + fw
    ensures r.aerodynamics.rearWing == b.aerodynamics.rearWing + rw
    ensures r.front == b.front && r.rear == b.rear && r.brakes == b.brakes
    ensures r.tires == b.tires && r.fuel == b.fuel
  {
    b.(aerodynamics := b.aerodynamics.(frontWing := b.aerodynamics.frontWing + fw,
                                        rearWing := b.aerodynamics.rearWing + rw))
  }

  function AddBalance(b: BaseSetup, d: real): (r: BaseSetup)
    ensures SameFixedFields(r, b)
    ensures r.brakes.balance == b.brakes.balance + d
    ensures r.front == b.front && r.rear == b.rear && r.aerodynamics == b.aerodynamics
    ensures r.tires == b.tires && r.fuel == b.fuel
  {
    b.(brakes := b.brakes.(balance := b.brakes.balance + d))
  }

  /** The `switch (style)` block; `'balanced'` and any other value keep the base. */
  function StyleAdjust(b: BaseSetup, style: string): (r: BaseSetup)
    ensures SameFixedFields(r, b)
    ensures r.tires == b.tires && r.fuel == b.fuel
  {
    if style == "aggressive" then
      AddSprings(AddBalance(AddWings(b, 2.0, 3.0), 1.5), 50.0)
    else if style == "safe" then
      AddBalance(AddWings(AddSprings(b, -50.0), -1.0, 1.0), -1.0)
    else
      b
  }

  /** The `track.type === 'oval'` block. */
  function OvalAdjust(b: BaseSetup, trackType: string): (r: BaseSetup)
    ensures SameFixedFields(r, b)
    ensures r.brakes == b.brakes && r.fuel == b.fuel
  {
    if trackType == "oval" then
      var w := AddSprings(AddWings(b, 2.0, 2.0), 100.0);
      w.(tires := w.tires.(fl := w.tires.fl + 1.0, fr := w.tires.fr + 1.0,
                           rl := w.tires.rl + 1.0, rr := w.tires.rr + 1.0))
    else
      b
  }

  /** The `sessionType === 'qualifying'` block. */
  function SessionAdjust(b: BaseSetup, sessionType: string): (r: BaseSetup)
    ensures SameFixedFields(r, b)
    ensures r.front == b.front && r.rear == b.rear && r.brakes == b.brakes && r.tires == b.tires
    ensures r.fuel.amount == if sessionType == "qualifying" then Max(20.0, b.fuel.amount - 30.0)
                             else b.fuel.amount
  {
    if sessionType == "qualifying" then
      var w := AddWings(b, 1.0, 2.0);
      w.(fuel := w.fuel.(amount := Max(20.0, w.fuel.amount - 30.0)))
    else
      b
  }

  /**
   * `generateBaseSetup`; the car argument is never read, so it is not a
   * parameter here.
   */
  function GenerateBaseSetup(style: string, trackType: string, sessionType: string): (r: BaseSetup)
    ensures SameFixedFields(r, Template)
    ensures r.front.damper == Damper(65.0, 70.0) && r.rear.damper == Damper(60.0, 65.0)
    ensures r.fuel.amount == if sessionType == "qualifying" then 35.0 else 65.0
    ensures r.fuel.amount >= 20.0
  {
    SessionAdjust(OvalAdjust(StyleAdjust(Template, style), trackType), sessionType)
  }

  /** Balanced (or unrecognised) style on a non-oval track outside qualifying is the literal template. */
  lemma PlainRequestIsTemplate(style: string, trackType: string, sessionType: string)
    requires style != "aggressive" && style != "safe"
    requires trackType != "oval" && sessionType != "qualifying"
    ensures var r := GenerateBaseSetup(style, trackType, sessionType);
      && r == Template
      && r.front.spring == 950.0 && r.rear.spring == 1050.0
      && r.aerodynamics == ApiAero(4.0, 6.0, 3.0)
      && r.brakes.balance == 53.2
      && (r.tires.fl, r.tires.fr, r.tires.rl, r.tires.rr) == (23.0, 23.0, 22.5, 22.5)
      && r.fuel.amount == 65.0
  {
  }

  /** The style deltas, measured against the balanced setup for the same track and session. */
  lemma StyleDeltas(trackType: string, sessionType: string)
    ensures var b := GenerateBaseSetup("balanced", trackType, sessionType);
      var a := GenerateBaseSetup("aggressive", trackType, sessionType);
      && a.front.spring == b.front.spring + 50.0 && a.rear.spring == b.rear.spring + 50.0
      && a.aerodynamics.frontWing == b.aerodynamics.frontWing + 2.0
      && a.aerodynamics.rearWing == b.aerodynamics.rearWing + 3.0
      && a.brakes.balance == b.brakes.balance + 1.5
      && a.tires == b.tires && a.fuel == b.fuel && SameFixedFields(a, b)
    ensures var b := GenerateBaseSetup("balanced", trackType, sessionType);
      var s := GenerateBaseSetup("safe", trackType, sessionType);
      && s.front.spring == b.front.spring - 50.0 && s.rear.spring == b.rear.spring - 50.0
      && s.aerodynamics.frontWing == b.aerodynamics.frontWing - 1.0
      && s.aerodynamics.rearWing == b.aerodynamics.rearWing + 1.0
      && s.brakes.balance == b.brakes.balance - 1.0
      && s.tires == b.tires && s.fuel == b.fuel && SameFixedFields(s, b)
  {
  }

  /** Exactly `'oval'` adds 2 to both wings, 100 to both springs and 1.0 to every pressure. */
  lemma OvalDeltas(style: string, trackType: string, sessionType: string)
    requires trackType != "oval"
    ensures var n := GenerateBaseSetup(style, trackType, sessionType);
      var o := GenerateBaseSetup(style, "oval", sessionType);
      && o.front.spring == n.front.spring + 100.0 && o.rear.spring == n.rear.spring + 100.0
      && o.aerodynamics.frontWing == n.aerodynamics.frontWing + 2.0
      && o.aerodynamics.rearWing == n.aerodynamics.rearWing + 2.0
      && o.tires.fl == n.tires.fl + 1.0 && o.tires.fr == n.tires.fr + 1.0
      && o.tires.rl == n.tires.rl + 1.0 && o.tires.rr == n.tires.rr + 1.0
      && o.brakes == n.brakes && o.fuel == n.fuel && SameFixedFields(o, n)
  {
  }

  /** Qualifying adds 1/2 to the wings and takes 30 off the fuel, never below 20. */
  lemma QualifyingDeltas(style: string, trackType: string, sessionType: string)
    requires sessionType != "qualifying"
    ensures var n := GenerateBaseSetup(style, trackType, sessionType);
      var q := GenerateBaseSetup(style, trackType, "qualifying");
      && q.aerodynamics.frontWing == n.aerodynamics.frontWing + 1.0
      && q.aerodynamics.rearWing == n.aerodynamics.rearWing + 2.0
      && q.fuel.amount == Max(20.0, n.fuel.amount - 30.0) == 35.0
      && q.front == n.front && q.rear == n.rear && q.brakes == n.brakes && q.tires == n.tires
  {
  }

  /** Nothing is rounded: the aggressive balance keeps its decimal. */
  lemma AggressiveBalanceUnrounded()
    ensures GenerateBaseSetup("aggressive", "road", "race").brakes.balance == 54.7
    ensures !IsInt(GenerateBaseSetup("aggressive", "road", "race").brakes.balance)
  {
    var b := GenerateBaseSetup("aggressive", "road", "race").brakes.balance;
    assert b == 54.7;
    assert b.Floor == 54 by {
      assert 54 as real <= b < 55 as real;
    }
  }

  /** The value of `conditions.weather`. */
  datatype WeatherArg = WStr(s: string) | WNum(n: real) | WObj(temperature: Operand, conditions: Option<string>)

  predicate WeatherTruthy(w: WeatherArg) {
    match w
    case WStr(s) => s != ""
    case WNum(n) => n != 0.0
    case WObj(_, _) => true
  }

  /** `weather.temperature`: a string or a number has no such property. */
  function TemperatureOf(w: WeatherArg): (t: Operand)
    ensures !w.WObj? ==> t == Undefined
  {
    if w.WObj? then w.temperature else Undefined
  }

  function ConditionsOf(w: WeatherArg): (c: Option<string>)
    ensures !w.WObj? ==> c == None
  {
    if w.WObj? then w.conditions else None
  }

  /** `obj[k] += d` on a key that may be absent (`undefined + d` is `NaN`). */
  function AddFlat(m: map<FlatKey, FlatNum>, k: FlatKey, d: real): (r: map<FlatKey, FlatNum>)
    ensures r.Keys == m.Keys + {k}
    ensures forall j :: j in m && j != k ==> r[j] == m[j]
    ensures k !in m || m[k] == NaN ==> r[k] == NaN
    ensures AllNaN(m) ==> AllNaN(r)
  {
    if k in m then
      m[k := match m[k] case NaN => NaN case Val(x) => Val(x + d)]
    else
      m[k := NaN]
  }

  /** Adds `d` to each key of `keys` in turn. */
  function AddEach(m: map<FlatKey, FlatNum>, keys: seq<FlatKey>, d: real): (r: map<FlatKey, FlatNum>)
    ensures r.Keys == m.Keys + set k | k in keys
    ensures forall j :: j in m && j !in keys ==> r[j] == m[j]
    ensures AllNaN(m) ==> AllNaN(r)
    decreases |keys|
  {
    if keys == [] then m else AddEach(AddFlat(m, keys[0], d), keys[1..], d)
  }

  /** Adds to the four `tire_pressure_*` keys. */
  function AddTires(m: map<FlatKey, FlatNum>, d: real): (r: map<FlatKey, FlatNum>)
    ensures r.Keys == m.Keys + TireKeys
    ensures forall j :: j in m && j !in TireKeys ==> r[j] == m[j]
    ensures AllNaN(m) ==> AllNaN(r)
  {
    AddEach(m, TireOrder, d)
  }

  /** Adds to `front_wing`, `rear_wing` and `brake_balance`, in that order. */
  function AddWingsAndBalance(m: map<FlatKey, FlatNum>, fw: real, rw: real, bb: real): (r: map<FlatKey, FlatNum>)
    ensures r.Keys == m.Keys + WingAndBalanceKeys
    ensures AllNaN(m) ==> AllNaN(r)
  {
    AddFlat(AddFlat(AddFlat(m, FrontWing, fw), RearWing, rw), BrakeBalance, bb)
  }

  /** Adds to `front_wing` and `rear_wing`. */
  function AddFlatWings(m: map<FlatKey, FlatNum>, fw: real, rw: real): (r: map<FlatKey, FlatNum>)
    ensures r.Keys == m.Keys + {FrontWing, RearWing}
    ensures AllNaN(m) ==> AllNaN(r)
  {
    AddFlat(AddFlat(m, FrontWing, fw), RearWing, rw)
  }

  /** No stored value is a number, which holds of every setup the handler builds. */
  predicate AllNaN(m: map<FlatKey, FlatNum>) {
    forall k :: k in m ==> m[k] == NaN
  }

  /** The effective (second) `applyWeatherAdjustments`, api/routes/generator.js:305-327. */
  function ApplyWeatherAdjustments(s: ApiSetup, w: WeatherArg): (r: ApiSetup)
    ensures r.base == s.base
    ensures s.flat.Keys <= r.flat.Keys
    ensures AllNaN(s.flat) ==> AllNaN(r.flat)
    ensures !w.WObj? ==> r == s
  {
    var t := TemperatureOf(w);
    var m1 := if GreaterThan(t, 25.0) then AddTires(s.flat, 1.0)
              else if LessThan(t, 15.0) then AddTires(s.flat, -1.0)
              else s.flat;
    var m2 := if ConditionsOf(w) == Some("rain") then AddWingsAndBalance(m1, 10.0, 15.0, -2.0) else m1;
    ApiSetup(s.base, m2)
  }

  /** The effective (second) `applyTrackConditionsAdjustments`, api/routes/generator.js:330-352. */
  function ApplyTrackConditionsAdjustments(s: ApiSetup, c: string): (r: ApiSetup)
    ensures r.base == s.base
    ensures s.flat.Keys <= r.flat.Keys
    ensures AllNaN(s.flat) ==> AllNaN(r.flat)
    ensures c != "green" && c != "dusty" && c != "wet" ==> r == s
  {
    match c
    case "green" => ApiSetup(s.base, AddTires(s.flat, -0.5))
    case "dusty" => ApiSetup(s.base, AddFlatWings(s.flat, 5.0, 5.0))
    case "wet" => ApiSetup(s.base, AddWingsAndBalance(s.flat, 15.0, 20.0, -3.0))
    case _ => s
  }

  /** The request body fields the handler reads; `conditions` defaults to `{}`. */
  datatype ApiConditions = ApiConditions(weather: Option<WeatherArg>, track: Option<string>)

  /** The gate at api/routes/generator.js:96-98. */
  predicate WeatherApplies(c: ApiConditions) {
    c.weather.Some? && WeatherTruthy(c.weather.value)
  }

  /** The gate at api/routes/generator.js:100-102. */
  predicate TrackApplies(c: ApiConditions) {
    c.track.Some? && c.track.value != "" && c.track.value != "optimal"
  }

  /**
   * The setup the `/generate` handler returns once car and track are found;
   * `sessionType` defaults to `'race'` and `setupStyle` to `'balanced'`.
   */
  function GenerateApiSetup(trackType: string, style: Option<string>, sessionType: Option<string>,
                            c: ApiConditions): (r: ApiSetup)
    ensures r.base == GenerateBaseSetup(style.GetOr("balanced"), trackType, sessionType.GetOr("race"))
    ensures AllNaN(r.flat)
    ensures !WeatherApplies(c) && !TrackApplies(c) ==> r.flat == map[]
  {
    var s0 := ApiSetup(GenerateBaseSetup(style.GetOr("balanced"), trackType, sessionType.GetOr("race")), map[]);
    var s1 := if WeatherApplies(c) then ApplyWeatherAdjustments(s0, c.weather.value) else s0;
    if TrackApplies(c) then ApplyTrackConditionsAdjustments(s1, c.track.value) else s1
  }

  /** A string weather (the form the UI sends) never changes the setup. */
  lemma StringWeatherIsIdentity(s: ApiSetup, w: string)
    ensures ApplyWeatherAdjustments(s, WStr(w)) == s
  {
  }

  /** Low- and high-grip track conditions, handled by the shadowed first declaration only, do nothing. */
  lemma GripConditionsIgnored(s: ApiSetup)
    ensures ApplyTrackConditionsAdjustments(s, "low_grip") == s
    ensures ApplyTrackConditionsAdjustments(s, "high_grip") == s
  {
  }

  /** A hot weather object creates the four tire keys, each `NaN`, on a fresh setup. */
  lemma HotWeatherCreatesNaNTires(b: BaseSetup, t: real)
    requires t > 25.0
    ensures var r := ApplyWeatherAdjustments(ApiSetup(b, map[]), WObj(Num(t), None));
      && r.base == b
      && r.flat.Keys == TireKeys
      && AllNaN(r.flat)
  {
  }

  /** A cold rain object on a fresh setup writes every flat key. */
  lemma ColdRainKeys(s: ApiSetup)
    requires s.flat == map[]
    ensures ApplyWeatherAdjustments(s, WObj(Num(10.0), Some("rain"))).flat.Keys == FlatKeys
  {
    assert LessThan(Num(10.0), 15.0) && !GreaterThan(Num(10.0), 25.0);
  }

  /** A wet track on a setup that already holds every flat key keeps exactly those. */
  lemma WetTrackKeepsAllKeys(s: ApiSetup)
    requires s.flat.Keys == FlatKeys
    ensures ApplyTrackConditionsAdjustments(s, "wet").flat.Keys == FlatKeys
  {
  }

  /** Wet weather plus wet track leaves the nested wings, springs, balance and pressures untouched. */
  lemma RainNeverReachesNestedSetup(trackType: string, style: Option<string>, sessionType: Option<string>)
    ensures var c := ApiConditions(Some(WObj(Num(10.0), Some("rain"))), Some("wet"));
      var r := GenerateApiSetup(trackType, style, sessionType, c);
      && r.base == GenerateBaseSetup(style.GetOr("balanced"), trackType, sessionType.GetOr("race"))
      && r.flat.Keys == FlatKeys
  {
    var c := ApiConditions(Some(WObj(Num(10.0), Some("rain"))), Some("wet"));
    var s0 := ApiSetup(GenerateBaseSetup(style.GetOr("balanced"), trackType, sessionType.GetOr("race")), map[]);
    ColdRainKeys(s0);
    var s1 := ApplyWeatherAdjustments(s0, c.weather.value);
    WetTrackKeepsAllKeys(s1);
    assert WeatherApplies(c) && TrackApplies(c);
  }
}

=== FILE: comparisons.dfy ===
/**
 * The `/compare` route of backend/routes/comparisons.js once the rows are
 * fetched: the id-count check, the same-car-and-track test, the per-setup
 * differences against the first setup and the summary. The SQL query is a
 * parameter: `rows` are the public setups it returned, in request order.
 */
module Comparisons {

  import opened Options
  import opened Json
  import opened DataDiff
  import JsNumber
  import Decimal

  /** The columns of a fetched setup row the comparison reads; `data` is already parsed. */
  datatype SetupRow = SetupRow(
    id: nat,
    carId: int,
    trackId: int,
    data: Json,
    ratingAvg: JsNumber.Operand,
    downloadsCount: JsNumber.Operand,
    lapTime: Json)

  const IdCountError := "Debes proporcionar entre 2 y 4 setup IDs para comparar"
  const NotFoundError := "Uno o m\U{E1}s setups no fueron encontrados o no son p\U{FA}blicos"

  /** The check at line 16: `setupIds` must be an array of 2 to 4 entries. */
  function ValidateSetupIds(setupIds: Option<Json>): (r: Result<seq<Json>>)
    ensures r.Ok? <==> setupIds.Some? && setupIds.value.JArr? && 2 <= |setupIds.value.items| <= 4
    ensures r.Ok? ==> r.value == setupIds.value.items
    ensures r.Err? ==> r.message == IdCountError
  {
    if setupIds.None? || !Truthy(setupIds.value) || !setupIds.value.JArr?
       || |setupIds.value.items| < 2 || |setupIds.value.items| > 4
    then Err(IdCountError)
    else Ok(setupIds.value.items)
  }

  /** The key `setup_${id}`. */
  function SetupKey(id: nat): (k: string)
    ensures |k| > 6 && k[..6] == "setup_"
  {
    "setup_" + Decimal.Decimal(id)
  }

  lemma SetupKeyInjective(a: nat, b: nat)
    ensures SetupKey(a) == SetupKey(b) ==> a == b
  {
    if SetupKey(a) == SetupKey(b) {
      assert SetupKey(a)[6..] == Decimal.Decimal(a);
      assert SetupKey(b)[6..] == Decimal.Decimal(b);
      Decimal.DecimalInjective(a, b);
    }
  }

  /** An object's own string-keyed properties in insertion order. */
  type Props<V> = seq<(string, V)>

  /** The `differences` object: its keys in insertion order, each with its diff list. */
  type Differences = Props<seq<Entry>>

  /** The first position of `k` in `keys`, if any. */
  function IndexOf(keys: seq<string>, k: string): (r: Option<nat>)
    ensures r.None? <==> k !in keys
    ensures r.Some? ==> r.value < |keys| && keys[r.value] == k
    decreases |keys|
  {
    if keys == [] then None
    else if keys[0] == k then Some(0)
    else
      match IndexOf(keys[1..], k)
      case None => None
      case Some(i) => Some(i + 1)
  }

  /** `differences[k] = v`: an existing key keeps its place and takes the new value; a new key goes last. */
  function Assign<V>(d: Props<V>, k: string, v: V): (r: Props<V>)
    ensures k !in FieldNames(d) ==> r == d + [(k, v)]
    ensures k in FieldNames(d) ==> FieldNames(r) == FieldNames(d)
    ensures (k, v) in r
  {
    match IndexOf(FieldNames(d), k)
    case None => d + [(k, v)]
    case Some(i) =>
      var r := d[i := (k, v)];
      assert forall j :: 0 <= j < |d| ==> FieldNames(r)[j] == FieldNames(d)[j];
      assert r[i] == (k, v);
      r
  }

  /** The loop over `setups[1..]`: each `(key, diffs)` pair assigned in turn. */
  function AssignAll<V>(d: Props<V>, entries: Props<V>): Props<V>
    decreases |entries|
  {
    if entries == [] then d
    else
      var n := |entries| - 1;
      Assign(AssignAll(d, entries[..n]), entries[n].0, entries[n].1)
  }

  predicate DistinctKeys<V>(d: Props<V>) {
    forall i, j :: 0 <= i < j < |d| ==> d[i].0 != d[j].0
  }

  /** In a list with distinct keys the last key is not among the earlier ones. */
  lemma LastKeyFresh<V>(entries: Props<V>)
    requires entries != [] && DistinctKeys(entries)
    ensures entries[|entries| - 1].0 !in FieldNames(entries[..|entries| - 1])
  {
    var n := |entries| - 1;
    var ks := FieldNames(entries[..n]);
    forall i | 0 <= i < |ks|
      ensures ks[i] != entries[n].0
    {
      assert ks[i] == entries[i].0;
    }
  }

  /** With distinct keys no assignment overwrites: the object holds every pair, in order. */
  lemma {:induction false} AssignAllAppends<V>(entries: Props<V>)
    requires DistinctKeys(entries)
    ensures AssignAll([], entries) == entries
    decreases |entries|
  {
    if entries != [] {
      var n := |entries| - 1;
      var init := entries[..n];
      var last := entries[n];
      assert DistinctKeys(init) by {
        forall i, j | 0 <= i < j < |init|
          ensures init[i].0 != init[j].0
        {
          assert init[i] == entries[i] && init[j] == entries[j];
        }
      }
      AssignAllAppends(init);
      LastKeyFresh(entries);
      var r := Assign(init, last.0, last.1);
      assert r == init + [last];
      assert init + [last] == entries;
    }
  }

  predicate DistinctIds(rows: seq<SetupRow>) {
    forall i, j :: 0 <= i < j < |rows| ==> rows[i].id != rows[j].id
  }

  /** The entry setup `row` gets. */
  function DiffAgainst(base: SetupRow, row: SetupRow): (string, seq<Entry>) {
    (SetupKey(row.id), GenerateDataDifferences(base.data, row.data))
  }

  /** The pairs the loop assigns, one per row. */
  function RowDiffs(base: SetupRow, rows: seq<SetupRow>): (r: Differences)
    ensures |r| == |rows|
    ensures forall i :: 0 <= i < |rows| ==> r[i] == DiffAgainst(base, rows[i])
  {
    seq(|rows|, i requires 0 <= i < |rows| => DiffAgainst(base, rows[i]))
  }

  /** Distinct ids give distinct keys. */
  lemma DistinctIdsDistinctKeys(base: SetupRow, rows: seq<SetupRow>)
    requires DistinctIds(rows)
    ensures DistinctKeys(RowDiffs(base, rows))
  {
    var d := RowDiffs(base, rows);
    forall i, j | 0 <= i < j < |d|
      ensures d[i].0 != d[j].0
    {
      SetupKeyInjective(rows[i].id, rows[j].id);
    }
  }

  /** `generateSetupDifferences(setups)`; `null` is `None`. */
  function GenerateSetupDifferences(setups: seq<SetupRow>): (r: Option<Differences>)
    ensures r.None? <==> |setups| < 2
    ensures r.Some? && DistinctIds(setups) ==>
      && |r.value| == |setups| - 1
      && forall i :: 1 <= i < |setups| ==> r.value[i - 1] == DiffAgainst(setups[0], setups[i])
  {
    if |setups| < 2 then None
    else
      var r := AssignAll([], RowDiffs(setups[0], setups[1..]));
      if DistinctIds(setups) then OneEntryPerSetup(setups); Some(r)
      else Some(r)
  }

  /** With distinct ids every setup after the first gets its own entry, in request order. */
  lemma OneEntryPerSetup(setups: seq<SetupRow>)
    requires |setups| >= 2 && DistinctIds(setups)
    ensures var r := AssignAll([], RowDiffs(setups[0], setups[1..]));
      && |r| == |setups| - 1
      && forall i :: 1 <= i < |setups| ==> r[i - 1] == DiffAgainst(setups[0], setups[i])
  {
    var rest := setups[1..];
    assert DistinctIds(rest) by {
      forall i, j | 0 <= i < j < |rest|
        ensures rest[i].id != rest[j].id
      {
        assert rest[i] == setups[i + 1] && rest[j] == setups[j + 1];
      }
    }
    var entries := RowDiffs(setups[0], rest);
    DistinctIdsDistinctKeys(setups[0], rest);
    AssignAllAppends(entries);
    forall i | 1 <= i < |setups|
      ensures entries[i - 1] == DiffAgainst(setups[0], setups[i])
    {
      assert rest[i - 1] == setups[i];
    }
  }

  /** `setups.reduce((sum, s) => sum + (s.downloads_count || 0), 0)`. */
  function TotalDownloads(rows: seq<SetupRow>): real
    decreases |rows|
  {
    if rows == [] then 0.0
    else TotalDownloads(rows[..|rows| - 1]) + JsNumber.OrZero(rows[|rows| - 1].downloadsCount)
  }

  /** The same reduction over `rating_avg`. */
  function TotalRating(rows: seq<SetupRow>): real
    decreases |rows|
  {
    if rows == [] then 0.0
    else TotalRating(rows[..|rows| - 1]) + JsNumber.OrZero(rows[|rows| - 1].ratingAvg)
  }

  /** The sum splits over a concatenation: every row counts once, a missing value as 0. */
  lemma {:induction false} TotalDownloadsAppend(a: seq<SetupRow>, b: seq<SetupRow>)
    ensures TotalDownloads(a + b) == TotalDownloads(a) + TotalDownloads(b)
    decreases |b|
  {
    if b == [] {
      assert a + b == a;
    } else {
      assert (a + b)[..|a + b| - 1] == a + b[..|b| - 1];
      assert (a + b)[|a + b| - 1] == b[|b| - 1];
      TotalDownloadsAppend(a, b[..|b| - 1]);
    }
  }

  lemma TotalDownloadsSingle(row: SetupRow)
    ensures TotalDownloads([row]) == JsNumber.OrZero(row.downloadsCount)
  {
    assert [row][..0] == [];
  }

  /** `setups.map(s => s.lap_time).filter(Boolean)`. */
  function LapTimes(rows: seq<SetupRow>): (r: seq<Json>)
    ensures |r| <= |rows|
    ensures forall i :: 0 <= i < |r| ==> Truthy(r[i])
    ensures forall i :: 0 <= i < |r| ==> exists j :: 0 <= j < |rows| && rows[j].lapTime == r[i]
    ensures forall j :: 0 <= j < |rows| && Truthy(rows[j].lapTime) ==> rows[j].lapTime in r
    decreases |rows|
  {
    if rows == [] then []
    else
      var rest := LapTimes(rows[1..]);
      assert forall j :: 1 <= j < |rows| ==> rows[1..][j - 1] == rows[j];
      if Truthy(rows[0].lapTime) then [rows[0].lapTime] + rest else rest
  }

  /** The lap-time filter keeps input order across a concatenation. */
  lemma {:induction false} LapTimesAppend(a: seq<SetupRow>, b: seq<SetupRow>)
    ensures LapTimes(a + b) == LapTimes(a) + LapTimes(b)
    decreases |a|
  {
    if a == [] {
      assert a + b == b;
    } else {
      assert (a + b)[0] == a[0];
      assert (a + b)[1..] == a[1..] + b;
      LapTimesAppend(a[1..], b);
    }
  }

  datatype Summary = Summary(
    totalSetups: nat,
    averageRating: Option<real>,
    totalDownloads: real,
    lapTimes: seq<Json>)

  /** `generateComparisonSummary(setups)`; the average of no rows is NaN, `None` here. */
  function GenerateComparisonSummary(rows: seq<SetupRow>): (r: Summary)
    ensures r.totalSetups == |rows|
    ensures r.averageRating.None? <==> rows == []
    ensures r.averageRating.Some? ==> r.averageRating.value * |rows| as real == TotalRating(rows)
    ensures r.totalDownloads == TotalDownloads(rows)
    ensures r.lapTimes == LapTimes(rows)
  {
    Summary(
      |rows|,
      if rows == [] then None else Some(TotalRating(rows) / |rows| as real),
      TotalDownloads(rows),
      LapTimes(rows))
  }

  predicate SameCarTrack(rows: seq<SetupRow>)
    requires |rows| > 0
  {
    forall i :: 0 <= i < |rows| ==> rows[i].carId == rows[0].carId && rows[i].trackId == rows[0].trackId
  }

  datatype Comparison = Comparison(
    setups: seq<SetupRow>,
    sameCarTrack: bool,
    differences: Option<Differences>,
    summary: Summary)

  /** The `/compare` handler from the id check to the response body. */
  function CompareSetups(setupIds: Option<Json>, rows: seq<SetupRow>): (r: Result<Comparison>)
    ensures r.Ok? <==> ValidateSetupIds(setupIds).Ok? && |rows| == |setupIds.value.items|
    ensures ValidateSetupIds(setupIds).Err? ==> r == Err(IdCountError)
    ensures r.Ok? ==> 2 <= r.value.summary.totalSetups <= 4
    ensures r.Ok? ==> (r.value.differences.Some? <==> r.value.sameCarTrack)
    ensures r.Ok? ==> (r.value.sameCarTrack <==>
      forall i :: 0 <= i < |rows| ==> rows[i].carId == rows[0].carId && rows[i].trackId == rows[0].trackId)
    ensures r.Ok? ==> r.value.setups == rows && r.value.summary == GenerateComparisonSummary(rows)
    ensures r.Ok? && r.value.sameCarTrack ==> r.value.differences == GenerateSetupDifferences(rows)
    ensures r.Ok? && r.value.sameCarTrack && DistinctIds(rows) ==>
      |r.value.differences.value| == |rows| - 1
  {
    match ValidateSetupIds(setupIds)
    case Err(m) => Err(m)
    case Ok(ids) =>
      if |rows| != |ids| then Err(NotFoundError)
      else
        var same := SameCarTrack(rows);
        Ok(Comparison(rows, same, if same then GenerateSetupDifferences(rows) else None,
                      GenerateComparisonSummary(rows)))
  }
}

=== FILE: data_diff.dfy ===
/**
 * `generateDataDifferences` of backend/routes/comparisons.js: a recursive
 * diff of two setup `data` trees that walks, at every level, the union of
 * both sides' keys and reports each leaf whose values are not `===`.
 */
module DataDiff {

  import opened Options
  import opened Json

  datatype Kind = Added | Removed | Changed

  /** One `{ path, oldValue, newValue, type }` record; `None` is `undefined`. */
  datatype Entry = Entry(path: string, oldValue: Option<Json>, newValue: Option<Json>, kind: Kind)

  /** `path ? `${path}.${key}` : key`. */
  function Extend(path: string, key: string): (r: string)
    ensures path == "" ==> r == key
    ensures path != "" ==> |r| == |path| + 1 + |key|
    ensures path != "" ==> r[..|path|] == path && r[|path|] == '.' && r[|path| + 1..] == key
  {
    if path == "" then key else path + "." + key
  }

  /** `val1 === undefined ? 'added' : val2 === undefined ? 'removed' : 'changed'`. */
  function KindOf(v1: Option<Json>, v2: Option<Json>): Kind {
    if v1.None? then Added else if v2.None? then Removed else Changed
  }

  /** The keys `compareObjects` visits: `new Set([...Object.keys(obj1), ...Object.keys(obj2)])`. */
  function UnionKeys(o1: Json, o2: Json): (r: seq<string>)
    ensures Distinct(r)
    ensures forall k :: k in r <==> k in KeysOf(o1) || k in KeysOf(o2)
  {
    DedupFromDistinct([], KeysOf(o1) + KeysOf(o2));
    Dedup(KeysOf(o1) + KeysOf(o2))
  }

  /** What every reported entry satisfies. */
  predicate EntryOk(e: Entry) {
    && !StrictEq(e.oldValue, e.newValue)
    && !(IsObject(e.oldValue) && IsObject(e.newValue))
    && (e.kind == Added <==> e.oldValue.None?)
    && (e.kind == Removed <==> e.oldValue.Some? && e.newValue.None?)
    && (e.kind == Changed <==> e.oldValue.Some? && e.newValue.Some?)
  }

  /** `compareObjects(obj1, obj2, path)`. */
  function Compare(o1: Json, o2: Json, path: string): (r: seq<Entry>)
    ensures forall i :: 0 <= i < |r| ==> EntryOk(r[i])
    decreases Size(o1) + Size(o2), 2
  {
    CompareKeys(o1, o2, path, UnionKeys(o1, o2))
  }

  /** The entries one key contributes. */
  function CompareKey(o1: Json, o2: Json, path: string, key: string): (r: seq<Entry>)
    ensures forall i :: 0 <= i < |r| ==> EntryOk(r[i])
    decreases Size(o1) + Size(o2), 0
  {
    var v1 := Get(o1, key);
    var v2 := Get(o2, key);
    if StrictEq(v1, v2) then []
    else if IsObject(v1) && IsObject(v2) then
      ReadIsSmaller(o1, key);
      ReadIsSmaller(o2, key);
      Compare(v1.value, v2.value, Extend(path, key))
    else
      [Entry(Extend(path, key), v1, v2, KindOf(v1, v2))]
  }

  /** The loop over the visited keys. */
  function CompareKeys(o1: Json, o2: Json, path: string, keys: seq<string>): (r: seq<Entry>)
    ensures forall i :: 0 <= i < |r| ==> EntryOk(r[i])
    decreases Size(o1) + Size(o2), 1, |keys|
  {
    if keys == [] then []
    else CompareKey(o1, o2, path, keys[0]) + CompareKeys(o1, o2, path, keys[1..])
  }

  /** `generateDataDifferences(data1, data2)`. */
  function GenerateDataDifferences(data1: Json, data2: Json): (r: seq<Entry>)
    ensures forall i :: 0 <= i < |r| ==> EntryOk(r[i])
  {
    Compare(data1, data2, "")
  }

  /** The first side's keys come first, then the keys only the second side has. */
  lemma UnionKeysOrder(o1: Json, o2: Json)
    ensures var u := UnionKeys(o1, o2);
      && |KeysOf(o1)| <= |u| && u[..|KeysOf(o1)|] == KeysOf(o1)
      && forall k :: k in u[|KeysOf(o1)|..] <==> k in KeysOf(o2) && k !in KeysOf(o1)
  {
    var k1 := KeysOf(o1);
    DedupFromAppend([], k1, KeysOf(o2));
    assert [] + k1 == k1;
    DistinctDedupFixed([], k1);
    var u := UnionKeys(o1, o2);
    assert u == DedupFrom(k1, KeysOf(o2));
    DistinctSuffix(u, |k1|);
  }

  /** In a sequence without repeats, the suffix holds exactly what the prefix lacks. */
  lemma DistinctSuffix(r: seq<string>, n: nat)
    requires Distinct(r) && n <= |r|
    ensures forall k :: k in r[n..] <==> k in r && k !in r[..n]
  {
    assert r == r[..n] + r[n..];
    forall k | k in r[n..]
      ensures k !in r[..n]
    {
      var j :| 0 <= j < |r[n..]| && r[n..][j] == k;
      assert r[n + j] == k;
      assert forall i :: 0 <= i < n ==> r[..n][i] == r[i] != r[n + j];
    }
  }

  /** Inserting an already distinct sequence into an empty set keeps it as it is. */
  lemma {:induction false} DistinctDedupFixed(seen: seq<string>, s: seq<string>)
    requires Distinct(seen + s)
    ensures DedupFrom(seen, s) == seen + s
    decreases |s|
  {
    if s == [] {
      assert seen + s == seen;
    } else {
      assert (seen + s)[|seen|] == s[0];
      assert forall i :: 0 <= i < |seen| ==> (seen + s)[i] == seen[i];
      assert seen + [s[0]] + s[1..] == seen + s;
      DistinctDedupFixed(seen + [s[0]], s[1..]);
    }
  }

  /** Structurally equal trees have no differences. */
  lemma {:induction false} EqualTreesHaveNoDiff(x: Json, path: string)
    ensures Compare(x, x, path) == []
    decreases Size(x) + Size(x), 2
  {
    EqualKeysHaveNoDiff(x, path, UnionKeys(x, x));
  }

  lemma {:induction false} EqualKeysHaveNoDiff(x: Json, path: string, keys: seq<string>)
    ensures CompareKeys(x, x, path, keys) == []
    decreases Size(x) + Size(x), 1, |keys|
  {
    if keys != [] {
      var v := Get(x, keys[0]);
      if !StrictEq(v, v) {
        ReadIsSmaller(x, keys[0]);
        EqualTreesHaveNoDiff(v.value, Extend(path, keys[0]));
      }
      EqualKeysHaveNoDiff(x, path, keys[1..]);
    }
  }

  lemma NoDiffOnEqualData(data: Json)
    ensures GenerateDataDifferences(data, data) == []
  {
    EqualTreesHaveNoDiff(data, "");
  }

  /**
   * The independent description: a key chain `ks` is reported when each of
   * its keys is among the union of keys at its level, the values differ
   * (`!==`) at every level, they are objects on both sides at every level but
   * the last, and at the last they are not.
   */
  predicate Reported(o1: Json, o2: Json, ks: seq<string>)
    decreases |ks|
  {
    && |ks| > 0
    && ks[0] in UnionKeys(o1, o2)
    && var v1 := Get(o1, ks[0]);
       var v2 := Get(o2, ks[0]);
       && !StrictEq(v1, v2)
       && if IsObject(v1) && IsObject(v2) then Reported(v1.value, v2.value, ks[1..])
          else |ks| == 1
  }

  /** The entry a reported chain produces, below the path `path`. */
  function EntryFor(o1: Json, o2: Json, path: string, ks: seq<string>): Entry
    requires Reported(o1, o2, ks)
    decreases |ks|
  {
    var v1 := Get(o1, ks[0]);
    var v2 := Get(o2, ks[0]);
    if IsObject(v1) && IsObject(v2) then EntryFor(v1.value, v2.value, Extend(path, ks[0]), ks[1..])
    else Entry(Extend(path, ks[0]), v1, v2, KindOf(v1, v2))
  }

  lemma {:induction false} InCompareKeys(o1: Json, o2: Json, path: string, keys: seq<string>, k: string, e: Entry)
    requires k in keys && e in CompareKey(o1, o2, path, k)
    ensures e in CompareKeys(o1, o2, path, keys)
    decreases |keys|
  {
    if keys[0] != k {
      InCompareKeys(o1, o2, path, keys[1..], k, e);
    }
  }

  lemma {:induction false} FromCompareKeys(o1: Json, o2: Json, path: string, keys: seq<string>, e: Entry)
    returns (k: string)
    requires e in CompareKeys(o1, o2, path, keys)
    ensures k in keys && e in CompareKey(o1, o2, path, k)
    decreases |keys|
  {
    if e in CompareKey(o1, o2, path, keys[0]) {
      k := keys[0];
    } else {
      k := FromCompareKeys(o1, o2, path, keys[1..], e);
    }
  }

  /** Completeness: every reported chain appears in the diff. */
  lemma {:induction false} CompareComplete(o1: Json, o2: Json, path: string, ks: seq<string>)
    requires Reported(o1, o2, ks)
    ensures EntryFor(o1, o2, path, ks) in Compare(o1, o2, path)
    decreases |ks|
  {
    var k := ks[0];
    var v1 := Get(o1, k);
    var v2 := Get(o2, k);
    if IsObject(v1) && IsObject(v2) {
      CompareComplete(v1.value, v2.value, Extend(path, k), ks[1..]);
    }
    InCompareKeys(o1, o2, path, UnionKeys(o1, o2), k, EntryFor(o1, o2, path, ks));
  }

  /** Soundness: every entry of the diff comes from a reported chain. */
  lemma {:induction false} CompareSound(o1: Json, o2: Json, path: string, e: Entry)
    returns (ks: seq<string>)
    requires e in Compare(o1, o2, path)
    ensures Reported(o1, o2, ks) && e == EntryFor(o1, o2, path, ks)
    decreases Size(o1) + Size(o2)
  {
    var k := FromCompareKeys(o1, o2, path, UnionKeys(o1, o2), e);
    var v1 := Get(o1, k);
    var v2 := Get(o2, k);
    if IsObject(v1) && IsObject(v2) {
      ReadIsSmaller(o1, k);
      ReadIsSmaller(o2, k);
      var rest := CompareSound(v1.value, v2.value, Extend(path, k), e);
      ks := [k] + rest;
      assert ks[1..] == rest;
    } else {
      ks := [k];
    }
  }

  /** A `null` against an object is a leaf reported as changed, not a recursion. */
  lemma NullAgainstObjectIsChanged(o1: Json, o2: Json, path: string, k: string)
    requires k in KeysOf(o1)
    requires Get(o1, k) == Some(JNull) && IsObject(Get(o2, k))
    ensures Entry(Extend(path, k), Some(JNull), Get(o2, k), Changed) in Compare(o1, o2, path)
  {
    assert Reported(o1, o2, [k]);
    CompareComplete(o1, o2, path, [k]);
  }

  /** A key only the second side has is reported as added, with its whole value. */
  lemma OnlyInSecondIsAdded(o1: Json, o2: Json, path: string, k: string)
    requires k in KeysOf(o2) && Get(o1, k).None?
    ensures Entry(Extend(path, k), None, Get(o2, k), Added) in Compare(o1, o2, path)
  {
    KeysAreReadable(o2, k);
    assert Reported(o1, o2, [k]);
    CompareComplete(o1, o2, path, [k]);
  }
}

=== FILE: decimal.dfy ===
/**
 * Decimal spelling of natural numbers, as JavaScript prints them in
 * template literals (`setup_${id}`, `{${index}}`) and as it names array and
 * string indices in `Object.keys`.
 */
module Decimal {

  import opened Options

  predicate IsDigit(c: char) {
    '0' <= c <= '9'
  }

  function DigitChar(d: nat): (c: char)
    requires d < 10
    ensures IsDigit(c)
  {
    ('0' as int + d) as char
  }

  function DigitValue(c: char): (d: nat)
    requires IsDigit(c)
    ensures d < 10
  {
    c as int - '0' as int
  }

  /** The canonical spelling: no sign, no leading zero unless the number is 0. */
  function Decimal(n: nat): (s: string)
    ensures |s| > 0
    ensures forall i :: 0 <= i < |s| ==> IsDigit(s[i])
    ensures s[0] == '0' ==> |s| == 1
  {
    if n < 10 then [DigitChar(n)] else Decimal(n / 10) + [DigitChar(n % 10)]
  }

  /** The value of a string of digits, read most significant digit first. */
  function DigitsValue(s: string): nat
    requires forall i :: 0 <= i < |s| ==> IsDigit(s[i])
  {
    if s == [] then 0 else DigitsValue(s[..|s| - 1]) * 10 + DigitValue(s[|s| - 1])
  }

  /** True of the strings `Decimal` produces: the canonical array-index keys. */
  predicate IsCanonical(s: string) {
    && |s| > 0
    && (forall i :: 0 <= i < |s| ==> IsDigit(s[i]))
    && (s[0] == '0' ==> |s| == 1)
  }

  /**
   * Reads a property key as an array index: a canonical decimal numeral
   * names the element at that position; every other key names none.
   */
  function ParseIndex(s: string): (r: Option<nat>)
    ensures r.Some? <==> IsCanonical(s)
  {
    if IsCanonical(s) then Some(DigitsValue(s)) else None
  }

  /** Reading back a printed number gives the number. */
  lemma {:induction false} DecimalValue(n: nat)
    ensures DigitsValue(Decimal(n)) == n
  {
    if n >= 10 {
      var s := Decimal(n);
      assert s[..|s| - 1] == Decimal(n / 10);
      DecimalValue(n / 10);
    }
  }

  /** `ParseIndex` inverts `Decimal`. */
  lemma ParseDecimal(n: nat)
    ensures ParseIndex(Decimal(n)) == Some(n)
  {
    DecimalValue(n);
  }

  /** Distinct numbers print differently. */
  lemma DecimalInjective(m: nat, n: nat)
    ensures Decimal(m) == Decimal(n) ==> m == n
  {
    DecimalValue(m);
    DecimalValue(n);
  }
}

=== FILE: generator.dfy ===
/**
 * The `/generate` handler of backend/routes/generator.js with its database
 * reads replaced by inputs: the car's category, the track's type and the
 * track's characteristics row are given, and the built-in template table
 * is used. The stages run in the handler's order: template, track
 * adaptation, style, session, and one more rounding pass.
 */
module Generator {

  import opened Options
  import opened JsNumber
  import opened Setup
  import opened Rounding
  import opened Templates
  import opened Adaptation
  import opened Style
  import opened Session
  import SetupEdits

  /**
   * The request body after the car and track rows have been read. Absent
   * fields take the destructuring defaults: conditions `{}`, session
   * 'race', style 'balanced'.
   */
  datatype GenerateRequest = GenerateRequest(
    carCategory: string,
    trackType: string,
    characteristics: Option<TrackCharacteristics>,
    conditions: Option<Conditions>,
    sessionType: Option<string>,
    setupStyle: Option<string>)

  /** The generated setup with the two computed metadata fields. */
  datatype Generated = Generated(setup: Setup, adaptations: seq<string>, confidence: real)

  const PopularCategories: set<string> := {"GT3", "Formula", "NASCAR"}

  /**
   * `calculateConfidence(car, track, characteristics)`: 0.7, plus 0.2 with a
   * characteristics row, plus 0.1 for a popular category, capped at 1.0;
   * over reals the cap is never needed.
   */
  function CalculateConfidence(carCategory: string, ch: Option<TrackCharacteristics>): (r: real)
    ensures r == 0.7 + (if ch.Some? then 0.2 else 0.0) + (if carCategory in PopularCategories then 0.1 else 0.0)
    ensures 0.7 <= r <= 1.0
  {
    var base := 0.7;
    var withRow := if ch.Some? then base + 0.2 else base;
    var confidence := if carCategory in PopularCategories then withRow + 0.1 else withRow;
    if confidence <= 1.0 then confidence else 1.0
  }

  /**
   * The setup of `router.post('/generate', ...)`: template, track
   * adaptation, style, session, and the final rounding.
   */
  function GenerateSetup(req: GenerateRequest): (r: Setup)
    ensures Rounded(r)
    ensures SameShape(GenerateDefaultSetup(req.carCategory, req.trackType), r)
  {
    var base := GenerateDefaultSetup(req.carCategory, req.trackType);
    var adapted := ApplyTrackAdaptations(base, req.characteristics, req.conditions.GetOr(NoConditions));
    var styled := ApplySetupStyle(adapted, req.setupStyle.GetOr("balanced"), req.carCategory, req.trackType);
    var session := ApplySessionModifications(styled, req.sessionType.GetOr("race"));
    var setup := RoundSetupValues(session);
    SameShapeTransitive(base, adapted, styled);
    SameShapeTransitive(base, styled, session);
    SameShapeTransitive(base, session, setup);
    setup
  }

  /** The response of `router.post('/generate', ...)` from the template on. */
  function Generate(req: GenerateRequest): (r: Generated)
    ensures Rounded(r.setup)
    ensures Fields(r.setup) == Fields(GenerateDefaultSetup(req.carCategory, req.trackType))
    ensures 0.7 <= r.confidence <= 1.0
    ensures |r.adaptations| <= 6
    ensures r.confidence == CalculateConfidence(req.carCategory, req.characteristics)
    ensures r.adaptations == GetAppliedAdaptations(req.characteristics, req.conditions.GetOr(NoConditions))
  {
    var setup := GenerateSetup(req);
    SameShapeSameFields(GenerateDefaultSetup(req.carCategory, req.trackType), setup);
    Generated(setup, GetAppliedAdaptations(req.characteristics, req.conditions.GetOr(NoConditions)),
              CalculateConfidence(req.carCategory, req.characteristics))
  }

  /** The handler's last rounding pass changes nothing: the session stage already rounded. */
  lemma FinalRoundingIsIdentity(req: GenerateRequest)
    ensures var conditions := req.conditions.GetOr(NoConditions);
      var base := GenerateDefaultSetup(req.carCategory, req.trackType);
      var adapted := ApplyTrackAdaptations(base, req.characteristics, conditions);
      var styled := ApplySetupStyle(adapted, req.setupStyle.GetOr("balanced"), req.carCategory, req.trackType);
      GenerateSetup(req) == ApplySessionModifications(styled, req.sessionType.GetOr("race"))
  {
    var conditions := req.conditions.GetOr(NoConditions);
    var base := GenerateDefaultSetup(req.carCategory, req.trackType);
    var adapted := ApplyTrackAdaptations(base, req.characteristics, conditions);
    var styled := ApplySetupStyle(adapted, req.setupStyle.GetOr("balanced"), req.carCategory, req.trackType);
    RoundingFixesRounded(ApplySessionModifications(styled, req.sessionType.GetOr("race")));
  }

  /** The GT3 road template after the safe style and its rounding. */
  const SafeGt3Road := Setup(
    Some(Suspension(Axle(836.0, 60.0, 7.0, 57.0), Axle(945.0, 55.0, 5.0, 62.0))),
    Some(Aerodynamics(Some(5.0), Some(8.0), None, None)),
    Some(Differential(68.0, 51.0, 34.0)),
    Some(Brakes(55.0, 76.0)),
    Some(TirePressures(23.5, 23.5, 23.0, 23.0)),
    None)

  /** The safe style softens the GT3 road template and rounds it to the values above. */
  lemma SafeStyleOnGt3Road()
    ensures ApplySetupStyle(Gt3Road, "safe", "GT3", "road") == SafeGt3Road
  {
    var unrounded := SafeStyle(Gt3Road);
    assert unrounded == Setup(
      Some(Suspension(Axle(836.0, 59.8, 6.8, 57.0), Axle(945.0, 55.2, 5.28, 62.0))),
      Some(Aerodynamics(Some(5.0), Some(8.0), None, None)),
      Some(Differential(68.0, 50.7, 33.75)),
      Some(Brakes(55.0, 76.0)),
      Some(TirePressures(23.5, 23.5, 23.0, 23.0)),
      None);
    assert JsRound(59.8) == 60 && JsRound(55.2) == 55;
    assert JsRound(6.8) == 7 && JsRound(5.28) == 5;
    assert JsRound(50.7) == 51 && JsRound(33.75) == 34;
    assert RoundSetupValues(unrounded) == SafeGt3Road;
  }

  /**
   * GT3 on a road track, no characteristics, style 'safe', session
   * 'practice': the safe multipliers applied to the GT3 road template.
   */
  lemma SafePracticeScenario()
    ensures GenerateSetup(GenerateRequest("GT3", "road", None, None, Some("practice"), Some("safe"))) == SafeGt3Road
  {
    DefaultSetupTable("GT3", "road");
    SafeStyleOnGt3Road();
    RoundingFixesRounded(SafeGt3Road);
    assert ApplySessionModifications(SafeGt3Road, "practice") == SafeGt3Road;
    assert ApplyTrackAdaptations(Gt3Road, None, NoConditions) == Gt3Road;
  }

  /**
   * Without a session in the request the default is 'race': the GT3 road
   * template comes back with 0.2 added to every tire pressure.
   */
  lemma DefaultSessionIsRace()
    ensures GenerateSetup(GenerateRequest("GT3", "road", None, None, None, None))
      == Gt3Road.(tirePressures := Some(TirePressures(23.2, 23.2, 22.7, 22.7)))
  {
    var expected := Gt3Road.(tirePressures := Some(TirePressures(23.2, 23.2, 22.7, 22.7)));
    DefaultSetupTable("GT3", "road");
    RoundingFixesRounded(Gt3Road);
    assert ApplySetupStyle(Gt3Road, "balanced", "GT3", "road") == Gt3Road;
    var raced := SetupEdits.AddPressures(Gt3Road, 0.2);
    assert raced == expected;
    RoundingFixesRounded(expected);
    assert ApplySessionModifications(Gt3Road, "race") == expected;
  }

  /**
   * Adapting the GT3 road template to a low-grip row: softer springs, a more
   * open differential and pressures 1.5 lower (the 18.0 floor not reached).
   */
  lemma LowGripScenario()
    ensures var r := ApplyTrackAdaptations(Gt3Road, Some(LowGripOnly), NoConditions);
      && r.suspension.value.front.spring == 836.0 && r.suspension.value.rear.spring == 945.0
      && r.differential == Some(Differential(80.0, 50.0, 37.0))
      && r.tirePressures == Some(TirePressures(21.5, 21.5, 21.0, 21.0))
  {
    var grip := Gt3Road.(
      suspension := Some(Suspension(Axle(836.0, 65.0, 8.0, 55.0), Axle(945.0, 60.0, 6.0, 60.0))),
      differential := Some(Differential(80.0, 50.0, 37.0)),
      tirePressures := Some(TirePressures(21.5, 21.5, 21.0, 21.0)));
    assert LengthRule(Gt3Road, LowGripOnly) == Gt3Road;
    assert BankingRule(ElevationRule(Gt3Road, LowGripOnly), LowGripOnly) == Gt3Road;
    assert GripRule(Gt3Road, LowGripOnly) == grip;
    assert TemperatureRule(RainRule(DownforceRule(grip, LowGripOnly), NoConditions), NoConditions) == grip;
    assert AdaptUnrounded(Gt3Road, LowGripOnly, NoConditions) == grip;
    RoundingFixesRounded(grip);
  }

  /**
   * A Formula car on an oval has no template of its own and is given the
   * GT3 road one; only the popular-category bonus tells it apart.
   */
  lemma FormulaOvalUsesGt3Road()
    ensures var r := Generate(GenerateRequest("Formula", "oval", None, None, Some("practice"), None));
      r.setup == Gt3Road && r.confidence == 0.8 && r.adaptations == []
  {
    FormulaOvalSetup();
    NoRowNoRainNoAdaptations(NoConditions);
    assert CalculateConfidence("Formula", None) == 0.8;
  }

  lemma FormulaOvalSetup()
    ensures GenerateSetup(GenerateRequest("Formula", "oval", None, None, Some("practice"), None)) == Gt3Road
  {
    DefaultSetupTable("Formula", "oval");
    RoundingFixesRounded(Gt3Road);
    assert ApplyTrackAdaptations(Gt3Road, None, NoConditions) == Gt3Road;
    assert ApplySetupStyle(Gt3Road, "balanced", "Formula", "oval") == Gt3Road;
    assert ApplySessionModifications(Gt3Road, "practice") == Gt3Road;
  }
}

=== FILE: js_number.dfy ===
/**
 * JavaScript number semantics the setup code relies on, stated over `real`.
 *
 * Doubles are modelled as exact reals: IEEE-754 artefacts (0.7 + 0.2 + 0.1
 * being 0.9999999999999999, `Math.round(x * 10) / 10` not being exact) are
 * not part of the model.
 */
module JsNumber {

  import opened Options

  /** `Math.round`: the nearest integer, halves rounded towards +infinity. */
  function JsRound(x: real): (r: int)
    ensures -0.5 < r as real - x <= 0.5
    ensures IsInt(x) ==> r as real == x
  {
    if IsInt(x) then RoundOfInteger(x.Floor); (x + 0.5).Floor
    else (x + 0.5).Floor
  }

  /** Rounding leaves whole numbers alone. */
  lemma RoundOfInteger(n: int)
    ensures (n as real + 0.5).Floor == n
  {
  }

  /** True of reals with no fractional part. */
  predicate IsInt(x: real) {
    x == x.Floor as real
  }

  /** Every integer, seen as a real, is whole. */
  lemma IntegerIsInt(n: int)
    ensures IsInt(n as real)
  {
  }

  /** True of reals with at most one decimal digit. */
  predicate IsOneDecimal(x: real) {
    IsInt(x * 10.0)
  }

  /** True of reals with at most two decimal digits. */
  predicate IsTwoDecimals(x: real) {
    IsInt(x * 100.0)
  }

  /** `Math.round(x)` as a real. */
  function RoundInt(x: real): (r: real)
    ensures IsInt(r)
    ensures -0.5 < r - x <= 0.5
    ensures IsInt(x) ==> r == x
  {
    var n := JsRound(x);
    IntegerIsInt(n);
    n as real
  }

  /** `Math.round(x * 10) / 10`: one decimal place. */
  function RoundOneDecimal(x: real): (r: real)
    ensures IsOneDecimal(r)
    ensures -0.05 < r - x <= 0.05
    ensures IsOneDecimal(x) ==> r == x
  {
    var n := JsRound(x * 10.0);
    assert (n as real / 10.0) * 10.0 == n as real;
    IntegerIsInt(n);
    n as real / 10.0
  }

  /** `Math.round(x * 100) / 100`: two decimal places. */
  function RoundTwoDecimals(x: real): (r: real)
    ensures IsTwoDecimals(r)
    ensures -0.005 < r - x <= 0.005
    ensures IsTwoDecimals(x) ==> r == x
  {
    var n := JsRound(x * 100.0);
    assert (n as real / 100.0) * 100.0 == n as real;
    IntegerIsInt(n);
    n as real / 100.0
  }

  /** Rounding to whole numbers never drops below a whole bound the input meets. */
  lemma RoundIntAtLeast(x: real, n: int)
    requires x >= n as real
    ensures RoundInt(x) >= n as real
  {
    assert (x + 0.5).Floor >= (n as real + 0.5).Floor by {
      FloorMonotonic(n as real + 0.5, x + 0.5);
    }
    RoundOfInteger(n);
  }

  /** Rounding to one decimal never drops below a one-decimal bound `n / 10` the input meets. */
  lemma RoundOneDecimalAtLeast(x: real, n: int)
    requires x >= n as real / 10.0
    ensures RoundOneDecimal(x) >= n as real / 10.0
  {
    assert (x * 10.0 + 0.5).Floor >= (n as real + 0.5).Floor by {
      FloorMonotonic(n as real + 0.5, x * 10.0 + 0.5);
    }
    RoundOfInteger(n);
  }

  lemma FloorMonotonic(a: real, b: real)
    requires a <= b
    ensures a.Floor <= b.Floor
  {
  }

  /** `Math.max(a, b)` on numbers. */
  function Max(a: real, b: real): (r: real)
    ensures r >= a && r >= b
    ensures r == a || r == b
  {
    if a >= b then a else b
  }

  /**
   * A number read from a database row or a request body: the property can be
   * missing (`undefined`), SQL/JSON `null`, or a number.
   */
  datatype Operand = Undefined | Null | Num(value: real)

  /** `Number(v)`: `undefined` is NaN (None here), `null` is 0. */
  function ToNumber(v: Operand): (r: Option<real>)
    ensures r.None? <==> v.Undefined?
    ensures v.Null? ==> r == Some(0.0)
  {
    match v
    case Undefined => None
    case Null => Some(0.0)
    case Num(x) => Some(x)
  }

  /** `v > c`: false against NaN. */
  predicate GreaterThan(v: Operand, c: real) {
    match ToNumber(v)
    case Some(x) => x > c
    case None => false
  }

  /** `v < c`: false against NaN. */
  predicate LessThan(v: Operand, c: real) {
    match ToNumber(v)
    case Some(x) => x < c
    case None => false
  }

  /** JavaScript truthiness of such a value: a non-zero number. */
  predicate Truthy(v: Operand) {
    v.Num? && v.value != 0.0
  }

  /** `v || 0`. */
  function OrZero(v: Operand): (r: real)
    ensures Truthy(v) ==> r == v.value
    ensures !Truthy(v) ==> r == 0.0
  {
    if Truthy(v) then v.value else 0.0
  }
}

=== FILE: json.dfy ===
/**
 * Parsed JSON values as the comparison routes see them (a `data` column
 * read by `pg`, a request body), with the JavaScript operations the routes
 * apply to them: own enumerable keys, property access, `===` and truthiness.
 *
 * An object is its field list in JavaScript enumeration order. `JSON.parse`
 * keeps only the last value of a repeated key, so a parsed object never
 * binds a key twice; should a field list do so, the first binding is the
 * one read and the key is enumerated once. Inherited properties (`length`, `constructor`, ...) are
 * not modelled. `undefined` is `None` of an `Option<Json>`.
 */
module Json {

  import opened Options
  import opened Decimal

  datatype Json =
    | JNull
    | JBool(b: bool)
    | JNum(n: real)
    | JStr(s: string)
    | JArr(items: seq<Json>)
    | JObj(fields: seq<(string, Json)>)

  /** A measure that drops on every step into an array element or object field. */
  function Size(j: Json): (n: nat)
    ensures n >= 1
    decreases j, 1
  {
    match j
    case JArr(items) => 1 + SizeItems(items)
    case JObj(fields) => 1 + SizeFields(fields)
    case _ => 1
  }

  function SizeItems(items: seq<Json>): nat
    decreases items, 0
  {
    if items == [] then 0 else Size(items[0]) + SizeItems(items[1..])
  }

  function SizeFields(fields: seq<(string, Json)>): nat
    decreases fields, 0
  {
    if fields == [] then 0
    else
      var f := fields[0];
      assert f.1 < f;
      Size(f.1) + SizeFields(fields[1..])
  }

  lemma {:induction false} ItemSmaller(items: seq<Json>, i: nat)
    requires i < |items|
    ensures Size(items[i]) <= SizeItems(items)
    decreases i
  {
    if i > 0 {
      ItemSmaller(items[1..], i - 1);
      assert items[1..][i - 1] == items[i];
    }
  }

  /** The value of the first field named `k`. */
  function Lookup(fields: seq<(string, Json)>, k: string): (r: Option<Json>)
    ensures r.Some? <==> exists i :: 0 <= i < |fields| && fields[i].0 == k
  {
    if fields == [] then None
    else if fields[0].0 == k then Some(fields[0].1)
    else
      var r := Lookup(fields[1..], k);
      assert forall i :: 1 <= i < |fields| ==> fields[1..][i - 1] == fields[i];
      r
  }

  lemma {:induction false} LookupSmaller(fields: seq<(string, Json)>, k: string)
    requires Lookup(fields, k).Some?
    ensures Size(Lookup(fields, k).value) <= SizeFields(fields)
  {
    if fields[0].0 != k {
      LookupSmaller(fields[1..], k);
    }
  }

  /** The names of a list of properties, in order. */
  function FieldNames<V>(fields: seq<(string, V)>): (r: seq<string>)
    ensures |r| == |fields|
    ensures forall i :: 0 <= i < |fields| ==> r[i] == fields[i].0
  {
    seq(|fields|, i requires 0 <= i < |fields| => fields[i].0)
  }

  /** Drops the elements of `s` already in `seen` or earlier in `s`: insertion into a JS `Set`. */
  function DedupFrom(seen: seq<string>, s: seq<string>): (r: seq<string>)
    ensures |seen| <= |r| && r[..|seen|] == seen
    ensures forall x :: x in r <==> x in seen || x in s
    decreases |s|
  {
    if s == [] then seen
    else if s[0] in seen then DedupFrom(seen, s[1..])
    else DedupFrom(seen + [s[0]], s[1..])
  }

  function Dedup(s: seq<string>): (r: seq<string>)
    ensures forall x :: x in r <==> x in s
  {
    DedupFrom([], s)
  }

  predicate Distinct(s: seq<string>) {
    forall i, j :: 0 <= i < j < |s| ==> s[i] != s[j]
  }

  lemma {:induction false} DedupFromDistinct(seen: seq<string>, s: seq<string>)
    requires Distinct(seen)
    ensures Distinct(DedupFrom(seen, s))
    decreases |s|
  {
    if s != [] {
      if s[0] in seen {
        DedupFromDistinct(seen, s[1..]);
      } else {
        DedupFromDistinct(seen + [s[0]], s[1..]);
      }
    }
  }

  /** Inserting `a` and then `b` is inserting `a + b`. */
  lemma {:induction false} DedupFromAppend(seen: seq<string>, a: seq<string>, b: seq<string>)
    ensures DedupFrom(seen, a + b) == DedupFrom(DedupFrom(seen, a), b)
    decreases |a|
  {
    if a != [] {
      assert (a + b)[0] == a[0];
      assert (a + b)[1..] == a[1..] + b;
      if a[0] in seen {
        DedupFromAppend(seen, a[1..], b);
      } else {
        DedupFromAppend(seen + [a[0]], a[1..], b);
      }
    } else {
      assert a + b == b;
    }
  }

  /** The decimal names of the indices `0 .. n-1`. */
  function IndexKeys(n: nat): (r: seq<string>)
    ensures |r| == n
    ensures forall i :: 0 <= i < n ==> r[i] == Decimal.Decimal(i)
  {
    seq(n, i requires 0 <= i => Decimal.Decimal(i))
  }

  /** `Object.keys(v)` (and `for ... in`): indices of strings and arrays, field names of objects. */
  function KeysOf(v: Json): (r: seq<string>)
    ensures Distinct(r)
  {
    match v
    case JStr(s) => IndexKeysDistinct(|s|); IndexKeys(|s|)
    case JArr(items) => IndexKeysDistinct(|items|); IndexKeys(|items|)
    case JObj(fields) => DedupFromDistinct([], FieldNames(fields)); Dedup(FieldNames(fields))
    case _ => []
  }

  lemma IndexKeysDistinct(n: nat)
    ensures Distinct(IndexKeys(n))
  {
    forall i, j | 0 <= i < j < n
      ensures IndexKeys(n)[i] != IndexKeys(n)[j]
    {
      DecimalInjective(i, j);
    }
  }

  /** `v[k]` (or `v?.[k]`): `None` is `undefined`. */
  function Get(v: Json, k: string): (r: Option<Json>)
  {
    match v
    case JObj(fields) => Lookup(fields, k)
    case JArr(items) =>
      var i := ParseIndex(k);
      if i.Some? && i.value < |items| then Some(items[i.value]) else None
    case JStr(s) =>
      var i := ParseIndex(k);
      if i.Some? && i.value < |s| then Some(JStr([s[i.value]])) else None
    case _ => None
  }

  /** Every enumerated key reads a value. */
  lemma KeysAreReadable(v: Json, k: string)
    requires k in KeysOf(v)
    ensures Get(v, k).Some?
  {
    match v
    case JStr(s) =>
      var i :| 0 <= i < |s| && IndexKeys(|s|)[i] == k;
      ParseDecimal(i);
    case JArr(items) =>
      var i :| 0 <= i < |items| && IndexKeys(|items|)[i] == k;
      ParseDecimal(i);
    case JObj(fields) =>
      var i :| 0 <= i < |fields| && FieldNames(fields)[i] == k;
      assert fields[i].0 == k;
    case _ =>
  }

  /** `typeof v === 'object' && v !== null`, with `undefined` as `None`. */
  predicate IsObject(v: Option<Json>) {
    v.Some? && (v.value.JArr? || v.value.JObj?)
  }

  /** A value read from an object or array is smaller than its container. */
  lemma ReadIsSmaller(v: Json, k: string)
    requires Get(v, k).Some? && (v.JArr? || v.JObj?)
    ensures Size(Get(v, k).value) < Size(v)
  {
    match v
    case JArr(items) => ItemSmaller(items, ParseIndex(k).value);
    case JObj(fields) => LookupSmaller(fields, k);
  }

  /**
   * `a === b`. Values from separate parses are never the same object, so an
   * object or array is never `===` to anything.
   */
  predicate StrictEq(a: Option<Json>, b: Option<Json>) {
    match (a, b)
    case (None, None) => true
    case (Some(x), Some(y)) => !x.JArr? && !x.JObj? && x == y
    case _ => false
  }

  predicate Truthy(v: Json) {
    match v
    case JNull => false
    case JBool(b) => b
    case JNum(n) => n != 0.0
    case JStr(s) => s != ""
    case _ => true
  }

  lemma StrictEqIsEquality(a: Option<Json>, b: Option<Json>)
    ensures StrictEq(a, b) <==> a == b && !IsObject(a)
  {
  }
}

=== FILE: options.dfy ===
/**
 * Failure-compatible wrappers shared by every module of the model.
 *
 * `Option` stands for a JavaScript value that may be `undefined` (an absent
 * property) and `Result` for a handler outcome that is either a value or the
 * error message the HTTP layer would send back.
 */
module Options {

  datatype Option<+T> = None | Some(value: T) {

    /** The wrapped value, or `default` when absent. */
    function GetOr(default: T): T {
      match this
      case Some(v) => v
      case None => default
    }
  }

  datatype Result<+T> = Ok(value: T) | Err(message: string)
}

=== FILE: rounding.dfy ===
/**
 * `roundSetupValues` (backend/routes/generator.js): every stage of the
 * generator ends with it, and the request handler applies it once more.
 *
 * Suspension, aerodynamic, differential and brake values become whole
 * numbers (the brake balance included, since the loop rounds every numeric
 * key of `brakes`), tire pressures get one decimal and gear ratios two.
 */
module Rounding {

  import opened Options
  import opened JsNumber
  import opened Setup
  import opened SetupEdits

  function RoundAxle(a: Axle): (r: Axle)
    ensures IntAxle(r) && NearAxle(a, r)
  {
    Axle(RoundInt(a.spring), RoundInt(a.damper), RoundInt(a.antiRollBar), RoundInt(a.rideHeight))
  }

  /** A key whose value is a number is rounded; an absent key stays absent. */
  function RoundElement(o: Option<real>): (r: Option<real>)
    ensures r.Some? == o.Some? && IntElement(r) && NearElement(o, r)
  {
    match o
    case Some(x) => Some(RoundInt(x))
    case None => None
  }

  function RoundAero(a: Aerodynamics): (r: Aerodynamics)
    ensures IntAero(r) && NearAero(a, r)
    ensures r.frontWing.Some? == a.frontWing.Some? && r.rearWing.Some? == a.rearWing.Some?
    ensures r.frontSplitter.Some? == a.frontSplitter.Some? && r.rearSpoiler.Some? == a.rearSpoiler.Some?
  {
    Aerodynamics(RoundElement(a.frontWing), RoundElement(a.rearWing),
                 RoundElement(a.frontSplitter), RoundElement(a.rearSpoiler))
  }

  function RoundGearing(g: Gearing): (r: Gearing)
    ensures r.final.Some? == g.final.Some? && SameGears(g.ratios, r.ratios)
    ensures TwoDecimalGearing(r) && NearGearing(g, r)
  {
    Gearing(
      // `if (gearing.final && ...)`: a final drive of 0 is skipped (it is whole already)
      if g.final.Some? && g.final.value != 0.0 then Some(RoundTwoDecimals(g.final.value)) else g.final,
      seq(|g.ratios|, i requires 0 <= i < |g.ratios| => (g.ratios[i].0, RoundTwoDecimals(g.ratios[i].1))))
  }

  /** The normaliser. */
  function RoundSetupValues(s: Setup): (r: Setup)
    ensures Rounded(r)
    ensures SameShape(s, r)
    ensures WithinHalfUnit(s, r)
  {
    Setup(
      match s.suspension
      case Some(susp) => Some(Suspension(RoundAxle(susp.front), RoundAxle(susp.rear)))
      case None => None,
      match s.aerodynamics
      case Some(a) => Some(RoundAero(a))
      case None => None,
      match s.differential
      case Some(d) => Some(Differential(RoundInt(d.preload), RoundInt(d.power), RoundInt(d.coast)))
      case None => None,
      match s.brakes
      case Some(b) => Some(Brakes(RoundInt(b.balance), RoundInt(b.pressure)))
      case None => None,
      match s.tirePressures
      case Some(p) =>
        Some(TirePressures(RoundOneDecimal(p.fl), RoundOneDecimal(p.fr),
                           RoundOneDecimal(p.rl), RoundOneDecimal(p.rr)))
      case None => None,
      match s.gearing
      case Some(g) => Some(RoundGearing(g))
      case None => None)
  }

  predicate IntAxle(a: Axle) {
    IsInt(a.spring) && IsInt(a.damper) && IsInt(a.antiRollBar) && IsInt(a.rideHeight)
  }

  predicate IntElement(o: Option<real>) {
    o.Some? ==> IsInt(o.value)
  }

  predicate IntAero(a: Aerodynamics) {
    IntElement(a.frontWing) && IntElement(a.rearWing)
    && IntElement(a.frontSplitter) && IntElement(a.rearSpoiler)
  }

  predicate TwoDecimalGearing(g: Gearing) {
    && (g.final.Some? ==> IsTwoDecimals(g.final.value))
    && forall i :: 0 <= i < |g.ratios| ==> IsTwoDecimals(g.ratios[i].1)
  }

  /** The precision every field has after `roundSetupValues`. */
  predicate Rounded(s: Setup) {
    && (s.suspension.Some? ==> IntAxle(s.suspension.value.front) && IntAxle(s.suspension.value.rear))
    && (s.aerodynamics.Some? ==>
          IntAero(s.aerodynamics.value))
    && (s.differential.Some? ==>
          var d := s.differential.value;
          IsInt(d.preload) && IsInt(d.power) && IsInt(d.coast))
    && (s.brakes.Some? ==> IsInt(s.brakes.value.balance) && IsInt(s.brakes.value.pressure))
    && (s.tirePressures.Some? ==>
          var p := s.tirePressures.value;
          IsOneDecimal(p.fl) && IsOneDecimal(p.fr) && IsOneDecimal(p.rl) && IsOneDecimal(p.rr))
    && (s.gearing.Some? ==>
          TwoDecimalGearing(s.gearing.value))
  }

  predicate NearInt(x: real, y: real) { -0.5 < y - x <= 0.5 }
  predicate NearTenth(x: real, y: real) { -0.05 < y - x <= 0.05 }
  predicate NearHundredth(x: real, y: real) { -0.005 < y - x <= 0.005 }

  predicate NearAxle(a: Axle, b: Axle) {
    NearInt(a.spring, b.spring) && NearInt(a.damper, b.damper)
    && NearInt(a.antiRollBar, b.antiRollBar) && NearInt(a.rideHeight, b.rideHeight)
  }

  predicate NearElement(a: Option<real>, b: Option<real>) {
    a.Some? && b.Some? ==> NearInt(a.value, b.value)
  }

  predicate NearAero(a: Aerodynamics, b: Aerodynamics) {
    NearElement(a.frontWing, b.frontWing) && NearElement(a.rearWing, b.rearWing)
    && NearElement(a.frontSplitter, b.frontSplitter) && NearElement(a.rearSpoiler, b.rearSpoiler)
  }

  predicate NearGearing(a: Gearing, b: Gearing) {
    && (a.final.Some? && b.final.Some? ==> NearHundredth(a.final.value, b.final.value))
    && |a.ratios| == |b.ratios|
    && forall i :: 0 <= i < |a.ratios| ==> NearHundredth(a.ratios[i].1, b.ratios[i].1)
  }

  /**
   * Each field of `r` is within half a unit of its precision of the same
   * field of `s` (`Math.round` picks a nearest value).
   */
  predicate WithinHalfUnit(s: Setup, r: Setup) {
    && (s.suspension.Some? && r.suspension.Some? ==>
          NearAxle(s.suspension.value.front, r.suspension.value.front)
          && NearAxle(s.suspension.value.rear, r.suspension.value.rear))
    && (s.aerodynamics.Some? && r.aerodynamics.Some? ==>
          NearAero(s.aerodynamics.value, r.aerodynamics.value))
    && (s.differential.Some? && r.differential.Some? ==>
          var a, b := s.differential.value, r.differential.value;
          NearInt(a.preload, b.preload) && NearInt(a.power, b.power) && NearInt(a.coast, b.coast))
    && (s.brakes.Some? && r.brakes.Some? ==>
          NearInt(s.brakes.value.balance, r.brakes.value.balance)
          && NearInt(s.brakes.value.pressure, r.brakes.value.pressure))
    && (s.tirePressures.Some? && r.tirePressures.Some? ==>
          var a, b := s.tirePressures.value, r.tirePressures.value;
          NearTenth(a.fl, b.fl) && NearTenth(a.fr, b.fr) && NearTenth(a.rl, b.rl) && NearTenth(a.rr, b.rr))
    && (s.gearing.Some? && r.gearing.Some? ==>
          NearGearing(s.gearing.value, r.gearing.value))
  }

  /** A setup that is already at instrument precision is left as it is. */
  lemma RoundingFixesRounded(s: Setup)
    requires Rounded(s)
    ensures RoundSetupValues(s) == s
  {
    if s.gearing.Some? {
      var g := s.gearing.value;
      assert RoundGearing(g).ratios == g.ratios;
    }
  }

  /** `roundSetupValues` is idempotent. */
  lemma RoundSetupValuesIdempotent(s: Setup)
    ensures RoundSetupValues(RoundSetupValues(s)) == RoundSetupValues(s)
  {
    RoundingFixesRounded(RoundSetupValues(s));
  }

  /** Rounding keeps every tire pressure at or above a one-decimal floor `n / 10`. */
  lemma RoundingKeepsPressureFloor(s: Setup, n: int)
    requires s.tirePressures.Some? ==> AllPressuresAtLeast(s.tirePressures.value, n as real / 10.0)
    ensures var r := RoundSetupValues(s);
      r.tirePressures.Some? ==> AllPressuresAtLeast(r.tirePressures.value, n as real / 10.0)
  {
    if s.tirePressures.Some? {
      var p := s.tirePressures.value;
      RoundOneDecimalAtLeast(p.fl, n);
      RoundOneDecimalAtLeast(p.fr, n);
      RoundOneDecimalAtLeast(p.rl, n);
      RoundOneDecimalAtLeast(p.rr, n);
    }
  }

  /** Rounding keeps wings and splitter that are at least 1 at least 1. */
  lemma RoundingKeepsAeroFloor(a: Aerodynamics, s: Setup)
    requires s.aerodynamics.Some? && AeroCutFloored(a, s.aerodynamics.value)
    ensures AeroCutFloored(a, RoundSetupValues(s).aerodynamics.value)
  {
    var u := s.aerodynamics.value;
    if a.frontWing.Some? && a.frontWing.value != 0.0 { RoundIntAtLeast(u.frontWing.value, 1); }
    if a.rearWing.Some? && a.rearWing.value != 0.0 { RoundIntAtLeast(u.rearWing.value, 1); }
    if a.frontSplitter.Some? && a.frontSplitter.value != 0.0 { RoundIntAtLeast(u.frontSplitter.value, 1); }
  }
}

=== FILE: session.dfy ===
/**
 * `applySessionModifications` (backend/routes/generator.js): qualifying
 * adds downforce, race adds 0.2 to every tire pressure, and 'practice' or
 * any other session only rounds.
 */
module Session {

  import opened Options
  import opened JsNumber
  import opened Setup
  import opened SetupEdits
  import opened Rounding

  /** `applySessionModifications(setup, sessionType)`. */
  function ApplySessionModifications(s: Setup, sessionType: string): (r: Setup)
    ensures Rounded(r) && SameShape(s, r)
    ensures sessionType != "qualifying" && sessionType != "race" ==> r == RoundSetupValues(s)
    ensures sessionType == "qualifying" ==>
              && r.tirePressures == RoundSetupValues(s).tirePressures
              && r.suspension == RoundSetupValues(s).suspension
              && r.differential == RoundSetupValues(s).differential
              && r.brakes == RoundSetupValues(s).brakes
              && r.gearing == RoundSetupValues(s).gearing
              && (r.aerodynamics.Some? ==>
                    && r.aerodynamics.value.frontSplitter == RoundSetupValues(s).aerodynamics.value.frontSplitter
                    && r.aerodynamics.value.rearSpoiler == RoundSetupValues(s).aerodynamics.value.rearSpoiler)
    ensures sessionType == "race" ==>
              && r.aerodynamics == RoundSetupValues(s).aerodynamics
              && r.suspension == RoundSetupValues(s).suspension
              && r.differential == RoundSetupValues(s).differential
              && r.brakes == RoundSetupValues(s).brakes
              && r.gearing == RoundSetupValues(s).gearing
  {
    var modified :=
      match sessionType
      case "qualifying" => BumpAero(s, 1.0, 2.0, 0.0, 0.0)
      case "race" => AddPressures(s, 0.2)
      case _ => s;
    SameShapeTransitive(s, modified, RoundSetupValues(modified));
    RoundSetupValues(modified)
  }

  /** In a race every pressure already at one decimal goes up by exactly 0.2. */
  lemma RacePressures(s: Setup)
    requires s.tirePressures.Some?
    requires var p := s.tirePressures.value;
      IsOneDecimal(p.fl) && IsOneDecimal(p.fr) && IsOneDecimal(p.rl) && IsOneDecimal(p.rr)
    ensures var p := s.tirePressures.value;
      ApplySessionModifications(s, "race").tirePressures
        == Some(TirePressures(p.fl + 0.2, p.fr + 0.2, p.rl + 0.2, p.rr + 0.2))
  {
    var p := s.tirePressures.value;
    PlusTwoTenths(p.fl);
    PlusTwoTenths(p.fr);
    PlusTwoTenths(p.rl);
    PlusTwoTenths(p.rr);
  }

  lemma PlusTwoTenths(x: real)
    requires IsOneDecimal(x)
    ensures IsOneDecimal(x + 0.2)
  {
    var n := (x * 10.0).Floor;
    assert (x + 0.2) * 10.0 == (n + 2) as real;
    IntegerIsInt(n + 2);
  }

  /** In qualifying a whole, non-zero front wing gains 1 and rear wing 2. */
  lemma QualifyingWings(s: Setup, front: int, rear: int)
    requires front != 0 && rear != 0
    requires s.aerodynamics.Some?
    requires s.aerodynamics.value.frontWing == Some(front as real)
    requires s.aerodynamics.value.rearWing == Some(rear as real)
    ensures var a := ApplySessionModifications(s, "qualifying").aerodynamics.value;
      a.frontWing == Some(front as real + 1.0) && a.rearWing == Some(rear as real + 2.0)
  {
    IntegerIsInt(front + 1);
    IntegerIsInt(rear + 2);
  }
}

=== FILE: setup.dfy ===
/**
 * The setup record the rule-based generator of backend/routes/generator.js
 * threads through its stages.
 *
 * Every stage works on a deep copy made with `JSON.parse(JSON.stringify(..))`,
 * so a stage is a function from one immutable value to another. Each
 * subsystem is optional because every stage guards it (`if (setup.suspension)`,
 * `setup.tires?.pressure`, ...); inside a subsystem the fields are those of the
 * built-in templates. Aerodynamic elements differ between templates
 * (wings on GT3 and Formula cars, splitter and spoiler on NASCAR), so each is
 * optional on its own. `tirePressures` stands for `tires.pressure`.
 */
module Setup {

  import opened Options

  datatype Axle = Axle(spring: real, damper: real, antiRollBar: real, rideHeight: real)

  datatype Suspension = Suspension(front: Axle, rear: Axle)

  datatype Aerodynamics = Aerodynamics(
    frontWing: Option<real>,
    rearWing: Option<real>,
    frontSplitter: Option<real>,
    rearSpoiler: Option<real>)

  datatype Differential = Differential(preload: real, power: real, coast: real)

  datatype Brakes = Brakes(balance: real, pressure: real)

  datatype TirePressures = TirePressures(fl: real, fr: real, rl: real, rr: real)

  /** `gearing.final` and the `gearing.ratios` object, in key order. */
  datatype Gearing = Gearing(final: Option<real>, ratios: seq<(string, real)>)

  datatype Setup = Setup(
    suspension: Option<Suspension>,
    aerodynamics: Option<Aerodynamics>,
    differential: Option<Differential>,
    brakes: Option<Brakes>,
    tirePressures: Option<TirePressures>,
    gearing: Option<Gearing>)

  /** Which optional aerodynamic elements are present. */
  datatype AeroShape = AeroShape(frontWing: bool, rearWing: bool, frontSplitter: bool, rearSpoiler: bool)

  /** Whether `gearing.final` is present, and the gear names in key order. */
  datatype GearShape = GearShape(final: bool, names: seq<string>)

  /** Everything about a setup but its numbers: which parts are present, and the gear names. */
  datatype Shape = Shape(
    suspension: bool,
    aerodynamics: Option<AeroShape>,
    differential: bool,
    brakes: bool,
    tires: bool,
    gearing: Option<GearShape>)

  function GearNames(ratios: seq<(string, real)>): (r: seq<string>)
    ensures |r| == |ratios| && forall i :: 0 <= i < |ratios| ==> r[i] == ratios[i].0
  {
    seq(|ratios|, i requires 0 <= i < |ratios| => ratios[i].0)
  }

  function ShapeOf(s: Setup): Shape {
    Shape(
      s.suspension.Some?,
      match s.aerodynamics
      case None => None
      case Some(a) =>
        Some(AeroShape(a.frontWing.Some?, a.rearWing.Some?, a.frontSplitter.Some?, a.rearSpoiler.Some?)),
      s.differential.Some?,
      s.brakes.Some?,
      s.tirePressures.Some?,
      match s.gearing
      case None => None
      case Some(g) => Some(GearShape(g.final.Some?, GearNames(g.ratios))))
  }

  /** Dotted paths of the optional aerodynamic elements that are present. */
  function AeroFields(a: AeroShape): set<string> {
    (if a.frontWing then {"aerodynamics.frontWing"} else {})
    + (if a.rearWing then {"aerodynamics.rearWing"} else {})
    + (if a.frontSplitter then {"aerodynamics.frontSplitter"} else {})
    + (if a.rearSpoiler then {"aerodynamics.rearSpoiler"} else {})
  }

  /** Dotted paths of the gearing fields that are present: one per gear. */
  function GearingFields(g: GearShape): set<string> {
    {"gearing.ratios"}
    + (if g.final then {"gearing.final"} else {})
    + (set i | 0 <= i < |g.names| :: "gearing.ratios." + g.names[i])
  }

  /** The dotted paths a setup of shape `sh` populates. */
  function FieldsOf(sh: Shape): set<string> {
    (if sh.suspension then
       {"suspension.front.spring", "suspension.front.damper",
        "suspension.front.antiRollBar", "suspension.front.rideHeight",
        "suspension.rear.spring", "suspension.rear.damper",
        "suspension.rear.antiRollBar", "suspension.rear.rideHeight"}
     else {})
    + (if sh.aerodynamics.Some? then {"aerodynamics"} + AeroFields(sh.aerodynamics.value) else {})
    + (if sh.differential then {"differential.preload", "differential.power", "differential.coast"} else {})
    + (if sh.brakes then {"brakes.balance", "brakes.pressure"} else {})
    + (if sh.tires then {"tires.pressure.fl", "tires.pressure.fr", "tires.pressure.rl", "tires.pressure.rr"} else {})
    + (if sh.gearing.Some? then GearingFields(sh.gearing.value) else {})
  }

  /** The populated fields of a setup, as dotted paths from the root. */
  function Fields(s: Setup): set<string> {
    FieldsOf(ShapeOf(s))
  }

  /** Same gear names in the same order. */
  predicate SameGears(a: seq<(string, real)>, b: seq<(string, real)>) {
    |a| == |b| && forall i :: 0 <= i < |a| ==> a[i].0 == b[i].0
  }

  /**
   * Same presence of every optional part. Stages are checked against this
   * structural relation; `SameShapeIff` connects it to `ShapeOf`.
   */
  predicate SameShape(a: Setup, b: Setup) {
    && a.suspension.Some? == b.suspension.Some?
    && a.aerodynamics.Some? == b.aerodynamics.Some?
    && (a.aerodynamics.Some? ==>
          && a.aerodynamics.value.frontWing.Some? == b.aerodynamics.value.frontWing.Some?
          && a.aerodynamics.value.rearWing.Some? == b.aerodynamics.value.rearWing.Some?
          && a.aerodynamics.value.frontSplitter.Some? == b.aerodynamics.value.frontSplitter.Some?
          && a.aerodynamics.value.rearSpoiler.Some? == b.aerodynamics.value.rearSpoiler.Some?)
    && a.differential.Some? == b.differential.Some?
    && a.brakes.Some? == b.brakes.Some?
    && a.tirePressures.Some? == b.tirePressures.Some?
    && a.gearing.Some? == b.gearing.Some?
    && (a.gearing.Some? ==>
          && a.gearing.value.final.Some? == b.gearing.value.final.Some?
          && SameGears(a.gearing.value.ratios, b.gearing.value.ratios))
  }

  /** The field-by-field relation is exactly equality of shapes. */
  lemma SameShapeIff(a: Setup, b: Setup)
    ensures SameShape(a, b) <==> ShapeOf(a) == ShapeOf(b)
  {
    if a.gearing.Some? && b.gearing.Some? {
      var ra, rb := a.gearing.value.ratios, b.gearing.value.ratios;
      if SameGears(ra, rb) {
        assert GearNames(ra) == GearNames(rb);
      }
      if GearNames(ra) == GearNames(rb) {
        forall i | 0 <= i < |ra|
          ensures ra[i].0 == rb[i].0
        {
          assert GearNames(ra)[i] == GearNames(rb)[i];
        }
      }
    }
  }

  /** Setups of the same shape populate exactly the same fields. */
  lemma SameShapeSameFields(a: Setup, b: Setup)
    requires SameShape(a, b)
    ensures Fields(a) == Fields(b)
  {
    SameShapeIff(a, b);
  }

  /** The relation is an equivalence: stages compose without losing it. */
  lemma SameShapeTransitive(a: Setup, b: Setup, c: Setup)
    requires SameShape(a, b) && SameShape(b, c)
    ensures SameShape(a, c)
  {
  }
}

=== FILE: setup_edits.dfy ===
/**
 * The field updates the generator stages are made of. Each one touches only
 * fields that exist: an absent subsystem is skipped, and an aerodynamic
 * element is changed only when it is truthy (`if (setup.aerodynamics.frontWing)`),
 * so an element equal to 0 is treated like an absent one.
 */
module SetupEdits {

  import opened Options
  import opened JsNumber
  import opened Setup

  /** `x.spring *= front` / `*= rear` on the two axles. */
  function ScaleSprings(s: Setup, front: real, rear: real): (r: Setup)
    ensures SameShape(s, r)
    ensures r.aerodynamics == s.aerodynamics && r.differential == s.differential && r.brakes == s.brakes
    ensures r.tirePressures == s.tirePressures && r.gearing == s.gearing
  {
    match s.suspension
    case None => s
    case Some(x) =>
      s.(suspension := Some(Suspension(
        x.front.(spring := x.front.spring * front),
        x.rear.(spring := x.rear.spring * rear))))
  }

  function ScaleDampers(s: Setup, front: real, rear: real): (r: Setup)
    ensures SameShape(s, r)
    ensures r.aerodynamics == s.aerodynamics && r.differential == s.differential && r.brakes == s.brakes
    ensures r.tirePressures == s.tirePressures && r.gearing == s.gearing
  {
    match s.suspension
    case None => s
    case Some(x) =>
      s.(suspension := Some(Suspension(
        x.front.(damper := x.front.damper * front),
        x.rear.(damper := x.rear.damper * rear))))
  }

  function ScaleAntiRollBars(s: Setup, front: real, rear: real): (r: Setup)
    ensures SameShape(s, r)
    ensures r.aerodynamics == s.aerodynamics && r.differential == s.differential && r.brakes == s.brakes
    ensures r.tirePressures == s.tirePressures && r.gearing == s.gearing
  {
    match s.suspension
    case None => s
    case Some(x) =>
      s.(suspension := Some(Suspension(
        x.front.(antiRollBar := x.front.antiRollBar * front),
        x.rear.(antiRollBar := x.rear.antiRollBar * rear))))
  }

  function AddAntiRollBars(s: Setup, front: real, rear: real): (r: Setup)
    ensures SameShape(s, r)
    ensures r.aerodynamics == s.aerodynamics && r.differential == s.differential && r.brakes == s.brakes
    ensures r.tirePressures == s.tirePressures && r.gearing == s.gearing
  {
    match s.suspension
    case None => s
    case Some(x) =>
      s.(suspension := Some(Suspension(
        x.front.(antiRollBar := x.front.antiRollBar + front),
        x.rear.(antiRollBar := x.rear.antiRollBar + rear))))
  }

  function AddRideHeights(s: Setup, front: real, rear: real): (r: Setup)
    ensures SameShape(s, r)
    ensures r.aerodynamics == s.aerodynamics && r.differential == s.differential && r.brakes == s.brakes
    ensures r.tirePressures == s.tirePressures && r.gearing == s.gearing
  {
    match s.suspension
    case None => s
    case Some(x) =>
      s.(suspension := Some(Suspension(
        x.front.(rideHeight := x.front.rideHeight + front),
        x.rear.(rideHeight := x.rear.rideHeight + rear))))
  }

  /** `if (v) v += d`: a present, non-zero element is raised. */
  function BumpElement(o: Option<real>, d: real): (r: Option<real>)
    ensures r.Some? == o.Some?
  {
    if o.Some? && o.value != 0.0 then Some(o.value + d) else o
  }

  /** `if (v) v = Math.max(1, v - d)`: a present, non-zero element is cut, never below 1. */
  function CutElement(o: Option<real>, d: real): (r: Option<real>)
    ensures r.Some? == o.Some?
    ensures o.Some? && o.value != 0.0 ==> r.value >= 1.0
    ensures o.Some? && o.value == 0.0 ==> r == o
  {
    if o.Some? && o.value != 0.0 then Some(Max(1.0, o.value - d)) else o
  }

  /** Raises the truthy wings, splitter and spoiler by the given amounts. */
  function BumpAero(s: Setup, frontWing: real, rearWing: real, frontSplitter: real, rearSpoiler: real): (r: Setup)
    ensures SameShape(s, r)
    ensures frontWing >= 0.0 && rearWing >= 0.0 && frontSplitter >= 0.0 && s.aerodynamics.Some? ==>
              AeroFloorKept(s.aerodynamics.value, r.aerodynamics.value)
    ensures r.suspension == s.suspension && r.differential == s.differential && r.brakes == s.brakes
    ensures r.tirePressures == s.tirePressures && r.gearing == s.gearing
  {
    match s.aerodynamics
    case None => s
    case Some(a) =>
      s.(aerodynamics := Some(Aerodynamics(
        BumpElement(a.frontWing, frontWing), BumpElement(a.rearWing, rearWing),
        BumpElement(a.frontSplitter, frontSplitter), BumpElement(a.rearSpoiler, rearSpoiler))))
  }

  /** Cuts the truthy wings and splitter, each floored at 1; the spoiler is untouched. */
  function CutAero(s: Setup, frontWing: real, rearWing: real, frontSplitter: real): (r: Setup)
    ensures SameShape(s, r)
    ensures s.aerodynamics.Some? ==> AeroCutFloored(s.aerodynamics.value, r.aerodynamics.value)
    ensures r.suspension == s.suspension && r.differential == s.differential && r.brakes == s.brakes
    ensures r.tirePressures == s.tirePressures && r.gearing == s.gearing
  {
    match s.aerodynamics
    case None => s
    case Some(a) =>
      s.(aerodynamics := Some(Aerodynamics(
        CutElement(a.frontWing, frontWing), CutElement(a.rearWing, rearWing),
        CutElement(a.frontSplitter, frontSplitter), a.rearSpoiler)))
  }

  function ScaleDifferential(s: Setup, preload: real, power: real, coast: real): (r: Setup)
    ensures SameShape(s, r)
    ensures r.suspension == s.suspension && r.aerodynamics == s.aerodynamics && r.brakes == s.brakes
    ensures r.tirePressures == s.tirePressures && r.gearing == s.gearing
  {
    match s.differential
    case None => s
    case Some(d) => s.(differential := Some(Differential(d.preload * preload, d.power * power, d.coast * coast)))
  }

  function AddDifferential(s: Setup, power: real, coast: real): (r: Setup)
    ensures SameShape(s, r)
    ensures r.suspension == s.suspension && r.aerodynamics == s.aerodynamics && r.brakes == s.brakes
    ensures r.tirePressures == s.tirePressures && r.gearing == s.gearing
  {
    match s.differential
    case None => s
    case Some(d) => s.(differential := Some(d.(power := d.power + power, coast := d.coast + coast)))
  }

  /** `balance += balance; pressure *= pressure`. */
  function AdjustBrakes(s: Setup, balance: real, pressure: real): (r: Setup)
    ensures SameShape(s, r)
    ensures r.suspension == s.suspension && r.aerodynamics == s.aerodynamics && r.differential == s.differential
    ensures r.tirePressures == s.tirePressures && r.gearing == s.gearing
  {
    match s.brakes
    case None => s
    case Some(b) => s.(brakes := Some(Brakes(b.balance + balance, b.pressure * pressure)))
  }

  /** Adds `d` to every tire pressure. */
  function AddPressures(s: Setup, d: real): (r: Setup)
    ensures SameShape(s, r)
    ensures r.suspension == s.suspension && r.aerodynamics == s.aerodynamics && r.differential == s.differential
    ensures r.brakes == s.brakes && r.gearing == s.gearing
  {
    match s.tirePressures
    case None => s
    case Some(p) => s.(tirePressures := Some(TirePressures(p.fl + d, p.fr + d, p.rl + d, p.rr + d)))
  }

  /** Adds `d` to the right-hand tires only. */
  function AddRightPressures(s: Setup, d: real): (r: Setup)
    ensures SameShape(s, r)
    ensures r.suspension == s.suspension && r.aerodynamics == s.aerodynamics && r.differential == s.differential
    ensures r.brakes == s.brakes && r.gearing == s.gearing
  {
    match s.tirePressures
    case None => s
    case Some(p) => s.(tirePressures := Some(p.(fr := p.fr + d, rr := p.rr + d)))
  }

  /** `p = Math.max(floor, p - d)` on every tire. */
  function LowerPressures(s: Setup, floor: real, d: real): (r: Setup)
    ensures SameShape(s, r)
    ensures r.suspension == s.suspension && r.aerodynamics == s.aerodynamics && r.differential == s.differential
    ensures r.brakes == s.brakes && r.gearing == s.gearing
    ensures r.tirePressures.Some? ==> AllPressuresAtLeast(r.tirePressures.value, floor)
  {
    match s.tirePressures
    case None => s
    case Some(p) =>
      s.(tirePressures := Some(TirePressures(
        Max(floor, p.fl - d), Max(floor, p.fr - d), Max(floor, p.rl - d), Max(floor, p.rr - d))))
  }

  predicate AllPressuresAtLeast(p: TirePressures, floor: real) {
    p.fl >= floor && p.fr >= floor && p.rl >= floor && p.rr >= floor
  }

  /** A present, non-zero element that is at least 1 stays at least 1. */
  predicate AtLeastOneIfTruthy(before: Option<real>, after: Option<real>) {
    before.Some? && before.value != 0.0 ==> after.Some? && after.value >= 1.0
  }

  /** Wings and splitter that were truthy are now at least 1. */
  predicate AeroCutFloored(a: Aerodynamics, b: Aerodynamics) {
    && AtLeastOneIfTruthy(a.frontWing, b.frontWing)
    && AtLeastOneIfTruthy(a.rearWing, b.rearWing)
    && AtLeastOneIfTruthy(a.frontSplitter, b.frontSplitter)
  }

  predicate KeepsOne(before: Option<real>, after: Option<real>) {
    before.Some? && before.value >= 1.0 ==> after.Some? && after.value >= 1.0
  }

  /** Wings and splitter at least 1 stay at least 1. */
  predicate AeroFloorKept(a: Aerodynamics, b: Aerodynamics) {
    KeepsOne(a.frontWing, b.frontWing) && KeepsOne(a.rearWing, b.rearWing)
    && KeepsOne(a.frontSplitter, b.frontSplitter)
  }

  /** No tire pressure went down. */
  predicate PressuresNotLowered(s: Setup, r: Setup) {
    s.tirePressures.Some? ==>
      && r.tirePressures.Some?
      && var p, q := s.tirePressures.value, r.tirePressures.value;
      && q.fl >= p.fl && q.fr >= p.fr && q.rl >= p.rl && q.rr >= p.rr
  }
}

=== FILE: style.dfy ===
/**
 * `applySetupStyle` (backend/routes/generator.js): the 'safe' and
 * 'aggressive' presets. Any other style string, 'balanced' included, leaves
 * the setup as it is apart from the final rounding.
 */
module Style {

  import opened Options
  import opened JsNumber
  import opened Setup
  import opened SetupEdits
  import opened Rounding

  /** Softer, higher, more open; more front brake bias and downforce. */
  function SafeStyle(s: Setup): (r: Setup)
    ensures SameShape(s, r)
  {
    var suspension := AddRideHeights(ScaleAntiRollBars(ScaleDampers(ScaleSprings(s, 0.88, 0.90), 0.92, 0.92), 0.85, 0.88), 2.0, 2.0);
    var aero := BumpAero(suspension, 1.0, 2.0, 1.0, 2.0);
    var diff := ScaleDifferential(aero, 0.85, 0.78, 0.75);
    var brakes := AdjustBrakes(diff, 2.0, 0.95);
    SameShapeTransitive(s, suspension, aero);
    SameShapeTransitive(s, aero, diff);
    SameShapeTransitive(s, diff, brakes);
    SameShapeTransitive(s, brakes, AddPressures(brakes, 0.5));
    AddPressures(brakes, 0.5)
  }

  /** Stiffer springs, dampers and anti-roll bars, and 2 lower at both ends. */
  function AggressiveSuspension(s: Setup): (r: Setup)
    ensures SameShape(s, r)
    ensures r.aerodynamics == s.aerodynamics && r.tirePressures == s.tirePressures
  {
    var springs := ScaleSprings(s, 1.12, 1.10);
    var dampers := ScaleDampers(springs, 1.08, 1.08);
    var bars := ScaleAntiRollBars(dampers, 1.15, 1.12);
    SameShapeTransitive(s, springs, dampers);
    SameShapeTransitive(s, dampers, bars);
    SameShapeTransitive(s, bars, AddRideHeights(bars, -2.0, -2.0));
    AddRideHeights(bars, -2.0, -2.0)
  }

  /** The aggressive preset's shared part, before the car-category extras. */
  function AggressiveCommon(s: Setup, trackType: string): (r: Setup)
    ensures SameShape(s, r)
    ensures r.tirePressures.Some? ==> AllPressuresAtLeast(r.tirePressures.value, 19.0)
    ensures trackType == "road" && s.aerodynamics.Some? ==> AeroCutFloored(s.aerodynamics.value, r.aerodynamics.value)
  {
    var suspension := AggressiveSuspension(s);
    // only road tracks trim the wings and the splitter, each floored at 1
    var aero := if trackType == "road" then CutAero(suspension, 1.0, 1.0, 1.0) else suspension;
    var diff := ScaleDifferential(aero, 1.12, 1.18, 1.08);
    var brakes := AdjustBrakes(diff, -1.0, 1.03);
    var r := LowerPressures(brakes, 19.0, 0.8);
    SameShapeTransitive(s, suspension, aero);
    SameShapeTransitive(s, aero, diff);
    SameShapeTransitive(s, diff, brakes);
    SameShapeTransitive(s, brakes, r);
    r
  }

  /** GT3 cars get more rake; Formula cars get both wings back up by 1. */
  function CategoryExtras(s: Setup, carCategory: string): (r: Setup)
    ensures SameShape(s, r)
    ensures r.tirePressures == s.tirePressures
    ensures s.aerodynamics.Some? ==> AeroFloorKept(s.aerodynamics.value, r.aerodynamics.value)
  {
    if carCategory == "GT3" then AddRideHeights(s, -3.0, 0.0)
    else if carCategory == "Formula" then BumpAero(s, 1.0, 1.0, 0.0, 0.0)
    else s
  }

  function AggressiveStyle(s: Setup, carCategory: string, trackType: string): (r: Setup)
    ensures SameShape(s, r)
    ensures r.tirePressures.Some? ==> AllPressuresAtLeast(r.tirePressures.value, 19.0)
    ensures trackType == "road" && s.aerodynamics.Some? ==> AeroCutFloored(s.aerodynamics.value, r.aerodynamics.value)
  {
    var common := AggressiveCommon(s, trackType);
    SameShapeTransitive(s, common, CategoryExtras(common, carCategory));
    CategoryExtras(common, carCategory)
  }

  /** `applySetupStyle(baseSetup, style, carCategory, trackType)`. */
  function ApplySetupStyle(s: Setup, style: string, carCategory: string, trackType: string): (r: Setup)
    ensures Rounded(r) && SameShape(s, r)
    ensures style != "safe" && style != "aggressive" ==> r == RoundSetupValues(s)
    ensures style == "aggressive" && r.tirePressures.Some? ==> AllPressuresAtLeast(r.tirePressures.value, 19.0)
    ensures style == "aggressive" && trackType == "road" && s.aerodynamics.Some? ==>
              AeroCutFloored(s.aerodynamics.value, r.aerodynamics.value)
  {
    var styled :=
      if style == "safe" then SafeStyle(s)
      else if style == "aggressive" then AggressiveStyle(s, carCategory, trackType)
      else s;
    SameShapeTransitive(s, styled, RoundSetupValues(styled));
    if style == "aggressive" then
      RoundingKeepsPressureFloor(styled, 190);
      if trackType == "road" && s.aerodynamics.Some? then
        RoundingKeepsAeroFloor(s.aerodynamics.value, styled);
        RoundSetupValues(styled)
      else RoundSetupValues(styled)
    else RoundSetupValues(styled)
  }
}

=== FILE: templates.dfy ===
/**
 * `generateDefaultSetup` (backend/routes/generator.js): the built-in
 * template table, keyed by car category and then track type, with the GT3
 * road template as the fallback for every pair the table lacks.
 *
 * Keys are compared as exact strings: 'gt3', 'Road' or 'Formula 1' find
 * nothing and fall back.
 */
module Templates {

  import opened Options
  import opened Setup
  import Rounding

  function Template(
    front: Axle, rear: Axle, aero: Aerodynamics, diff: Differential,
    brakes: Brakes, tires: TirePressures): Setup
  {
    Setup(Some(Suspension(front, rear)), Some(aero), Some(diff), Some(brakes), Some(tires), None)
  }

  const Gt3Road: Setup := Template(
    Axle(950.0, 65.0, 8.0, 55.0), Axle(1050.0, 60.0, 6.0, 60.0),
    Aerodynamics(Some(4.0), Some(6.0), None, None),
    Differential(80.0, 65.0, 45.0),
    Brakes(53.0, 80.0),
    TirePressures(23.0, 23.0, 22.5, 22.5))

  const Gt3Oval: Setup := Template(
    Axle(1100.0, 70.0, 12.0, 45.0), Axle(1200.0, 65.0, 8.0, 50.0),
    Aerodynamics(Some(6.0), Some(8.0), None, None),
    Differential(90.0, 75.0, 55.0),
    Brakes(52.0, 80.0),
    TirePressures(24.0, 24.0, 23.0, 23.0))

  const FormulaRoad: Setup := Template(
    Axle(1400.0, 80.0, 15.0, 35.0), Axle(1500.0, 75.0, 12.0, 40.0),
    Aerodynamics(Some(8.0), Some(12.0), None, None),
    Differential(60.0, 50.0, 35.0),
    Brakes(56.0, 85.0),
    TirePressures(24.0, 24.0, 23.5, 23.5))

  const NascarOval: Setup := Template(
    Axle(1600.0, 90.0, 20.0, 40.0), Axle(1700.0, 85.0, 15.0, 45.0),
    Aerodynamics(None, None, Some(4.0), Some(7.0)),
    Differential(100.0, 80.0, 60.0),
    Brakes(50.0, 75.0),
    TirePressures(32.0, 35.0, 31.0, 34.0))

  /** The `baseSetups` object. */
  const BaseSetups: map<string, map<string, Setup>> := map[
    "GT3" := map["road" := Gt3Road, "oval" := Gt3Oval],
    "Formula" := map["road" := FormulaRoad],
    "NASCAR" := map["oval" := NascarOval]]

  /** `baseSetups[carCategory]?.[trackType] || baseSetups['GT3']['road']`. */
  function GenerateDefaultSetup(carCategory: string, trackType: string): (r: Setup)
    ensures r in {Gt3Road, Gt3Oval, FormulaRoad, NascarOval}
    ensures Rounding.Rounded(r) && r.gearing.None?
    ensures r.suspension.Some? && r.aerodynamics.Some? && r.differential.Some?
    ensures r.brakes.Some? && r.tirePressures.Some?
  {
    if carCategory in BaseSetups && trackType in BaseSetups[carCategory] then
      BaseSetups[carCategory][trackType]
    else
      BaseSetups["GT3"]["road"]
  }

  /**
   * The table, both ways: the four listed pairs get their own template and
   * every other pair, Formula on an oval included, gets the GT3 road one.
   */
  lemma DefaultSetupTable(carCategory: string, trackType: string)
    ensures carCategory == "GT3" && trackType == "road" ==> GenerateDefaultSetup(carCategory, trackType) == Gt3Road
    ensures carCategory == "GT3" && trackType == "oval" ==> GenerateDefaultSetup(carCategory, trackType) == Gt3Oval
    ensures carCategory == "Formula" && trackType == "road" ==> GenerateDefaultSetup(carCategory, trackType) == FormulaRoad
    ensures carCategory == "NASCAR" && trackType == "oval" ==> GenerateDefaultSetup(carCategory, trackType) == NascarOval
    ensures !(carCategory == "GT3" && trackType in {"road", "oval"})
            && !(carCategory == "Formula" && trackType == "road")
            && !(carCategory == "NASCAR" && trackType == "oval")
            ==> GenerateDefaultSetup(carCategory, trackType) == Gt3Road
  {
  }

  /** Both wings and no splitter or spoiler on the GT3 and Formula templates;
    * a splitter and a spoiler and no wings on the NASCAR one. */
  lemma TemplateAeroShape(carCategory: string, trackType: string)
    ensures var a := GenerateDefaultSetup(carCategory, trackType).aerodynamics.value;
      (carCategory == "NASCAR" && trackType == "oval") <==>
        (a.frontWing.None? && a.rearWing.None? && a.frontSplitter.Some? && a.rearSpoiler.Some?)
    ensures var a := GenerateDefaultSetup(carCategory, trackType).aerodynamics.value;
      !(carCategory == "NASCAR" && trackType == "oval") ==>
        a.frontWing.Some? && a.rearWing.Some? && a.frontSplitter.None? && a.rearSpoiler.None?
  {
    DefaultSetupTable(carCategory, trackType);
  }
}

=== FILE: translation_table.dfy ===
/**
 * The constant `translations` object of src/i18n/translations.js. Each
 * language's texts are kept as the consecutive blocks of the source (its
 * commented sections, the longer ones cut into blocks of at most ten
 * entries), and each block is shown to carry the same keys with non-empty
 * texts in both languages, so the assembled object is complete. Both
 * languages list the keys in the same order. Characters outside ASCII are
 * written as Unicode escapes.
 */
module TranslationTable {

  /**
   * `translations.es` and `translations.en`, each as its blocks in source
   * order; a language's table is the union of its blocks.
   */
  datatype Translations = Translations(es: seq<map<string, string>>, en: seq<map<string, string>>)

  /** No text is the empty string, which `||` would skip. */
  predicate NonEmptyTexts(m: map<string, string>) {
    forall k :: k in m ==> m[k] != ""
  }

  predicate SameKeys(a: map<string, string>, b: map<string, string>) {
    (forall k :: k in a ==> k in b) && (forall k :: k in b ==> k in a)
  }

  /** A block in both languages: the same keys, and no text empty. */
  predicate Matching(es: map<string, string>, en: map<string, string>) {
    SameKeys(es, en) && NonEmptyTexts(es) && NonEmptyTexts(en)
  }

  /** Every block of one language matches the block of the other at the same position. */
  predicate Complete(t: Translations) {
    |t.es| == |t.en| && forall i :: 0 <= i < |t.es| ==> Matching(t.es[i], t.en[i])
  }

  /** src/i18n/translations.js:6-12 */
  const EsHeaderAndNavigation: map<string, string> := map[
    "appTitle" := "iRacing Setup Assistant",
    "searchSetups" := "\U{1F50D} Buscar Setups",
    "generator" := "\U{2699}\U{FE0F} Generador",
    "favorites" := "\U{2764}\U{FE0F} Favoritos",
    "compare" := "\U{1F4CA} Comparar",
    "login" := "Iniciar Sesi\U{F3}n",
    "logout" := "Cerrar Sesi\U{F3}n"
  ]

  /** src/i18n/translations.js:178-184 */
  const EnHeaderAndNavigation: map<string, string> := map[
    "appTitle" := "iRacing Setup Assistant",
    "searchSetups" := "\U{1F50D} Search Setups",
    "generator" := "\U{2699}\U{FE0F} Generator",
    "favorites" := "\U{2764}\U{FE0F} Favorites",
    "compare" := "\U{1F4CA} Compare",
    "login" := "Login",
    "logout" := "Logout"
  ]

  /** Both languages of this block bind the same keys to non-empty texts. */
  lemma HeaderAndNavigationMatches()
    ensures Matching(EsHeaderAndNavigation, EnHeaderAndNavigation)
  {
  }

  /** src/i18n/translations.js:15-20 */
  const EsSearch: map<string, string> := map[
    "advancedSearch" := "\U{1F50D} B\U{FA}squeda Avanzada de Setups",
    "allCars" := "Todos los coches",
    "allTracks" := "Todos los circuitos",
    "sessionType" := "Tipo de sesi\U{F3}n",
    "searchByName" := "Buscar por nombre...",
    "search" := "Buscar"
  ]

  /** src/i18n/translations.js:187-192 */
  const EnSearch: map<string, string> := map[
    "advancedSearch" := "\U{1F50D} Advanced Setup Search",
    "allCars" := "All cars",
    "allTracks" := "All tracks",
    "sessionType" := "Session type",
    "searchByName" := "Search by name...",
    "search" := "Search"
  ]

  /** Both languages of this block bind the same keys to non-empty texts. */
  lemma SearchMatches()
    ensures Matching(EsSearch, EnSearch)
  {
  }

  /** src/i18n/translations.js:23-26 */
  const EsSessionTypes: map<string, string> := map[
    "qualifying" := "Qualifying",
    "race" := "Race",
    "rain" := "Rain",
    "endurance" := "Endurance"
  ]

  /** src/i18n/translations.js:195-198 */
  const EnSessionTypes: map<string, string> := map[
    "qualifying" := "Qualifying",
    "race" := "Race",
    "rain" := "Rain",
    "endurance" := "Endurance"
  ]

  /** Both languages of this block bind the same keys to non-empty texts. */
  lemma SessionTypesMatches()
    ensures Matching(EsSessionTypes, EnSessionTypes)
  {
  }

  /** src/i18n/translations.js:29-36 */
  const EsSetupCard1: map<string, string> := map[
    "car" := "\U{1F3CE}\U{FE0F} Coche",
    "track" := "\U{1F3C1} Circuito",
    "session" := "\U{1F4CB} Sesi\U{F3}n",
    "style" := "\U{1F3AF} Estilo",
    "generated" := "\U{1F916} Generado",
    "generatedAt" := "\U{23F0} Generado",
    "generatedSetup" := "Setup Generado",
    "at" := "en"
  ]

  /** src/i18n/translations.js:201-208 */
  const EnSetupCard1: map<string, string> := map[
    "car" := "\U{1F3CE}\U{FE0F} Car",
    "track" := "\U{1F3C1} Track",
    "session" := "\U{1F4CB} Session",
    "style" := "\U{1F3AF} Style",
    "generated" := "\U{1F916} Generated",
    "generatedAt" := "\U{23F0} Generated",
    "generatedSetup" := "Generated Setup",
    "at" := "at"
  ]

  /** Both languages of this block bind the same keys to non-empty texts. */
  lemma SetupCard1Matches()
    ensures Matching(EsSetupCard1, EnSetupCard1)
  {
  }

  /** src/i18n/translations.js:37-44 */
  const EsSetupCard2: map<string, string> := map[
    "download" := "Descargar",
    "favorite" := "Favorito",
    "addFavorite" := "Agregar a Favoritos",
    "selected" := "Seleccionado",
    "favoriteSetups" := "Setups Favoritos",
    "selectUpToCompare" := "Selecciona hasta 3 setups para comparar",
    "rating" := "Rating",
    "downloads" := "Descargas"
  ]

  /** src/i18n/translations.js:209-216 */
  const EnSetupCard2: map<string, string> := map[
    "download" := "Download",
    "favorite" := "Favorite",
    "addFavorite" := "Add to Favorites",
    "selected" := "Selected",
    "favoriteSetups" := "Favorite Setups",
    "selectUpToCompare" := "Select up to 3 setups to compare",
    "rating" := "Rating",
    "downloads" := "Downloads"
  ]

  /** Both languages of this block bind the same keys to non-empty texts. */
  lemma SetupCard2Matches()
    ensures Matching(EsSetupCard2, EnSetupCard2)
  {
  }

  /** src/i18n/translations.js:47-49 */
  const EsSetupStyles: map<string, string> := map[
    "safe" := "\U{1F6E1}\U{FE0F} Seguro",
    "balanced" := "\U{2696}\U{FE0F} Equilibrado",
    "aggressive" := "\U{26A1} Agresivo"
  ]

  /** src/i18n/translations.js:219-221 */
  const EnSetupStyles: map<string, string> := map[
    "safe" := "\U{1F6E1}\U{FE0F} Safe",
    "balanced" := "\U{2696}\U{FE0F} Balanced",
    "aggressive" := "\U{26A1} Aggressive"
  ]

  /** Both languages of this block bind the same keys to non-empty texts. */
  lemma SetupStylesMatches()
    ensures Matching(EsSetupStyles, EnSetupStyles)
  {
  }

  /** src/i18n/translations.js:52-57 */
  const EsGenerator1: map<string, string> := map[
    "automaticGenerator" := "\U{2699}\U{FE0F} Generador Autom\U{E1}tico de Setups",
    "automaticSetupGenerator" := "\U{2699}\U{FE0F} Generador Autom\U{E1}tico de Setups",
    "selectCar" := "Selecciona un coche",
    "selectTrack" := "Selecciona un circuito",
    "safeConfig" := "\U{1F6E1}\U{FE0F} Configuraci\U{F3}n Segura",
    "safeConfiguration" := "\U{1F6E1}\U{FE0F} Configuraci\U{F3}n Segura"
  ]

  /** src/i18n/translations.js:224-229 */
  const EnGenerator1: map<string, string> := map[
    "automaticGenerator" := "\U{2699}\U{FE0F} Automatic Setup Generator",
    "automaticSetupGenerator" := "\U{2699}\U{FE0F} Automatic Setup Generator",
    "selectCar" := "Select a car",
    "selectTrack" := "Select a track",
    "safeConfig" := "\U{1F6E1}\U{FE0F} Safe Configuration",
    "safeConfiguration" := "\U{1F6E1}\U{FE0F} Safe Configuration"
  ]

  /** Both languages of this block bind the same keys to non-empty texts. */
  lemma Generator1Matches()
    ensures Matching(EsGenerator1, EnGenerator1)
  {
  }

  /** src/i18n/translations.js:58-63 */
  const EsGenerator2: map<string, string> := map[
    "balancedConfig" := "\U{2696}\U{FE0F} Configuraci\U{F3}n Equilibrada",
    "balancedConfiguration" := "\U{2696}\U{FE0F} Configuraci\U{F3}n Equilibrada",
    "aggressiveConfig" := "\U{26A1} Configuraci\U{F3}n Agresiva",
    "aggressiveConfiguration" := "\U{26A1} Configuraci\U{F3}n Agresiva",
    "generateSetup" := "Generar Setup Base",
    "generateBaseSetup" := "Generar Setup Base"
  ]

  /** src/i18n/translations.js:230-235 */
  const EnGenerator2: map<string, string> := map[
    "balancedConfig" := "\U{2696}\U{FE0F} Balanced Configuration",
    "balancedConfiguration" := "\U{2696}\U{FE0F} Balanced Configuration",
    "aggressiveConfig" := "\U{26A1} Aggressive Configuration",
    "aggressiveConfiguration" := "\U{26A1} Aggressive Configuration",
    "generateSetup" := "Generate Base Setup",
    "generateBaseSetup" := "Generate Base Setup"
  ]

  /** Both languages of this block bind the same keys to non-empty texts. */
  lemma Generator2Matches()
    ensures Matching(EsGenerator2, EnGenerator2)
  {
  }

  /** src/i18n/translations.js:66-75 */
  const EsGeneratorInfo: map<string, string> := map[
    "generatorInfo" := "\U{2139}\U{FE0F} Informaci\U{F3}n del Generador",
    "generatorInformation" := "\U{2139}\U{FE0F} Informaci\U{F3}n del Generador",
    "generatorDescription" := "El generador autom\U{E1}tico crea setups base optimizados seg\U{FA}n:",
    "trackType" := "\U{1F3C1} Tipo de circuito (Oval, Road, Dirt)",
    "trackTypeInfo" := "\U{1F3C1} Tipo de circuito (Oval, Road, Dirt)",
    "trackCharacteristics" := "\U{1F4CF} Caracter\U{ED}sticas del track (longitud, curvas)",
    "carCategory" := "\U{1F3CE}\U{FE0F} Categor\U{ED}a del coche",
    "sessionTypeInfo" := "\U{23F1}\U{FE0F} Tipo de sesi\U{F3}n",
    "configStyle" := "\U{1F3AF} Estilo de configuraci\U{F3}n seleccionado",
    "selectedConfigurationStyle" := "\U{1F3AF} Estilo de configuraci\U{F3}n seleccionado"
  ]

  /** src/i18n/translations.js:238-247 */
  const EnGeneratorInfo: map<string, string> := map[
    "generatorInfo" := "\U{2139}\U{FE0F} Generator Information",
    "generatorInformation" := "\U{2139}\U{FE0F} Generator Information",
    "generatorDescription" := "The automatic generator creates optimized base setups based on:",
    "trackType" := "\U{1F3C1} Track type (Oval, Road, Dirt)",
    "trackTypeInfo" := "\U{1F3C1} Track type (Oval, Road, Dirt)",
    "trackCharacteristics" := "\U{1F4CF} Track characteristics (length, corners)",
    "carCategory" := "\U{1F3CE}\U{FE0F} Car category",
    "sessionTypeInfo" := "\U{23F1}\U{FE0F} Session type",
    "configStyle" := "\U{1F3AF} Selected configuration style",
    "selectedConfigurationStyle" := "\U{1F3AF} Selected configuration style"
  ]

  /** Both languages of this block bind the same keys to non-empty texts. */
  lemma GeneratorInfoMatches()
    ensures Matching(EsGeneratorInfo, EnGeneratorInfo)
  {
  }

  /** src/i18n/translations.js:78-82 */
  const EsConfigurationStyles: map<string, string> := map[
    "setupStyles" := "\U{1F3AF} Estilos de Configuraci\U{F3}n:",
    "configurationStyles" := "\U{1F3AF} Estilos de Configuraci\U{F3}n",
    "safeDescription" := "Configuraci\U{F3}n estable y predecible. Ideal para pilotos que buscan consistencia y facilidad de manejo. Menos propenso a errores.",
    "balancedDescription" := "Balance perfecto entre rendimiento y estabilidad. Configuraci\U{F3}n vers\U{E1}til para la mayor\U{ED}a de situaciones.",
    "aggressiveDescription" := "M\U{E1}ximo rendimiento en las manos adecuadas. Configuraci\U{F3}n m\U{E1}s r\U{E1}pida pero requiere mayor habilidad y precisi\U{F3}n."
  ]

  /** src/i18n/translations.js:250-254 */
  const EnConfigurationStyles: map<string, string> := map[
    "setupStyles" := "\U{1F3AF} Configuration Styles:",
    "configurationStyles" := "\U{1F3AF} Configuration Styles",
    "safeDescription" := "Stable and predictable configuration. Ideal for drivers seeking consistency and ease of handling. Less prone to errors.",
    "balancedDescription" := "Perfect balance between performance and stability. Versatile configuration for most situations.",
    "aggressiveDescription" := "Maximum performance in the right hands. Faster configuration but requires greater skill and precision."
  ]

  /** Both languages of this block bind the same keys to non-empty texts. */
  lemma ConfigurationStylesMatches()
    ensures Matching(EsConfigurationStyles, EnConfigurationStyles)
  {
  }

  /** src/i18n/translations.js:85-93 */
  const EsTechnicalDetails: map<string, string> := map[
    "technicalDetails" := "\U{1F527} Ver Detalles T\U{E9}cnicos",
    "hideTechnicalDetails" := "\U{1F527} Ocultar Detalles",
    "completeTechnicalConfig" := "\U{1F4CA} Configuraci\U{F3}n T\U{E9}cnica Completa",
    "suspension" := "\U{1F3CE}\U{FE0F} Suspensi\U{F3}n",
    "aerodynamics" := "\U{2708}\U{FE0F} Aerodin\U{E1}mica",
    "differential" := "\U{2699}\U{FE0F} Diferencial",
    "brakes" := "\U{1F6D1} Frenos",
    "tires" := "\U{1F3C1} Neum\U{E1}ticos",
    "transmission" := "\U{1F527} Transmisi\U{F3}n"
  ]

  /** src/i18n/translations.js:257-265 */
  const EnTechnicalDetails: map<string, string> := map[
    "technicalDetails" := "\U{1F527} View Technical Details",
    "hideTechnicalDetails" := "\U{1F527} Hide Details",
    "completeTechnicalConfig" := "\U{1F4CA} Complete Technical Configuration",
    "suspension" := "\U{1F3CE}\U{FE0F} Suspension",
    "aerodynamics" := "\U{2708}\U{FE0F} Aerodynamics",
    "differential" := "\U{2699}\U{FE0F} Differential",
    "brakes" := "\U{1F6D1} Brakes",
    "tires" := "\U{1F3C1} Tires",
    "transmission" := "\U{1F527} Transmission"
  ]

  /** Both languages of this block bind the same keys to non-empty texts. */
  lemma TechnicalDetailsMatches()
    ensures Matching(EsTechnicalDetails, EnTechnicalDetails)
  {
  }

  /** src/i18n/translations.js:96-102 */
  const EsTechnicalComponents1: map<string, string> := map[
    "front" := "Delantero",
    "rear" := "Trasero",
    "spring" := "Muelle",
    "damper" := "Amortiguador",
    "antiRollBar" := "Barra anti-balanceo",
    "frontWing" := "Aler\U{F3}n Delantero",
    "rearWing" := "Aler\U{F3}n Trasero"
  ]

  /** src/i18n/translations.js:268-274 */
  const EnTechnicalComponents1: map<string, string> := map[
    "front" := "Front",
    "rear" := "Rear",
    "spring" := "Spring",
    "damper" := "Damper",
    "antiRollBar" := "Anti-roll bar",
    "frontWing" := "Front Wing",
    "rearWing" := "Rear Wing"
  ]

  /** Both languages of this block bind the same keys to non-empty texts. */
  lemma TechnicalComponents1Matches()
    ensures Matching(EsTechnicalComponents1, EnTechnicalComponents1)
  {
  }

  /** src/i18n/translations.js:103-109 */
  const EsTechnicalComponents2: map<string, string> := map[
    "frontSplitter" := "Splitter Delantero",
    "preload" := "Precarga",
    "power" := "Potencia",
    "coast" := "Retenci\U{F3}n",
    "balance" := "Balance",
    "pressure" := "Presi\U{F3}n",
    "frontLeft" := "Presi\U{F3}n Del. Izq."
  ]

  /** src/i18n/translations.js:275-281 */
  const EnTechnicalComponents2: map<string, string> := map[
    "frontSplitter" := "Front Splitter",
    "preload" := "Preload",
    "power" := "Power",
    "coast" := "Coast",
    "balance" := "Balance",
    "pressure" := "Pressure",
    "frontLeft" := "Front Left Pressure"
  ]

  /** Both languages of this block bind the same keys to non-empty texts. */
  lemma TechnicalComponents2Matches()
    ensures Matching(EsTechnicalComponents2, EnTechnicalComponents2)
  {
  }

  /** src/i18n/translations.js:110-116 */
  const EsTechnicalComponents3: map<string, string> := map[
    "frontRight" := "Presi\U{F3}n Del. Der.",
    "rearLeft" := "Presi\U{F3}n Tras. Izq.",
    "rearRight" := "Presi\U{F3}n Tras. Der.",
    "frontPressure" := "Presi\U{F3}n Delantera",
    "rearPressure" := "Presi\U{F3}n Trasera",
    "finalRatio" := "Relaci\U{F3}n Final",
    "gears" := "Marchas"
  ]

  /** src/i18n/translations.js:282-288 */
  const EnTechnicalComponents3: map<string, string> := map[
    "frontRight" := "Front Right Pressure",
    "rearLeft" := "Rear Left Pressure",
    "rearRight" := "Rear Right Pressure",
    "frontPressure" := "Front Pressure",
    "rearPressure" := "Rear Pressure",
    "finalRatio" := "Final Ratio",
    "gears" := "Gears"
  ]

  /** Both languages of this block bind the same keys to non-empty texts. */
  lemma TechnicalComponents3Matches()
    ensures Matching(EsTechnicalComponents3, EnTechnicalComponents3)
  {
  }

  /** src/i18n/translations.js:119 */
  const EsFavorites: map<string, string> := map[
    "myFavorites" := "\U{2764}\U{FE0F} Mis Setups Favoritos"
  ]

  /** src/i18n/translations.js:291 */
  const EnFavorites: map<string, string> := map[
    "myFavorites" := "\U{2764}\U{FE0F} My Favorite Setups"
  ]

  /** Both languages of this block bind the same keys to non-empty texts. */
  lemma FavoritesMatches()
    ensures Matching(EsFavorites, EnFavorites)
  {
  }

  /** src/i18n/translations.js:122-124 */
  const EsComparator: map<string, string> := map[
    "setupComparator" := "\U{1F4CA} Comparador de Setups",
    "selectUpTo4" := "Selecciona hasta 4 setups para comparar sus diferencias",
    "compareSetups" := "Comparar Setups"
  ]

  /** src/i18n/translations.js:294-296 */
  const EnComparator: map<string, string> := map[
    "setupComparator" := "\U{1F4CA} Setup Comparator",
    "selectUpTo4" := "Select up to 4 setups to compare their differences",
    "compareSetups" := "Compare Setups"
  ]

  /** Both languages of this block bind the same keys to non-empty texts. */
  lemma ComparatorMatches()
    ensures Matching(EsComparator, EnComparator)
  {
  }

  /** src/i18n/translations.js:127-136 */
  const EsAuthentication: map<string, string> := map[
    "loginTitle" := "Iniciar Sesi\U{F3}n",
    "registerTitle" := "Registrarse",
    "username" := "Usuario",
    "email" := "Email",
    "password" := "Contrase\U{F1}a",
    "noAccount" := "\U{BF}No tienes cuenta?",
    "hasAccount" := "\U{BF}Ya tienes cuenta?",
    "register" := "Registrarse",
    "credentialsError" := "Error en las credenciales",
    "connectionError" := "Error de conexi\U{F3}n"
  ]

  /** src/i18n/translations.js:299-308 */
  const EnAuthentication: map<string, string> := map[
    "loginTitle" := "Login",
    "registerTitle" := "Register",
    "username" := "Username",
    "email" := "Email",
    "password" := "Password",
    "noAccount" := "Don't have an account?",
    "hasAccount" := "Already have an account?",
    "register" := "Register",
    "credentialsError" := "Credentials error",
    "connectionError" := "Connection error"
  ]

  /** Both languages of this block bind the same keys to non-empty texts. */
  lemma AuthenticationMatches()
    ensures Matching(EsAuthentication, EnAuthentication)
  {
  }

  /** src/i18n/translations.js:139-148 */
  const EsSetupFile1: map<string, string> := map[
    "setupForIracing" := "=== SETUP PARA iRACING ===",
    "applicationInstructions" := "=== INSTRUCCIONES DE APLICACI\U{D3}N ===",
    "openIracing" := "1. Abre iRacing y ve al Garage",
    "selectCarInstruction" := "2. Selecciona el coche",
    "applyValues" := "3. Aplica los siguientes valores:",
    "importantNotes" := "=== NOTAS IMPORTANTES ===",
    "optimizedStartingPoint" := "\U{2022} Este setup es un punto de partida optimizado",
    "adjustToStyle" := "\U{2022} Ajusta seg\U{FA}n tu estilo de conducci\U{F3}n",
    "practiceFirst" := "\U{2022} Practica antes de usar en carrera",
    "fineAdjustments" := "\U{2022} Los valores pueden necesitar ajustes finos"
  ]

  /** src/i18n/translations.js:311-320 */
  const EnSetupFile1: map<string, string> := map[
    "setupForIracing" := "=== SETUP FOR iRACING ===",
    "applicationInstructions" := "=== APPLICATION INSTRUCTIONS ===",
    "openIracing" := "1. Open iRacing and go to Garage",
    "selectCarInstruction" := "2. Select the car",
    "applyValues" := "3. Apply the following values:",
    "importantNotes" := "=== IMPORTANT NOTES ===",
    "optimizedStartingPoint" := "\U{2022} This setup is an optimized starting point",
    "adjustToStyle" := "\U{2022} Adjust according to your driving style",
    "practiceFirst" := "\U{2022} Practice before using in race",
    "fineAdjustments" := "\U{2022} Values may need fine adjustments"
  ]

  /** Both languages of this block bind the same keys to non-empty texts. */
  lemma SetupFile1Matches()
    ensures Matching(EsSetupFile1, EnSetupFile1)
  {
  }

  /** src/i18n/translations.js:149-158 */
  const EsSetupFile2: map<string, string> := map[
    "styleCharacteristics" := "=== CARACTER\U{CD}STICAS DEL ESTILO",
    "safeConfigFile" := "\U{1F6E1}\U{FE0F} CONFIGURACI\U{D3}N SEGURA:",
    "safeFeature1" := "\U{2022} Prioriza la estabilidad sobre la velocidad pura",
    "safeFeature2" := "\U{2022} Ideal para pilotos que buscan consistencia",
    "safeFeature3" := "\U{2022} Menos propenso a errores de pilotaje",
    "safeFeature4" := "\U{2022} Perfecto para carreras largas",
    "balancedConfigFile" := "\U{2696}\U{FE0F} CONFIGURACI\U{D3}N EQUILIBRADA:",
    "balancedFeature1" := "\U{2022} Balance perfecto entre rendimiento y estabilidad",
    "balancedFeature2" := "\U{2022} Vers\U{E1}til para diferentes condiciones",
    "balancedFeature3" := "\U{2022} Buen punto de partida para ajustes personales"
  ]

  /** src/i18n/translations.js:321-330 */
  const EnSetupFile2: map<string, string> := map[
    "styleCharacteristics" := "=== STYLE CHARACTERISTICS",
    "safeConfigFile" := "\U{1F6E1}\U{FE0F} SAFE CONFIGURATION:",
    "safeFeature1" := "\U{2022} Prioritizes stability over pure speed",
    "safeFeature2" := "\U{2022} Ideal for drivers seeking consistency",
    "safeFeature3" := "\U{2022} Less prone to driving errors",
    "safeFeature4" := "\U{2022} Perfect for long races",
    "balancedConfigFile" := "\U{2696}\U{FE0F} BALANCED CONFIGURATION:",
    "balancedFeature1" := "\U{2022} Perfect balance between performance and stability",
    "balancedFeature2" := "\U{2022} Versatile for different conditions",
    "balancedFeature3" := "\U{2022} Good starting point for personal adjustments"
  ]

  /** Both languages of this block bind the same keys to non-empty texts. */
  lemma SetupFile2Matches()
    ensures Matching(EsSetupFile2, EnSetupFile2)
  {
  }

  /** src/i18n/translations.js:159-168 */
  const EsSetupFile3: map<string, string> := map[
    "balancedFeature4" := "\U{2022} Adecuado para la mayor\U{ED}a de pilotos",
    "aggressiveConfigFile" := "\U{26A1} CONFIGURACI\U{D3}N AGRESIVA:",
    "aggressiveFeature1" := "\U{2022} M\U{E1}ximo rendimiento en las manos adecuadas",
    "aggressiveFeature2" := "\U{2022} Requiere mayor habilidad y precisi\U{F3}n",
    "aggressiveFeature3" := "\U{2022} Ideal para qualifying y sprints",
    "aggressiveFeature4" := "\U{2022} Puede ser inestable para pilotos novatos",
    "generatedBy" := "=== GENERADO POR iRacing Setup Assistant ===",
    "visitRepo" := "Visita: https://github.com/tu-repo para m\U{E1}s informaci\U{F3}n",
    "height" := "Altura",
    "tirePressurePsi" := "Neum\U{E1}ticos (Presi\U{F3}n en PSI)"
  ]

  /** src/i18n/translations.js:331-340 */
  const EnSetupFile3: map<string, string> := map[
    "balancedFeature4" := "\U{2022} Suitable for most drivers",
    "aggressiveConfigFile" := "\U{26A1} AGGRESSIVE CONFIGURATION:",
    "aggressiveFeature1" := "\U{2022} Maximum performance in the right hands",
    "aggressiveFeature2" := "\U{2022} Requires greater skill and precision",
    "aggressiveFeature3" := "\U{2022} Ideal for qualifying and sprints",
    "aggressiveFeature4" := "\U{2022} May be unstable for novice drivers",
    "generatedBy" := "=== GENERATED BY iRacing Setup Assistant ===",
    "visitRepo" := "Visit: https://github.com/your-repo for more information",
    "height" := "Height",
    "tirePressurePsi" := "Tires (Pressure in PSI)"
  ]

  /** Both languages of this block bind the same keys to non-empty texts. */
  lemma SetupFile3Matches()
    ensures Matching(EsSetupFile3, EnSetupFile3)
  {
  }

  /** src/i18n/translations.js:171-173 */
  const EsLanguages: map<string, string> := map[
    "language" := "Idioma",
    "spanish" := "Espa\U{F1}ol",
    "english" := "English"
  ]

  /** src/i18n/translations.js:343-345 */
  const EnLanguages: map<string, string> := map[
    "language" := "Language",
    "spanish" := "Espa\U{F1}ol",
    "english" := "English"
  ]

  /** Both languages of this block bind the same keys to non-empty texts. */
  lemma LanguagesMatches()
    ensures Matching(EsLanguages, EnLanguages)
  {
  }

  /** `translations.es`: its blocks in source order. */
  const EsTable: seq<map<string, string>> :=
      [EsHeaderAndNavigation]
    + [EsSearch]
    + [EsSessionTypes]
    + [EsSetupCard1]
    + [EsSetupCard2]
    + [EsSetupStyles]
    + [EsGenerator1]
    + [EsGenerator2]
    + [EsGeneratorInfo]
    + [EsConfigurationStyles]
    + [EsTechnicalDetails]
    + [EsTechnicalComponents1]
    + [EsTechnicalComponents2]
    + [EsTechnicalComponents3]
    + [EsFavorites]
    + [EsComparator]
    + [EsAuthentication]
    + [EsSetupFile1]
    + [EsSetupFile2]
    + [EsSetupFile3]
    + [EsLanguages]

  /** `translations.en`: its blocks in source order. */
  const EnTable: seq<map<string, string>> :=
      [EnHeaderAndNavigation]
    + [EnSearch]
    + [EnSessionTypes]
    + [EnSetupCard1]
    + [EnSetupCard2]
    + [EnSetupStyles]
    + [EnGenerator1]
    + [EnGenerator2]
    + [EnGeneratorInfo]
    + [EnConfigurationStyles]
    + [EnTechnicalDetails]
    + [EnTechnicalComponents1]
    + [EnTechnicalComponents2]
    + [EnTechnicalComponents3]
    + [EnFavorites]
    + [EnComparator]
    + [EnAuthentication]
    + [EnSetupFile1]
    + [EnSetupFile2]
    + [EnSetupFile3]
    + [EnLanguages]

  /** The application's `translations` object. */
  const AppTranslations: Translations := Translations(EsTable, EnTable)

  /** One matching block is a complete table. */
  lemma CompleteSingle(es: map<string, string>, en: map<string, string>)
    requires Matching(es, en)
    ensures Complete(Translations([es], [en]))
  {
  }

  /** A complete table followed by one more matching block is complete. */
  lemma CompleteSnoc(t: Translations, es: map<string, string>, en: map<string, string>)
    requires Complete(t) && Matching(es, en)
    ensures Complete(Translations(t.es + [es], t.en + [en]))
  {
    assert forall i :: 0 <= i < |t.es| ==> (t.es + [es])[i] == t.es[i] && (t.en + [en])[i] == t.en[i];
  }

  /** The application's `translations` object is complete: every block matches in both languages. */
  lemma AppTranslationsComplete()
    ensures Complete(AppTranslations)
  {
    HeaderAndNavigationMatches();
    CompleteSingle(EsHeaderAndNavigation, EnHeaderAndNavigation);
    var t := Translations([EsHeaderAndNavigation], [EnHeaderAndNavigation]);
    SearchMatches();
    CompleteSnoc(t, EsSearch, EnSearch);
    t := Translations(t.es + [EsSearch], t.en + [EnSearch]);
    SessionTypesMatches();
    CompleteSnoc(t, EsSessionTypes, EnSessionTypes);
    t := Translations(t.es + [EsSessionTypes], t.en + [EnSessionTypes]);
    SetupCard1Matches();
    CompleteSnoc(t, EsSetupCard1, EnSetupCard1);
    t := Translations(t.es + [EsSetupCard1], t.en + [EnSetupCard1]);
    SetupCard2Matches();
    CompleteSnoc(t, EsSetupCard2, EnSetupCard2);
    t := Translations(t.es + [EsSetupCard2], t.en + [EnSetupCard2]);
    SetupStylesMatches();
    CompleteSnoc(t, EsSetupStyles, EnSetupStyles);
    t := Translations(t.es + [EsSetupStyles], t.en + [EnSetupStyles]);
    Generator1Matches();
    CompleteSnoc(t, EsGenerator1, EnGenerator1);
    t := Translations(t.es + [EsGenerator1], t.en + [EnGenerator1]);
    Generator2Matches();
    CompleteSnoc(t, EsGenerator2, EnGenerator2);
    t := Translations(t.es + [EsGenerator2], t.en + [EnGenerator2]);
    GeneratorInfoMatches();
    CompleteSnoc(t, EsGeneratorInfo, EnGeneratorInfo);
    t := Translations(t.es + [EsGeneratorInfo], t.en + [EnGeneratorInfo]);
    ConfigurationStylesMatches();
    CompleteSnoc(t, EsConfigurationStyles, EnConfigurationStyles);
    t := Translations(t.es + [EsConfigurationStyles], t.en + [EnConfigurationStyles]);
    TechnicalDetailsMatches();
    CompleteSnoc(t, EsTechnicalDetails, EnTechnicalDetails);
    t := Translations(t.es + [EsTechnicalDetails], t.en + [EnTechnicalDetails]);
    TechnicalComponents1Matches();
    CompleteSnoc(t, EsTechnicalComponents1, EnTechnicalComponents1);
    t := Translations(t.es + [EsTechnicalComponents1], t.en + [EnTechnicalComponents1]);
    TechnicalComponents2Matches();
    CompleteSnoc(t, EsTechnicalComponents2, EnTechnicalComponents2);
    t := Translations(t.es + [EsTechnicalComponents2], t.en + [EnTechnicalComponents2]);
    TechnicalComponents3Matches();
    CompleteSnoc(t, EsTechnicalComponents3, EnTechnicalComponents3);
    t := Translations(t.es + [EsTechnicalComponents3], t.en + [EnTechnicalComponents3]);
    FavoritesMatches();
    CompleteSnoc(t, EsFavorites, EnFavorites);
    t := Translations(t.es + [EsFavorites], t.en + [EnFavorites]);
    ComparatorMatches();
    CompleteSnoc(t, EsComparator, EnComparator);
    t := Translations(t.es + [EsComparator], t.en + [EnComparator]);
    AuthenticationMatches();
    CompleteSnoc(t, EsAuthentication, EnAuthentication);
    t := Translations(t.es + [EsAuthentication], t.en + [EnAuthentication]);
    SetupFile1Matches();
    CompleteSnoc(t, EsSetupFile1, EnSetupFile1);
    t := Translations(t.es + [EsSetupFile1], t.en + [EnSetupFile1]);
    SetupFile2Matches();
    CompleteSnoc(t, EsSetupFile2, EnSetupFile2);
    t := Translations(t.es + [EsSetupFile2], t.en + [EnSetupFile2]);
    SetupFile3Matches();
    CompleteSnoc(t, EsSetupFile3, EnSetupFile3);
    t := Translations(t.es + [EsSetupFile3], t.en + [EnSetupFile3]);
    LanguagesMatches();
    CompleteSnoc(t, EsLanguages, EnLanguages);
    t := Translations(t.es + [EsLanguages], t.en + [EnLanguages]);
  }
}

=== FILE: translations.dfy ===
/**
 * `getTranslation` and `formatTranslation` of src/i18n/translations.js: a
 * lookup with a fallback to Spanish and then to the key itself, and
 * positional `{i}` interpolation through `String.prototype.replace` with a
 * string pattern, which replaces the first occurrence only and expands the
 * `$$`, `$&`, `` $` `` and `$'` patterns of the replacement.
 */
module Translations {

  import opened Options
  import opened TranslationTable
  import Decimal

  /** The last of the first `n` blocks that binds `key`, if any. */
  function LastBinding(blocks: seq<map<string, string>>, key: string, n: nat): (r: Option<nat>)
    requires n <= |blocks|
    ensures r.None? <==> forall i :: 0 <= i < n ==> key !in blocks[i]
    ensures r.Some? ==> r.value < n && key in blocks[r.value]
    ensures r.Some? ==> forall j :: r.value < j < n ==> key !in blocks[j]
    decreases n
  {
    if n == 0 then None
    else if key in blocks[n - 1] then Some(n - 1)
    else LastBinding(blocks, key, n - 1)
  }

  /**
   * `table[key]` for a table kept as blocks: the value in the last block that
   * binds `key`, as a later key of an object literal overrides an earlier
   * one; `None` is `undefined`.
   */
  function Find(blocks: seq<map<string, string>>, key: string): (r: Option<string>)
    ensures r.None? <==> forall i :: 0 <= i < |blocks| ==> key !in blocks[i]
    ensures r.Some? ==> exists i :: 0 <= i < |blocks| && key in blocks[i] && r.value == blocks[i][key]
                                    && forall j :: i < j < |blocks| ==> key !in blocks[j]
  {
    match LastBinding(blocks, key, |blocks|)
    case None => None
    case Some(i) => Some(blocks[i][key])
  }

  /** `translations[language]`: the `es` or `en` table, `None` for any other code. */
  function TableFor(t: Translations, language: string): (r: Option<seq<map<string, string>>>)
    ensures r.Some? <==> language == "es" || language == "en"
    ensures r.Some? ==> r.value == if language == "en" then t.en else t.es
  {
    if language == "es" then Some(t.es) else if language == "en" then Some(t.en) else None
  }

  /** `translations[language]?.[key]`. */
  function OwnText(t: Translations, language: string, key: string): Option<string> {
    match TableFor(t, language)
    case None => None
    case Some(blocks) => Find(blocks, key)
  }

  /** A defined, non-empty text: what `||` keeps. */
  predicate Truthy(o: Option<string>) {
    o.Some? && o.value != ""
  }

  /** `getTranslation(language, key)` over the `translations` object `t`. */
  function GetTranslation(t: Translations, language: string, key: string): (r: string)
    ensures Truthy(OwnText(t, language, key)) ==> r == OwnText(t, language, key).value
    ensures !Truthy(OwnText(t, language, key)) ==>
              r == if Truthy(Find(t.es, key)) then Find(t.es, key).value else key
    ensures r == "" ==> key == ""
  {
    var own := OwnText(t, language, key);
    if Truthy(own) then own.value
    else
      var es := Find(t.es, key);
      if Truthy(es) then es.value else key
  }

  /** Whether `p` occurs in `s` at `i`. */
  predicate OccursAt(s: string, p: string, i: nat) {
    i + |p| <= |s| && s[i..i + |p|] == p
  }

  /** The first occurrence of `p` in `s` at or after `from`: `s.indexOf(p, from)`. */
  function FindFrom(s: string, p: string, from: nat): (r: Option<nat>)
    ensures r.Some? ==> from <= r.value && OccursAt(s, p, r.value)
    ensures r.Some? ==> forall j :: from <= j < r.value ==> !OccursAt(s, p, j)
    ensures r.None? ==> forall j :: from <= j ==> !OccursAt(s, p, j)
    decreases |s| - from
  {
    if from + |p| > |s| then None
    else if s[from..from + |p|] == p then Some(from)
    else FindFrom(s, p, from + 1)
  }

  /**
   * The replacement text for one match: `$$` is `$`, `$&` the match, `` $` ``
   * the text before it and `$'` the text after it; any other `$` is literal
   * (a string pattern has no capture groups).
   */
  function Expand(rep: string, before: string, matched: string, after: string): string
    decreases |rep|
  {
    if rep == [] then []
    else if rep[0] == '$' && |rep| >= 2 && rep[1] in "$&`'" then
      (match rep[1]
       case '$' => "$"
       case '&' => matched
       case '`' => before
       case _ => after)
      + Expand(rep[2..], before, matched, after)
    else [rep[0]] + Expand(rep[1..], before, matched, after)
  }

  /** A replacement without `$` is inserted as it is. */
  lemma {:induction false} ExpandPlain(rep: string, before: string, matched: string, after: string)
    requires '$' !in rep
    ensures Expand(rep, before, matched, after) == rep
    decreases |rep|
  {
    if rep != [] {
      ExpandPlain(rep[1..], before, matched, after);
    }
  }

  /** `s.replace(p, rep)` with a string pattern. */
  function Replace(s: string, p: string, rep: string): (r: string)
    ensures FindFrom(s, p, 0).None? ==> r == s
  {
    match FindFrom(s, p, 0)
    case None => s
    case Some(i) => s[..i] + Expand(rep, s[..i], p, s[i + |p|..]) + s[i + |p|..]
  }

  /**
   * Only the first occurrence is replaced: the text before it and the text
   * after it, later occurrences included, are kept, and the occurrence
   * itself becomes the expanded replacement, which is the replacement as it
   * is when it holds no `$`.
   */
  lemma ReplaceFirstOnly(s: string, p: string, rep: string, i: nat)
    requires OccursAt(s, p, i) && forall j :: 0 <= j < i ==> !OccursAt(s, p, j)
    ensures Replace(s, p, rep) == s[..i] + Expand(rep, s[..i], p, s[i + |p|..]) + s[i + |p|..]
    ensures '$' !in rep ==> Replace(s, p, rep) == s[..i] + rep + s[i + |p|..]
  {
    var f := FindFrom(s, p, 0);
    assert f == Some(i);
    if '$' !in rep {
      ExpandPlain(rep, s[..i], p, s[i + |p|..]);
    }
  }

  /** The pattern `{i}`. */
  function Placeholder(i: nat): (p: string)
    ensures |p| >= 3 && p[0] == '{' && p[|p| - 1] == '}'
  {
    "{" + Decimal.Decimal(i) + "}"
  }

  /** `args.reduce((str, arg, index) => str.replace(`{${index}}`, arg), str)` from index `i`. */
  function FormatFrom(str: string, args: seq<string>, i: nat): string
    decreases |args|
  {
    if args == [] then str
    else FormatFrom(Replace(str, Placeholder(i), args[0]), args[1..], i + 1)
  }

  /** `formatTranslation(language, key, ...args)` over the `translations` object `t`. */
  function FormatTranslation(t: Translations, language: string, key: string, args: seq<string>): (r: string)
    ensures args == [] ==> r == GetTranslation(t, language, key)
  {
    FormatFrom(GetTranslation(t, language, key), args, 0)
  }

  /** Every language but `'en'` reads the Spanish table. */
  lemma UnknownLanguageIsSpanish(t: Translations, language: string, key: string)
    requires language != "en"
    ensures GetTranslation(t, language, key) == GetTranslation(t, "es", key)
  {
  }

  /** A string with no `{` is unchanged by any argument. */
  lemma {:induction false} NoBraceUnchanged(str: string, args: seq<string>, i: nat)
    requires '{' !in str
    ensures FormatFrom(str, args, i) == str
    decreases |args|
  {
    if args != [] {
      NoBraceUnchanged(str, args[1..], i + 1);
    }
  }

  /** A key bound in some block of a complete table is bound in the other language too, with a non-empty text. */
  lemma FindInComplete(t: Translations, key: string)
    requires Complete(t)
    ensures Find(t.es, key).Some? <==> Find(t.en, key).Some?
    ensures Find(t.es, key).Some? ==> Find(t.es, key).value != "" && Find(t.en, key).value != ""
  {
    if Find(t.en, key).Some? {
      var j :| 0 <= j < |t.en| && key in t.en[j] && Find(t.en, key).value == t.en[j][key];
      assert Matching(t.es[j], t.en[j]);
      assert key in t.es[j];
    }
    if Find(t.es, key).Some? {
      var i :| 0 <= i < |t.es| && key in t.es[i] && Find(t.es, key).value == t.es[i][key];
      assert Matching(t.es[i], t.en[i]);
      assert key in t.en[i];
      var j :| 0 <= j < |t.en| && key in t.en[j] && Find(t.en, key).value == t.en[j][key];
      assert Matching(t.es[j], t.en[j]);
    }
  }

  /**
   * In a complete table a known key is always translated: English for
   * `'en'`, Spanish for every other code.
   */
  lemma KnownKeysTranslated(t: Translations, language: string, key: string)
    requires Complete(t) && Find(t.es, key).Some?
    ensures language == "en" ==> Find(t.en, key).Some? && GetTranslation(t, language, key) == Find(t.en, key).value
    ensures language != "en" ==> GetTranslation(t, language, key) == Find(t.es, key).value
  {
    FindInComplete(t, key);
  }

  /** In a complete table an unknown key comes back as the key itself, in every language. */
  lemma UnknownKeyIsEchoed(t: Translations, language: string, key: string)
    requires Complete(t) && Find(t.es, key).None?
    ensures GetTranslation(t, language, key) == key
  {
    FindInComplete(t, key);
  }

  /**
   * The application's own table: a key it defines is translated, into
   * English for `'en'` and into Spanish for every other code.
   */
  lemma AppKnownKeysTranslated(language: string, key: string)
    requires Find(AppTranslations.es, key).Some?
    ensures language == "en" ==>
              Find(AppTranslations.en, key).Some? && GetTranslation(AppTranslations, language, key) == Find(AppTranslations.en, key).value
    ensures language != "en" ==> GetTranslation(AppTranslations, language, key) == Find(AppTranslations.es, key).value
  {
    AppTranslationsComplete();
    KnownKeysTranslated(AppTranslations, language, key);
  }

  /** The application's own table echoes every key it does not define, in every language. */
  lemma AppUnknownKeyIsEchoed(language: string, key: string)
    requires Find(AppTranslations.es, key).None?
    ensures GetTranslation(AppTranslations, language, key) == key
  {
    AppTranslationsComplete();
    UnknownKeyIsEchoed(AppTranslations, language, key);
  }

  /** A translation without `{` is returned as it is, whatever the arguments. */
  lemma PlainTranslationIgnoresArgs(t: Translations, language: string, key: string, args: seq<string>)
    requires '{' !in GetTranslation(t, language, key)
    ensures FormatTranslation(t, language, key, args) == GetTranslation(t, language, key)
  {
    NoBraceUnchanged(GetTranslation(t, language, key), args, 0);
  }

  /** Argument `i` fills the first `{i}` only; a second `{0}` stays. */
  lemma FirstPlaceholderOnly()
    ensures FormatFrom("{0} / {0}", ["x"], 0) == "x / {0}"
  {
    var s := "{0} / {0}";
    assert Placeholder(0) == "{0}" by {
      assert Decimal.Decimal(0) == "0";
    }
    assert OccursAt(s, "{0}", 0) by {
      assert s[0..3] == "{0}";
    }
    ReplaceFirstOnly(s, "{0}", "x", 0);
    assert s[..0] + "x" == "x";
    assert Replace(s, "{0}", "x") == "x" + s[3..];
    assert s[3..] == " / {0}";
    assert FormatFrom(s, ["x"], 0) == FormatFrom(Replace(s, "{0}", "x"), [], 1);
  }

  /** A `$&` in an argument puts the placeholder back. */
  lemma DollarAmpersandReinsertsPlaceholder()
    ensures FormatFrom("a{0}b", ["$&"], 0) == "a{0}b"
  {
    var s := "a{0}b";
    assert Placeholder(0) == "{0}" by {
      assert Decimal.Decimal(0) == "0";
    }
    assert !OccursAt(s, "{0}", 0) by {
      assert s[0..3][0] == 'a';
    }
    assert OccursAt(s, "{0}", 1) by {
      assert s[1..4] == "{0}";
    }
    assert FindFrom(s, "{0}", 0) == Some(1);
    assert s[..1] == "a" && s[4..] == "b";
    assert Expand("$&", "a", "{0}", "b") == "{0}" by {
      assert Expand("", "a", "{0}", "b") == "";
    }
    assert Replace(s, "{0}", "$&") == "a" + "{0}" + "b";
    assert FormatFrom(s, ["$&"], 0) == FormatFrom(Replace(s, "{0}", "$&"), [], 1);
  }
}
